=== FILE: README.md ===
# Autotune123 core in Dafny

A model of the computational core of Autotune123. Autotune123 is a web app that reads a
person's glucose readings, treatments and insulin profile from a Nightscout
site, recommends new insulin settings, and turns them back into a profile.

The model covers four parts:

- **Deviation calculator and recommendation engine** (`autotune_engine.py`).
  - Each glucose reading is paired with the one before it.
  - The treatments between the two readings give an "expected change".
  - The deviation from that expectation drives one ISF row, one carb-ratio
    row and one row per basal schedule entry.
  - `run_autotune` turns every failure into an error report.
  - The Nightscout client's URL and token normalisation and its
    filtering and sorting of records are included.
- **Profile-adjustment applier** (`autotune.py`). `create_adjusted_profile`
  writes recommendation rows into an OpenAPS profile, and its shallow copy
  is modelled. Also covered: the URL check and control flow of
  `run_modern`, and the reshaping done by `get`.
- **Recommendation-table pipeline** (`data_processing/*`). These are row and
  column operations on a table with explicit integer index labels:
  - `adjust_table`, `isfloat`, `sum_column`;
  - `get_filtered_data`;
  - `isf_conversion`, `remove_isf_conversion`;
  - `clean_values`;
  - `data_preperation`.
- **Dashboard logic** (`dash_app.py`):
  - the Nightscout-profile JSON builder;
  - the 14-day window clamp and the +1 day shift before a run;
  - profile de-duplication and the sorted dropdown options.

### How the model represents the program

- Python values in a table or record are `Cell`: a number, NaN, a string,
  or None. Python float results are `Float`: a finite real or NaN.
- Rates and glucose values are `real`. Timestamps are integer seconds of
  naive local time. Calendar dates are day numbers.
- Python's `round` rounds half to even on binary floats. The model uses
  `Numeric.Round`, which rounds half up on reals. The bounds the engine
  relies on are exact at two decimals, so the clamp property holds under
  either rule.
- `float()` and `int()` on text follow Python's rules for the forms listed
  under "Left out".
- Savitzky-Golay smoothing is a function parameter `smooth`.
- Requests to Nightscout are parameters holding either the decoded answer
  or the error raised.
- The host check inside `urlsplit` is a parameter `hostOk`.
- The system timezone is a parameter.
- The filters of the program are stated with one pair of predicates,
  `Seqs.Kept` and `Seqs.Ranked`. The result is as long as the number of
  passing elements, and the passing element at input position k sits at
  the index that counts the passing elements before k. This fixes the
  contents, the order and the duplicates of what is kept. The filters so
  stated are the readings, the treatments, the treatment window, the
  basal candidates, the finite autotune values, the basal slots, the
  surviving columns and rows of the final clean-up, and the rows left by
  `remove_isf_conversion`. The first five and the slots say it in their
  `ensures` or in a lemma next to them; `NamedColumns`, `DropEmptyRows`
  and `DropLabel` say it in the lemmas `NamedColumnsKept`,
  `DropEmptyRowsKept` and `DropLabelKept`.

### Modules

| file | module | role |
|---|---|---|
| values.dfy | PyValues | Python values and errors |
| seqs.dfy | Seqs | what a filter keeps: counts and ranks |
| numeric.dfy | Numeric | powers of ten and rounding |
| text.dfy | Text | digits, `int()`/`float()` parsing, `split`, `"%.2f"`/`repr` formatting |
| sorting.dfy | Sorting | stable insertion sort (Python's `sorted`/`list.sort`) |
| nightscout.dfy | Nightscout | client normalisation, record filtering and sorting |
| deviations.dfy | Deviations | `calculate_deviations`, `_calculate_expected_bg_change` |
| recommendations.dfy | Recommendations | `_calculate_recommendations`, `_calculate_basal_recommendation` |
| engine.dfy | Engine | `run_autotune` |
| applier.dfy | Applier | `create_adjusted_profile`, `url_validator`, `run_modern`, `get` |
| tables.dfy | Tables | frames, `adjust_table`, `isfloat`, `sum_column` |
| filtered.dfy | Filtered | `get_filtered_data` |
| isf.dfy | IsfUnits | `isf_conversion`, `remove_isf_conversion` |
| clean.dfy | Cleaning | `clean_values` |
| preparation.dfy | Preparation | `data_preperation` |
| profile_json.dfy | ProfileJson | the generated Nightscout profile |
| dashboard.dfy | Dashboard | date window, run guard, profile de-duplication and options |

## Model

| member | source | states |
|---|---|---|
| Nightscout.TrimSlashes | autotune_engine.py:53 | the base URL is a prefix of the given one, does not end in '/', and only '/' characters were removed |
| Nightscout.TokenParam | autotune_engine.py:57-64 | no token without a non-empty secret; otherwise the parameter starts with "token=": a secret without that prefix gets it added, and a secret that already has it comes back unchanged |
| Nightscout.TokenParamIdempotent | autotune_engine.py:59-64 | feeding the token parameter back in as the secret gives the same parameter |
| Nightscout.Readings | autotune_engine.py:102-115 | exactly the entries of type "sgv" with a truthy value become readings, in answer order and with their duplicates (as many readings as kept entries, the k-th kept entry giving the k-th reading); a kept entry without a date raises KeyError |
| Nightscout.FilterEntries | autotune_engine.py:117 | the readings come out sorted by timestamp, as a permutation of the kept entries |
| Nightscout.FilterEntriesStable | autotune_engine.py:117 | readings with equal timestamps keep their answer order |
| Nightscout.Treatments | autotune_engine.py:132-151 | a treatment is dropped exactly when `isValid` is present and falsy; the kept ones stay in answer order with their duplicates; a kept one without `created_at` raises KeyError |
| Nightscout.FilterTreatments | autotune_engine.py:153 | the treatments come out sorted by timestamp, as a permutation of the kept ones |
| Nightscout.FilterTreatmentsStable | autotune_engine.py:153 | treatments with equal timestamps keep their answer order |
| Nightscout.SelectProfile | autotune_engine.py:159-167 | an empty answer raises ValueError; otherwise the default profile named by the first document is returned, or the lookup fails |
| Deviations.FirstValue | autotune_engine.py:223-228 | a missing schedule gives the default; an empty one raises IndexError; otherwise the first entry's value |
| Deviations.Window | autotune_engine.py:191-194 | the window holds exactly the treatments with `prev <= t <= bg`, both ends included, in order and with duplicates, so its length is the treatment count of the record |
| Deviations.ExpectedChangeOk | autotune_engine.py:214-231 | the expected change fails exactly when an insulin amount needs a missing sensitivity, or a carb amount needs a missing or zero carb ratio |
| Deviations.ExpectedChangeValue | autotune_engine.py:214-231 | the expected change is minus the insulin total times the first sensitivity, plus the carb total over the first carb ratio times 50; absent or zero amounts add nothing |
| Deviations.Record | autotune_engine.py:185-210 | a record carries the count of treatments in the window and actual minus expected change; `basal_only` holds iff the count is 0, and the gap is in (0, 15] minutes |
| Deviations.ValidIndices | autotune_engine.py:183-187 | the valid pairs are exactly the readings whose gap to the previous one is in (0, 15] minutes, in increasing order |
| Deviations.DeviationsArePairs | autotune_engine.py:183-210 | the table holds one record per valid pair, the j-th record belonging to the j-th valid pair |
| Deviations.CalculateDeviations | autotune_engine.py:178-212 | the single walk over the readings computes the reference table |
| Deviations.DeviationsFailFrom | autotune_engine.py:197-199 | a failing expected-change lookup fails the whole table with that error |
| Recommendations.IsfAutotune | autotune_engine.py:305-315 | the ISF becomes 10 % lower when the mean deviation is above 5, 10 % higher below -5, else unchanged, within rounding to one decimal |
| Recommendations.IsfHighMeanExample | autotune_engine.py:305-315 | a sensitivity of 50 with mean deviation 8 becomes 45.0 |
| Recommendations.HourOf | autotune_engine.py:365-368 | a time whose text before the first ':' is not an integer counts as hour 0 |
| Recommendations.HourOfPadded | autotune_engine.py:365-366 | "HH:..." starts at hour HH |
| Recommendations.HourWindowExact | autotune_engine.py:372-374 | the window test selects exactly hour h for h in 0..22, and nothing for h = 23 |
| Recommendations.Candidates | autotune_engine.py:372-376 | the candidates are exactly the basal-only records in the hour window |
| Recommendations.CandidatesKept | autotune_engine.py:372-376 | the candidates are as many as the passing records, in table order and with duplicates, so the count compared with the minimum is the number of passing records |
| Recommendations.LastHourHasNoCandidates | autotune_engine.py:372-376 | the 23:00 entry never collects data |
| Recommendations.Clamp | autotune_engine.py:413 | the clamped rate lies in [0.1, 5.0] and a rate already inside is unchanged |
| Recommendations.BasalRecommendation | autotune_engine.py:360-419 | without deviations or with too few candidates the current rate is returned as is; otherwise the result lies in [0.1, 5.0] |
| Recommendations.BasalKeptWithinThreshold | autotune_engine.py:400-416 | with enough data and a mean within the threshold, a two-decimal rate in range is returned unchanged |
| Recommendations.BasalDirection | autotune_engine.py:402-416 | above the threshold the rate rises by 10 %, below minus the threshold it falls by 10 %, up to rounding, while the clamp stays out of the way |
| Recommendations.StandardRaiseExample | autotune_engine.py:381-416 | three basal-only deviations of +25 at 02:00 raise 0.8 to 0.88 in standard mode |
| Recommendations.ModeSensitivityExample | autotune_engine.py:381-407 | a mean deviation of +15 changes the rate in aggressive mode only |
| Recommendations.BasalRows | autotune_engine.py:334-351 | one row per basal schedule entry in schedule order, with a missing time read as "00:00" and a missing rate as 0.5 |
| Recommendations.Recommend | autotune_engine.py:295-353 | the rows fail exactly when a needed sensitivity or the carb ratio lookup fails; otherwise there are (ISF if deviations) + 1 + basal-entry rows |
| Recommendations.RecommendLayout | autotune_engine.py:300-351 | the ISF row comes first exactly when there are deviations, then the carb-ratio row with Autotune equal to Pump, then the basal rows |
| Engine.RunAutotune | autotune_engine.py:242-293 | the report always carries the config; success implies every fetch succeeded, at least 10 readings, and the reading and treatment counts |
| Engine.TooFewReadings | autotune_engine.py:260-261 | fewer than ten readings end in the "Insufficient BG readings" error |
| Engine.SuccessContents | autotune_engine.py:266-283 | a success reports the deviation count, the profile and the recommendations computed from them |
| Engine.FetchFailureReported | autotune_engine.py:247-293 | a failed readings request becomes the error report unchanged |
| Applier.ScaledRounded | autotune.py:228-232 | `round(float(v)/k, 1)` fails exactly when `float()` fails, and NaN stays NaN |
| Applier.SetFirst | autotune.py:228-232 | writing into element 0 of a nested list fails exactly when the list is missing or empty, and changes only that key |
| Applier.ApplyRow | autotune.py:223-233 | an ISF row writes the rounded mmol/L sensitivity; a carb-ratio row writes the same rounded ratio in both places; other rows change nothing; each write fails exactly when its value or target is missing |
| Applier.FirstPass | autotune.py:223-233 | the first pass never touches the basal profile |
| Applier.FirstPassLastIsf | autotune.py:223-228 | after a first pass that finished, the first sensitivity is the Autotune value of the last ISF row, divided by 18 and rounded to one decimal |
| Applier.FirstPassKeepsIsf | autotune.py:223-228 | rows that are not ISF rows never change the sensitivities |
| Applier.FirstPassLastCarbRatio | autotune.py:223-233 | after a first pass that finished, the schedule's first ratio and `carb_ratio` both hold the Autotune value of the last carb-ratio row, rounded to one decimal |
| Applier.FirstPassKeepsCarbRatio | autotune.py:230-233 | rows that are not carb-ratio rows never change either carb ratio |
| Applier.SecondsIgnoresExtraParts | autotune.py:237-248 | parts after the third never change the seconds |
| Applier.SlotOf | autotune.py:239-248 | a label with a letter or without ':' is skipped; a missing Parameter raises KeyError and a non-string label TypeError, both failing the adjustment; otherwise the row is handled by `SlotAt` with the seconds `int()` reads from the first three ':'-parts, none when a part is rejected |
| Applier.SlotAt | autotune.py:247-261 | a rejected part or an hour (seconds floor-divided by 3600) outside [0, 24) skips the row; for a kept hour a missing Autotune raises KeyError and None raises TypeError, both failing the adjustment, a rate `float()` rejects skips the row, and otherwise the slot is (hour, 60·hour, "HH:00:00", the rate as "%.2f") |
| Applier.BasalPass | autotune.py:239-261 | the pass succeeds iff every row gives a slot or is skipped; otherwise it fails with the error of the first failing row; a successful pass returns exactly the slots the rows give, one per slot-giving row in row order, each with an hour in [0, 24) and minutes 60 times the hour |
| Applier.CreateAdjustedProfile | autotune.py:217-270 | the caller's profile ends up with the nested ISF and carb-ratio objects of the first pass, and the result differs from it only after a complete first pass |
| Applier.FirstPassComplete | autotune.py:223-224 | a first pass that completes saw a Parameter in every row |
| Applier.AdjustedBasalProfile | autotune.py:263-266 | on success the basal profile is the surviving slots stably sorted by hour, or the old one when none survived |
| Applier.FailureKeepsNestedWrite | autotune.py:220-270 | after a failure the "original" profile already carries the ISF written before it |
| Applier.SlotOfTimeLabel | autotune.py:247-258 | any row labelled "HH:MM" with HH below 24 and a numeric Autotune x lands in slot HH with rate "%.2f" of x, so "01:30" gives hour 1 |
| Applier.SlotOfLateLabel | autotune.py:251 | any row labelled "HH:MM" with HH from 24 to 99 is skipped, whatever its rate |
| Applier.SlotOfBadRate | autotune.py:256-261 | any row labelled "HH:MM" with HH below 24 whose rate text `float()` rejects is skipped, without failing the adjustment |
| Applier.StripLeadingC0 | autotune.py:31 | `urlsplit` strips leading C0 controls and spaces |
| Applier.SplitScheme | autotune.py:31 | a non-empty scheme starts with a letter and the URL is scheme ":" rest |
| Applier.Netloc | autotune.py:31 | a non-empty network location needs a leading "//", and without brackets it runs to the first '/', '?' or '#' |
| Applier.UrlValidPlain | autotune.py:28-35 | a URL "scheme://host/path" is valid iff the host is non-empty |
| Applier.UrlValidOfParts | autotune.py:28-35 | the URL is valid iff both the scheme and the network location are non-empty |
| Applier.UrlWithoutColon | autotune.py:28-35 | a URL without ':' has no scheme and is invalid |
| Applier.RunModern | autotune.py:125-171 | recommendations are returned iff the URL is valid and the run succeeded, and then they are the run's rows unchanged |
| Applier.DivideBy18 | autotune.py:75 | dividing a string or None by 18 raises TypeError |
| Applier.GetView | autotune.py:57-79 | the view exists iff the profile has a carb ratio, a sensitivity and a non-empty basal profile; the basal times lose their seconds |
| Applier.AppliedSlotTime | autotune.py:68-71 | a slot written by the applier shows in the view as "HH:00" |
| Tables.WriteSlice | data_processing/table_calculations.py:16 | `.loc[lo:hi]` writes exactly the rows whose label is in the inclusive range, in order; all other rows are unchanged |
| Tables.AdjustColumn | data_processing/table_calculations.py:5-16 | for any labels: an empty column, a start past the end or a missing column name changes nothing; otherwise the write fails exactly when the rows whose label lies in start..end are not as many as the end - start + 1 values taken, and when it succeeds each such row gets the value of its rank among them and no other cell changes |
| Tables.AdjustTable | data_processing/table_calculations.py:3-17 | columns, row count and labels are kept, cells of unnamed columns never change, and a start at or past the end returns the table unchanged whatever the names |
| Tables.AdjustTableOk | data_processing/table_calculations.py:5-16 | for any labels, the call succeeds exactly when the start is past the end, or every non-empty column has a name and, where that name is a column of the table, its label slice holds as many rows as values are taken |
| Tables.AdjustTableUnwritten | data_processing/table_calculations.py:5-16 | for any labels, a cell no column writes keeps its value |
| Tables.AdjustTablePositions | data_processing/table_calculations.py:5-16 | for any labels, labels are kept, and the cell of column c in row j holds the value of the last column i named c whose label slice covers row j, taken at row j's rank within that slice; the slice end min(start + len - 1, n - 1) is computed from positions while `.loc` selects by label |
| Tables.PositionalRank | data_processing/table_calculations.py:8-16 | with labels 0, 1, 2, ... the label slice always holds as many rows as values, and row j gets `col[j - start]` |
| Tables.AddFloat | data_processing/table_calculations.py:30 | float addition gives NaN iff either side is NaN |
| Tables.Last48 | data_processing/table_calculations.py:28 | the last 48 rows, or all of them when there are fewer |
| Tables.SumColumn | data_processing/table_calculations.py:26-31 | the sum fails exactly when one of the last 48 records lacks the column; otherwise it is NaN when a value `float()` reads is NaN, else the sum of those values |
| Tables.SumColumnIgnoresOlder | data_processing/table_calculations.py:28 | records before the last 48 never change the sum |
| Tables.TotalSnoc | data_processing/table_calculations.py:31 | adding one more value read to the total is Python float addition: NaN absorbs, otherwise the sum grows by the value |
| Tables.SumRecordsTotal | data_processing/table_calculations.py:27-31 | the running total equals the reference total of the values `float()` reads: NaN as soon as one is NaN, else their sum |
| Tables.ReadsShownText | data_processing/table_calculations.py:29-30 | a "%.2f" text of the cleaned table adds the number rounded to two decimals, and a blank text is skipped |
| Filtered.ConvertToFloat | data_processing/get_filtered_data.py:25-31 | "", None, NaN and unparsable text become NaN; numbers and parsable text become their value |
| Filtered.Finite | data_processing/get_filtered_data.py:38 | the non-NaN values in order: one per finite value, the k-th finite value at index k |
| Filtered.ApplyFilter | data_processing/get_filtered_data.py:41-55 | "No filter", "None", None, an unknown name or too few points leave the values alone; otherwise the smoother runs with the name's window |
| Filtered.WriteBack | data_processing/get_filtered_data.py:57-63 | length is kept and NaN positions stay exactly the NaN positions |
| Filtered.WriteBackFinite | data_processing/get_filtered_data.py:57-63 | with as many filtered values as numbers, the numbers read back are the filtered values rounded to two decimals, in order |
| Filtered.WriteBackUnfiltered | data_processing/get_filtered_data.py:41-63 | without a filter every number is rounded in place |
| Filtered.PumpDisplay | data_processing/get_filtered_data.py:65-74 | a time containing ":30" or a NaN pump value shows "nan"; otherwise the value |
| Filtered.GetFilteredData | data_processing/get_filtered_data.py:6-76 | an empty table or one without Parameter gives three empty lists; a missing Pump or Autotune raises; otherwise three lists of length n - 2 where entry k is about row k + 2: its Parameter, its pump value ("nan" at a half hour or without a number, else the number), and an autotune value that is NaN exactly when the row's Autotune does not read as a number |
| Filtered.GetFilteredAutotune | data_processing/get_filtered_data.py:34-63 | under any filter, autotune entry k is NaN where the row's value is, and otherwise the filtered value of its rank among the numbers, rounded to two decimals, while filtered values last, the row's own value after that; with one filtered value per number the numbers of the list are the filtered values rounded, in order |
| Filtered.WriteBackAt | data_processing/get_filtered_data.py:57-63 | the write-back loop leaves NaN alone and gives the number with n numbers before it the n-th filtered value rounded to two decimals, or its own value once the filtered values run out |
| Filtered.NoFilterRounds | data_processing/get_filtered_data.py:41-63 | with "No filter" each autotune value is the converted cell rounded to two decimals |
| IsfUnits.DuplicateInPlace | data_processing/isf_conversion.py:28-29 | `np.repeat` puts row k at k plus the number of ISF rows before it, and an ISF row is followed by its copy |
| IsfUnits.FirstIsf | data_processing/isf_conversion.py:17-33 | the first ISF row |
| IsfUnits.DuplicateAround | data_processing/isf_conversion.py:28-34 | rows before the first ISF row stay in place, and the ISF row sits at p and its copy at p + 1 |
| IsfUnits.MmolText | data_processing/isf_conversion.py:37-38 | the mmol/L text fails exactly when `float()` fails; a number x, or a text `float()` reads as x, gives `repr(round(x/18, 2))`, and NaN gives "nan" |
| IsfUnits.FillMmolRow | data_processing/isf_conversion.py:37-45 | only the copy row changes; when both values convert it becomes the mmol/L row |
| IsfUnits.IsfConversion | data_processing/isf_conversion.py:4-45 | the table is unchanged when empty, without Parameter, without an ISF row, or with a falsy value; it raises iff Pump or Autotune is missing; otherwise the result has one more row per ISF row, and `ConvertedPlaces` and `ConvertedMmolRow` say where every row goes |
| IsfUnits.ConvertedRows | data_processing/isf_conversion.py:29-30 | after the conversion labels run 0, 1, 2, ... and rows up to the ISF row keep their cells |
| IsfUnits.ConvertedPlaces | data_processing/isf_conversion.py:28-30 | after the conversion, row j of the table sits at j plus the number of ISF rows before it, labelled by that position, with all its cells, and never on the mmol/L row |
| IsfUnits.ConvertedMmolRow | data_processing/isf_conversion.py:33-40 | the row after the first ISF row is its mmol/L row when both values convert |
| IsfUnits.MissingDaysMissingKeepsRow | data_processing/isf_conversion.py:29-45 | a missing DaysMissing column still leaves the converted row in the table |
| IsfUnits.RemoveIsfConversion | data_processing/isf_conversion.py:47-49 | fewer than two rows raise; otherwise every row with the label of the row at position 1 is dropped and nothing else |
| IsfUnits.RemoveSecondRow | data_processing/isf_conversion.py:47-49 | with unique labels exactly the row at position 1 goes, and the rest keep order and labels |
| IsfUnits.DropLabelKept | data_processing/isf_conversion.py:48 | the rows left keep their order and duplicates: one per row with another label, each at its rank among them |
| Cleaning.CastFloat | data_processing/clean_values.py:12-13 | "" and None become NaN; a number casts to itself; a non-empty text casts iff `float()` parses it, and then to the value parsed |
| Cleaning.FormatColumn | data_processing/clean_values.py:12-15 | the column is formatted row by row and fails exactly when some value does not cast |
| Cleaning.Blanked | data_processing/clean_values.py:10-11 | with more than three rows the Pump value labelled 3 is always blanked, and a missing label 3 raises KeyError |
| Cleaning.CleanValues | data_processing/clean_values.py:4-17 | an empty table or one without Pump is unchanged; otherwise columns, row count and labels are kept and no cell reads "nan"; with Pump formatted and no Autotune column it raises KeyError |
| Cleaning.CleanValuesOk | data_processing/clean_values.py:10-15 | the cleaning succeeds exactly when label 3 exists in a table of more than three rows, every Pump value (the blanked one as "") casts, there is an Autotune column, and every Autotune value casts |
| Cleaning.CleanValuesCells | data_processing/clean_values.py:10-16 | every row shows its Pump and Autotune values as "%.2f" texts, "" for NaN, the Pump value labelled 3 blanked first; every other cell is unchanged except that "nan" shows as "" |
| Cleaning.CleanPumpNumber | data_processing/clean_values.py:12-16 | a number in Pump becomes its "%.2f" text, which reads back as the number rounded to two decimals |
| Cleaning.CleanPumpBlank | data_processing/clean_values.py:10-16 | an empty or missing Pump value, and the one labelled 3, show as "" |
| Cleaning.CleanRejectsText | data_processing/clean_values.py:12 | a non-empty Pump text that `float()` rejects makes the whole cleaning fail |
| Preparation.NamedColumns | data_processing/data_preperation.py:58 | exactly the columns not starting with "Unnamed" |
| Preparation.NamedColumnsKept | data_processing/data_preperation.py:58 | the named columns keep their order and duplicates, each at its rank among them |
| Preparation.DropEmptyRows | data_processing/data_preperation.py:61 | exactly the rows not entirely missing survive |
| Preparation.DropEmptyRowsKept | data_processing/data_preperation.py:61 | the surviving rows keep their order and duplicates: one per row with a value, each at its rank |
| Preparation.Tidy | data_processing/data_preperation.py:56-64 | no "Unnamed" columns, no all-empty rows, labels reset, and no "nan" text appears |
| Preparation.TidyRows | data_processing/data_preperation.py:58-64 | a row with a value in a named column sits at its rank among such rows, labelled by that rank, with its named cells, and there are no other rows |
| Preparation.ChooseLists | data_processing/data_preperation.py:27-33 | the retry without a filter fails exactly when the first attempt does |
| Preparation.DataPreparation | data_processing/data_preperation.py:9-69 | an empty input gives the fixed two-row table with zero totals; one row raises IndexError; with no lists the reduced table comes back with zero totals; otherwise the lists go back by `adjust_table` from label 4 as the source calls it, the totals are the rounded sums of the shown values, no column is "Unnamed", labels run 0, 1, 2, ... and, with a Pump column, no cell reads "nan"; `CombineCells` states the cells |
| Preparation.CombineCells | data_processing/data_preperation.py:50-64 | for a table labelled 0, 1, 2, ... as the dashboard builds it, the returned table is the final clean-up of the table whose rows `FilledCells` describes: the rows from position 3 to the one before last show the chart values of the row above them |
| Preparation.CombineCellsIntended | data_processing/data_preperation.py:49-64 | with the corrected write-back, the returned table is the final clean-up of the table whose rows `FilledCellsIntended` describes |
| Preparation.FilledCells | data_processing/data_preperation.py:50-54 | on the table `remove_isf_conversion` leaves (labels 0, 2, 3, ...), after the source's write-back, the conversion and the cleaning, each row sits where the conversion moved it; the rows from position 3 to the one before last show as "%.2f" texts the chart values read from the row above (Pump "" at a half hour of that row, without a number, or when blanked as label 3); the other rows, position 2 and the last row included, show their own values cleaned; every other cell is as before with "nan" shown as "" |
| Preparation.FilledCellsIntended | data_processing/data_preperation.py:49-54 | with the corrected write-back, from position 2 on each row shows its own chart values as "%.2f" texts, the rows above show their own values cleaned, and every other cell is as before with "nan" shown as "" |
| Preparation.ListsAsWrittenRow | data_processing/data_preperation.py:50-51 | on a table labelled 0, 2, 3, ..., the source's write-back succeeds, keeps labels and other columns, gives the rows from position 3 to the one before last the pump value and autotune entry read from the row above, and leaves every other row's values; below five rows it writes nothing |
| Preparation.DataPreparationIntended | data_processing/data_preperation.py:9-69 | the same steps and promises as `DataPreparation`, with every list value written back into the row it was read from |
| Preparation.ConvertAndCleanRow | data_processing/data_preperation.py:53-54 | for any table, a row after conversion and cleaning shows its Pump and Autotune as "%.2f" texts ("" for NaN and for the blanked Pump value) and keeps every other cell, "nan" shown as "" |
| Preparation.WriteListsInPlace | data_processing/data_preperation.py:49-51 | the corrected write-back: every row from position 2 on gets the chart values computed from its own cells; rows 0 and 1, the other columns and all labels are kept |
| Preparation.ListsLandOneRowLow | data_processing/data_preperation.py:50-51 | as written, on the table `remove_isf_conversion` leaves (labels 0, 2, 3, ...), the row at position j gets the chart value read from row j - 1 for 3 <= j <= n - 2, and the row at position 2 keeps its Pump value |
| Preparation.ShiftProbe | data_processing/data_preperation.py:50-51 | on the six-row probe table the 02:00 row shows 1.0, the 01:00 row's value, instead of its own 2.0 |
| Preparation.DropLeavesSkip | data_processing/isf_conversion.py:47-49 | on a table labelled 0, 1, 2, ... the reduced table is labelled 0, 2, 3, ... |
| Preparation.ShortTable | data_processing/data_preperation.py:30-37 | with at most two rows after the first drop the lists are empty and the reduced table comes back with zero totals |
| ProfileJson.Labels | dash_app.py:1228-1233 | the whitelist has 48 labels |
| ProfileJson.LabelsAreHalfHours | dash_app.py:1228-1233 | a label is on the whitelist iff it is HHMM with HH below 24 and MM 00 or 30 |
| ProfileJson.Step | dash_app.py:1208-1242 | a row fails the build iff its Parameter is a truthy non-string; an ISF or carb-ratio row sets its key only when its value is empty or parses; a whitelisted row with a value adds one rate |
| ProfileJson.RatesOfAppend | dash_app.py:1228-1242 | the rates of rows + [row] are those of rows followed by the row's own rate |
| ProfileJson.ScanFails | dash_app.py:1208-1227 | the scan fails exactly when some row's Parameter is a truthy non-string |
| ProfileJson.ScanRates | dash_app.py:1228-1242 | the rates are those of the rows that take one, in row order |
| ProfileJson.ScanUnset | dash_app.py:1218-1273 | a key no row assigns stays absent |
| ProfileJson.ScanLast | dash_app.py:1218-1227 | a key holds what the last row assigning it wrote: None for an empty value, the float otherwise |
| ProfileJson.DropFirst | dash_app.py:1255 | `s[n:]` has length max(0, len - n) |
| ProfileJson.BasalOf | dash_app.py:1247-1257 | the entry keeps the position and the rate |
| ProfileJson.NumberedSpec | dash_app.py:1247-1257 | the numbered loop fails iff some element fails, and element k of the result is f applied to k and the k-th input |
| ProfileJson.BasalProfile | dash_app.py:1245-1260 | no rates give the single default 0.5 U/h entry; otherwise one entry per rate, numbered by position, failing iff some time does not parse |
| ProfileJson.GenerateProfile | dash_app.py:1198-1325 | no rows give the no-data message; the build fails iff a Parameter is a truthy non-string or a basal time does not parse; otherwise it holds one basal entry per rate, or one default |
| ProfileJson.GeneratedDefault | dash_app.py:1265-1301 | carb ratio 9.0 and ISF 41.4 appear only when no row assigned the key |
| ProfileJson.GeneratedLast | dash_app.py:1262-1301 | otherwise the profile holds what the last assigning row wrote, None included |
| ProfileJson.GeneratedBasal | dash_app.py:1245-1260 | the basal schedule is the default 0.5 from midnight when no rate was found, else one entry per rate in row order |
| ProfileJson.ColonLabel | dash_app.py:1249-1257 | an "HH:MM" label is whitelisted, starts at HH:MM:00 after 60·HH + MM minutes, and its Nightscout time is HH:MM |
| ProfileJson.PlainLabel | dash_app.py:1249-1257 | an "HHMM" label is read entirely as hours: HHMM·60 minutes, while its start still shows HH:MM |
| ProfileJson.HalfPastOnePlain | dash_app.py:1249-1307 | "0130" gives an entry 7800 minutes (468000 s) in |
| ProfileJson.LeadingColon | dash_app.py:1228-1250 | ":0000" passes the whitelist but its empty hour part makes `int()` fail |
| Dashboard.ClampWindow | dash_app.py:870-879 | the end is kept, the window is at most 14 days, and it moves the start iff it was longer, otherwise it changes nothing |
| Dashboard.RunWindow | dash_app.py:953-956 | a run never covers more than 14 days and ends the day after the picked end date |
| Dashboard.RunStep | dash_app.py:950-960 | the run happens iff it was requested with a host that passes `url_validator`, and it gets the window clamped to 14 days and shifted by a day |
| Dashboard.Find | dash_app.py:1438 | the first position holding a name, or none when no entry has it |
| Dashboard.UniqueNames | dash_app.py:1435-1440 | the unique profiles hold each seen name once, and no other name |
| Dashboard.UniqueLastDefault | dash_app.py:1438-1440 | the last default profile of a name is the one kept |
| Dashboard.UniqueFirst | dash_app.py:1438-1440 | without a default, the first profile of a name is the one kept |
| Dashboard.UniqueOrder | dash_app.py:1435-1444 | the unique profiles keep the order in which their names first appear |
| Dashboard.StrLeTotal | dash_app.py:1457 | Python string comparison is total |
| Dashboard.StrLeTransitive | dash_app.py:1457 | Python string comparison is transitive |
| Dashboard.ChoiceLeOrder | dash_app.py:1457 | the sort key (tag not in label, label) is a total preorder |
| Dashboard.Options | dash_app.py:1442-1457 | the options are sorted by that key and are a permutation of one choice per unique profile |
| Dashboard.OptionsValues | dash_app.py:1435-1454 | a name is offered iff some profile has it |
| Dashboard.OptionsDistinct | dash_app.py:1435-1454 | no name is offered twice |
| Dashboard.MarkedFirst | dash_app.py:1457 | labels carrying the default tag come first |
| Dashboard.UploadTargets | dash_app.py:1423-1465 | nothing without URL and token; an "Error: ..." entry on failure; "No profiles found" for an empty list; otherwise the sorted options |
| Dashboard.SelectionChoices | dash_app.py:1497-1542 | the load button is enabled iff profiles were listed and one is selected; "Enter Nightscout URL and token first" without URL or token; one disabled error entry on failure |
| Sorting.SortByKey | autotune.py:264 | the result is sorted by the key and is a permutation of the input |
| Sorting.SortByKeyStable | autotune.py:264 | elements with equal keys keep their relative order |
| Text.ParseFixed2 | data_processing/clean_values.py:14-15 | the "%.2f" text of x reads back as x rounded to two decimals |
| Text.ParseInt | autotune_engine.py:366 | `int()` accepts an optionally signed run of digits between ASCII spaces and nothing else |
| Text.ParseIntOfString | autotune_engine.py:366 | `int()` reads back `str(n)` for every integer n, whatever ASCII whitespace surrounds it |

## Left out

- HTTP, sessions, `urljoin` and JSON decoding. Every request is a parameter
  holding its decoded answer or its error. Turning epoch milliseconds and ISO
  strings into timestamps is not modelled: records carry integer seconds.
- Date parsing and formatting in `load_profile`. Dates are day numbers, and
  `strftime` is a `format` parameter of `Dashboard.RunStep`. A missing or
  unparsable date makes `parse` raise in the window check at
  dash_app.py:871, before any step, so the callback fails whatever was
  clicked; `Dashboard.RunStep` therefore takes both dates as given.
- The text messages that show the chosen date range.
- The clock-based parts of the generated profile: its name, `startDate`
  and `mills`. The JSON text serialisation and the fields that are never
  read back (`carb_ratios`, `isfProfile`, `bg_targets`, autosens values)
  are also left out; the store models what the Nightscout profile holds.
- `get_system_timezone` reads /etc; the timezone is a parameter.
- The masked-token placeholder replaced by the `API_SECRET` environment
  variable, and the `token=` formatting passed to `get_all_profiles`.
  `get_all_profiles` is not part of this model; its answer is a parameter.
- Dash layout, callback wiring, styles (the "new profile" branch of
  `toggle_profile_name_input` only returns styles and an empty list),
  modals, downloads and `create_graph`.
- Savitzky-Golay smoothing: an uninterpreted parameter `smooth`.
- `Autotune.upload` (a stub returning False), `_save_results`, `clean_up`,
  and `get_specific_profile`. `get_profile` is not part of this model, so
  `get` is modelled from the profile it returns.
- `data_processing/get_recommendations.py`, `autotune_diagnostic.py`,
  `test_complete_autotune.py`, logging and `print`.
- IEEE-754 arithmetic. Reals stand for floats; `Round` is half-up.
- `Recommendations.IsfAutotune`: stated within 0.05 of the 10 % step
  rather than exactly, because rounding to one decimal is involved.
- `Recommendations.BasalDirection`: stated within 0.005 of the 10 % step
  and only where the clamp does not intervene.
- `float()` on text: exponents, underscores, "inf" and non-ASCII digits
  are read as unparsable. `int()` on text: underscores and non-ASCII
  digits are read as unparsable.
- `Text.IsSpace`: the whitespace that `strip()`, `int()` and `float()`
  remove is the ASCII whitespace (tab to carriage return, 0x1c to 0x1f,
  space). Non-ASCII spaces such as U+00A0, which Python also removes, are
  kept, so such a text reads as unparsable.
- `Applier.SlotOf`: a letter is an ASCII letter, while Python's
  `str.isalpha` also accepts non-ASCII letters. In the first three
  ':'-parts such a letter still makes `int()` fail and the row is skipped,
  as in the source. In a fourth or later part, which the source never
  converts, the model keeps a slot the source would skip.
- `urlsplit`: the `ipaddress` check of bracketed hosts is the parameter
  `hostOk`; the NFKC check of non-ASCII network locations is not modelled.
- pandas `.loc` with duplicate index labels: the model assumes unique
  labels where `df.loc[label]` must be one row.
- The integer versus float distinction of Python numbers: both are `Num`.
  It only shows in `str()` output, which the model never needs for integers.
- `Dashboard.Options`: a profile whose own name contains "(Default)" (or
  "Current Default") is sorted first, as the source's substring test does;
  the contract states the sort key, not "default profiles first".
- `Preparation.CombineCells`, `Preparation.FilledCells`: the cells are
  stated for a table labelled 0, 1, 2, ..., which is what the dashboard
  passes (it builds the table with `pd.DataFrame` from records). For other
  labels `Tables.AdjustTablePositions` gives the cell each list value
  lands in.

## Findings

| source | as written | input that shows it | evidently intended | confidence | as-written member | corrected member |
|---|---|---|---|---|---|---|
| data_processing/data_preperation.py:50-51 | `adjust_table` writes the lists from label 4 into the table `remove_isf_conversion` left, whose labels run 0, 2, 3, ...; the list entry read from the row at position j lands in the row at position j + 1, the row at position 2 and the last row keep their old values, and the last two entries are dropped | rows ISF (label 0), 00:00, 01:00, 02:00, 03:00, 04:00 (labels 2 to 6) with Pump 50, 0.5, 1, 2, 3, 4: the 02:00 row is given 1.0, the 01:00 value (`Preparation.ShiftProbe`) | each list value goes back into the row it was read from, as the comment at the call says | not executed | Preparation.ListsLandOneRowLow | Preparation.WriteListsInPlace |

`Preparation.DataPreparation` keeps the source's write-back, so its table
is the one the program shows; `Preparation.DataPreparationIntended` runs
the same steps with the corrected write-back.

=== FILE: applier.dfy ===
/** `Autotune` in autotune.py: writing recommendation rows back into an
    OpenAPS profile, the URL check and control flow of `run_modern`, and the
    reshaping done by `get`. */
module Applier {
  import opened PyValues
  import opened Numeric
  import opened Text
  import opened Sorting
  import opened Nightscout
  import opened Engine
  import opened Recommendations
  import opened Seqs

  /** `isfProfile`: only its `sensitivities` list is touched. */
  datatype IsfProfile = IsfProfile(sensitivities: Option<seq<map<string, Cell>>>)

  /** `carb_ratios`: only its `schedule` list is touched. */
  datatype CarbRatios = CarbRatios(schedule: Option<seq<map<string, Cell>>>)

  /** One element of `basalprofile`. */
  datatype BasalSlot = BasalSlot(i: int, minutes: real, start: string, rate: Cell)

  /** The keys of an OpenAPS profile the applier reads or writes; each may
      be missing. */
  datatype OapsProfile = OapsProfile(
    isfProfile: Option<IsfProfile>,
    carbRatios: Option<CarbRatios>,
    carbRatio: Option<Cell>,
    basalprofile: Option<seq<BasalSlot>>)

  /** A recommendation row as a dict: "Parameter", "Pump", "Autotune", ... */
  type Row = map<string, Cell>

  const IsfMarker: string := "ISF[mg/dL/U]"
  const CarbRatioMarker: string := "CarbRatio"
  const MgdlPerMmol: real := 18.0

  /** Whether `str(v)` contains `sub`. Numbers, NaN and None print without
      letters or brackets, so only strings can contain the markers used
      here. */
  predicate TextContains(v: Cell, sub: string) {
    v.Text? && Contains(v.s, sub)
  }

  /** `round(float(v) / k, 1)` for a positive `k`. */
  function ScaledRounded(v: Cell, k: real): (r: Result<Float>)
    requires k > 0.0
    ensures r.Ok? <==> ToFloat(v).Ok?
    ensures r.Ok? && ToFloat(v).value.Fin? ==> r.value == Fin(Round(ToFloat(v).value.v / k, 1))
    ensures r.Ok? && ToFloat(v).value.NaN? ==> r.value == NaN
  {
    match ToFloat(v)
    case Err(e) => Err(e)
    case Ok(f) =>
      match f
      case NaN => Ok(NaN)
      case Fin(x) => Ok(Fin(Round(x / k, 1)))
  }

  /** `schedule[0][key] = v`, raising where Python would. */
  function SetFirst(list: Option<seq<map<string, Cell>>>, listKey: string, key: string, v: Cell)
    : (r: Result<seq<map<string, Cell>>>)
    ensures r.Ok? <==> list.Some? && |list.value| > 0
    ensures r.Ok? ==> |r.value| == |list.value| && r.value[0] == list.value[0][key := v]
                      && r.value[1..] == list.value[1..]
  {
    match list
    case None => Err(KeyError(listKey))
    case Some(entries) =>
      if |entries| == 0 then Err(IndexError)
      else Ok([entries[0][key := v]] + entries[1..])
  }

  /** The first pass over one row. An ISF row writes the mmol/L sensitivity
      into `isfProfile.sensitivities[0]`; a carb ratio row writes the ratio
      into `carb_ratios.schedule[0]` and into the top-level `carb_ratio`. */
  function ApplyRow(p: OapsProfile, row: Row): (r: Result<OapsProfile>)
    ensures "Parameter" !in row ==> r == Err(KeyError("Parameter"))
    ensures ("Parameter" in row && !TextContains(row["Parameter"], IsfMarker)
             && !TextContains(row["Parameter"], CarbRatioMarker)) ==> r == Ok(p)
    ensures "Parameter" in row && TextContains(row["Parameter"], IsfMarker) ==>
              (r.Ok? <==> "Autotune" in row && ToFloat(row["Autotune"]).Ok?
                          && p.isfProfile.Some? && p.isfProfile.value.sensitivities.Some?
                          && |p.isfProfile.value.sensitivities.value| > 0)
    ensures "Parameter" in row && !TextContains(row["Parameter"], IsfMarker)
            && TextContains(row["Parameter"], CarbRatioMarker) ==>
              (r.Ok? <==> "Autotune" in row && ToFloat(row["Autotune"]).Ok?
                          && p.carbRatios.Some? && p.carbRatios.value.schedule.Some?
                          && |p.carbRatios.value.schedule.value| > 0)
    ensures r.Ok? && TextContains(row["Parameter"], IsfMarker) ==>
              r.value.carbRatios == p.carbRatios && r.value.carbRatio == p.carbRatio
              && r.value.basalprofile == p.basalprofile
              && "Autotune" in row && ScaledRounded(row["Autotune"], MgdlPerMmol).Ok?
              && r.value.isfProfile.Some? && r.value.isfProfile.value.sensitivities.Some?
              && |r.value.isfProfile.value.sensitivities.value| > 0
              && "sensitivity" in r.value.isfProfile.value.sensitivities.value[0]
              && r.value.isfProfile.value.sensitivities.value[0]["sensitivity"]
                   == FloatCell(ScaledRounded(row["Autotune"], MgdlPerMmol).value)
    ensures r.Ok? && !TextContains(row["Parameter"], IsfMarker) && TextContains(row["Parameter"], CarbRatioMarker) ==>
              r.value.isfProfile == p.isfProfile && r.value.basalprofile == p.basalprofile
              && "Autotune" in row && ScaledRounded(row["Autotune"], 1.0).Ok?
              && r.value.carbRatio == Some(FloatCell(ScaledRounded(row["Autotune"], 1.0).value))
              && r.value.carbRatios.Some? && r.value.carbRatios.value.schedule.Some?
              && |r.value.carbRatios.value.schedule.value| > 0
              && "ratio" in r.value.carbRatios.value.schedule.value[0]
              && r.value.carbRatios.value.schedule.value[0]["ratio"] == r.value.carbRatio.value
  {
    if "Parameter" !in row then Err(KeyError("Parameter"))
    else
      var param := row["Parameter"];
      if TextContains(param, IsfMarker) then
        if "Autotune" !in row then Err(KeyError("Autotune"))
        else match ScaledRounded(row["Autotune"], MgdlPerMmol)
          case Err(e) => Err(e)
          case Ok(isf) =>
            match p.isfProfile
            case None => Err(KeyError("isfProfile"))
            case Some(ip) =>
              match SetFirst(ip.sensitivities, "sensitivities", "sensitivity", FloatCell(isf))
              case Err(e) => Err(e)
              case Ok(sens) => Ok(p.(isfProfile := Some(IsfProfile(Some(sens)))))
      else if TextContains(param, CarbRatioMarker) then
        if "Autotune" !in row then Err(KeyError("Autotune"))
        else match ScaledRounded(row["Autotune"], 1.0)
          case Err(e) => Err(e)
          case Ok(cr) =>
            match p.carbRatios
            case None => Err(KeyError("carb_ratios"))
            case Some(crs) =>
              match SetFirst(crs.schedule, "schedule", "ratio", FloatCell(cr))
              case Err(e) => Err(e)
              case Ok(sched) => Ok(p.(carbRatios := Some(CarbRatios(Some(sched))), carbRatio := Some(FloatCell(cr))))
      else Ok(p)
  }

  /** Where the first pass got to: the profile after the rows it completed,
      and the error that stopped it, if any. */
  datatype Pass = Pass(profile: OapsProfile, error: Option<PyError>)

  function FirstPass(p: OapsProfile, rows: seq<Row>): (r: Pass)
    ensures r.profile.basalprofile == p.basalprofile
    decreases |rows|
  {
    if |rows| == 0 then Pass(p, None)
    else
      match ApplyRow(p, rows[0])
      case Err(e) => Pass(p, Some(e))
      case Ok(q) => FirstPass(q, rows[1..])
  }

  // -------------------------------------------------------------- basal pass

  /** The time conversion factors zipped with the parts of a time label. */
  const Factors: seq<int> := [3600, 60, 1]

  /** `sum(a * b for a, b in zip(ftr, map(int, parts)))`: only the first
      three parts are converted, so later parts are never looked at. None
      when one of those parts is not an integer. */
  function Seconds(parts: seq<string>): (r: Option<int>)
  {
    SecondsFrom(parts, 0)
  }

  function SecondsFrom(parts: seq<string>, k: nat): Option<int>
    requires k <= |Factors|
    decreases |Factors| - k
  {
    if k == |Factors| || k >= |parts| then Some(0)
    else match ParseInt(parts[k])
      case None => None
      case Some(v) =>
        match SecondsFrom(parts, k + 1)
        case None => None
        case Some(rest) => Some(Factors[k] * v + rest)
  }

  /** Parts after the third never affect the seconds. */
  lemma SecondsIgnoresExtraParts(parts: seq<string>, extra: seq<string>)
    requires |parts| >= 3
    ensures Seconds(parts + extra) == Seconds(parts)
  {
    var all := parts + extra;
    assert all[0] == parts[0] && all[1] == parts[1] && all[2] == parts[2];
  }

  predicate HasAlpha(s: string) {
    exists k :: 0 <= k < |s| && IsAlpha(s[k])
  }

  /** A label the basal pass tries to read as a time: no letter, and at
      least one ':'. */
  predicate TimeLike(s: string) {
    !HasAlpha(s) && ':' in s
  }

  /** The slot a row contributes to the basal pass: Err when the whole
      adjustment fails, Ok(None) when the row is skipped. */
  function SlotOf(row: Row): (r: Result<Option<BasalSlot>>)
    ensures "Parameter" !in row ==> r == Err(KeyError("Parameter"))
    ensures "Parameter" in row && !row["Parameter"].Text? ==> r.Err? && r.error.TypeError?
    ensures ("Parameter" in row && row["Parameter"].Text?
             && (HasAlpha(row["Parameter"].s) || ':' !in row["Parameter"].s)) ==> r == Ok(None)
    ensures "Parameter" in row && row["Parameter"].Text? && TimeLike(row["Parameter"].s) ==>
              r == SlotAt(Seconds(Split(row["Parameter"].s, ':')), row)
    ensures r.Ok? && r.value.Some? ==>
              var slot := r.value.value;
              0 <= slot.i < 24 && slot.minutes == 60.0 * slot.i as real
              && slot.start == Pad2(slot.i) + ":00:00" && slot.rate.Text?
  {
    if "Parameter" !in row then Err(KeyError("Parameter"))
    else if !row["Parameter"].Text? then Err(TypeError("object is not iterable"))
    else if !TimeLike(row["Parameter"].s) then Ok(None)
    else SlotAt(Seconds(Split(row["Parameter"].s, ':')), row)
  }

  /** The rest of the loop body once the label reads as a time: `sec` is
      the seconds read from it, None when `int()` failed on a part. */
  function SlotAt(sec: Option<int>, row: Row): (r: Result<Option<BasalSlot>>)
    ensures sec.None? || !(0 <= sec.value / 3600 < 24) ==> r == Ok(None)
    ensures sec.Some? && 0 <= sec.value / 3600 < 24 ==>
              var hour := sec.value / 3600;
              ("Autotune" !in row ==> r == Err(KeyError("Autotune")))
              && ("Autotune" in row && row["Autotune"].Null? ==> r.Err? && r.error.TypeError?)
              && ("Autotune" in row && row["Autotune"].Text? && ParseFloat(row["Autotune"].s).None? ==> r == Ok(None))
              && ("Autotune" in row && ToFloat(row["Autotune"]).Ok? ==>
                    r == Ok(Some(BasalSlot(hour, 60.0 * hour as real, Pad2(hour) + ":00:00",
                                           Text(FormatFixed2(ToFloat(row["Autotune"]).value))))))
    ensures r.Ok? && r.value.Some? ==>
              var slot := r.value.value;
              0 <= slot.i < 24 && slot.minutes == 60.0 * slot.i as real
              && slot.start == Pad2(slot.i) + ":00:00" && slot.rate.Text?
  {
    match sec
    case None => Ok(None)
    case Some(sec) =>
      var hour := sec / 3600;
      if !(0 <= hour < 24) then Ok(None)
      else if "Autotune" !in row then Err(KeyError("Autotune"))
      else match ToFloat(row["Autotune"])
        case Err(e) => if e.ValueError? then Ok(None) else Err(e)
        case Ok(rate) => Ok(Some(BasalSlot(hour, 60.0 * hour as real, Pad2(hour) + ":00:00", Text(FormatFixed2(rate)))))
  }

  /** Whether a row contributes a slot. */
  predicate GivesSlot(row: Row) {
    SlotOf(row).Ok? && SlotOf(row).value.Some?
  }

  /** `s` is the slot the row gives. */
  predicate SlotFrom(row: Row, s: BasalSlot) {
    GivesSlot(row) && SlotOf(row).value.value == s
  }

  /** The slots of all rows in row order; the first whole-failure ends it. */
  function BasalPass(rows: seq<Row>): (r: Result<seq<BasalSlot>>)
    ensures r.Ok? <==> forall k :: 0 <= k < |rows| ==> SlotOf(rows[k]).Ok?
    ensures r.Err? ==> exists k :: 0 <= k < |rows| && SlotOf(rows[k]) == Err(r.error)
                         && forall m :: 0 <= m < k ==> SlotOf(rows[m]).Ok?
    ensures r.Ok? ==> Ranked(rows, GivesSlot, SlotFrom, r.value)
    ensures r.Ok? ==> forall s :: s in r.value ==> 0 <= s.i < 24 && s.minutes == 60.0 * s.i as real
  {
    if |rows| == 0 then Ok([])
    else
      assert forall k :: 1 <= k < |rows| ==> rows[k] == rows[1..][k - 1];
      match SlotOf(rows[0])
      case Err(e) => Err(e)
      case Ok(slot) =>
        match BasalPass(rows[1..])
        case Err(e) => Err(e)
        case Ok(rest) =>
          PassJoin(rows, rest);
          Ok(SlotList(rows[0]) + rest)
  }

  /** The slots of the first row joined to those of the rest. */
  lemma PassJoin(rows: seq<Row>, rest: seq<BasalSlot>)
    requires |rows| > 0 && SlotOf(rows[0]).Ok?
    requires Ranked(rows[1..], GivesSlot, SlotFrom, rest)
    requires forall s :: s in rest ==> 0 <= s.i < 24 && s.minutes == 60.0 * s.i as real
    ensures Ranked(rows, GivesSlot, SlotFrom, SlotList(rows[0]) + rest)
    ensures forall s :: s in SlotList(rows[0]) + rest ==> 0 <= s.i < 24 && s.minutes == 60.0 * s.i as real
  {
    RankedCons(rows, GivesSlot, SlotFrom, SlotList(rows[0]), rest);
  }

  /** The slot a row that does not fail gives, as a list of one or none. */
  function SlotList(row: Row): (r: seq<BasalSlot>)
    requires SlotOf(row).Ok?
    ensures GivesSlot(row) ==> |r| == 1 && SlotFrom(row, r[0])
    ensures !GivesSlot(row) ==> r == []
    ensures forall s :: s in r ==> 0 <= s.i < 24 && s.minutes == 60.0 * s.i as real
  {
    if SlotOf(row).value.Some? then [SlotOf(row).value.value] else []
  }

  function SlotHour(s: BasalSlot): int {
    s.i
  }

  /** What `create_adjusted_profile` returns, and what the caller's profile
      looks like afterwards: the copy at the start is shallow, so writes
      into nested lists are shared by both. */
  datatype Adjusted = Adjusted(returned: OapsProfile, original: OapsProfile)

  /** `p` with the nested objects of `q`. */
  function ShareNested(p: OapsProfile, q: OapsProfile): OapsProfile {
    p.(isfProfile := q.isfProfile, carbRatios := q.carbRatios)
  }

  function CreateAdjustedProfile(rows: seq<Row>, current: OapsProfile): (r: Adjusted)
    ensures r.original == ShareNested(current, FirstPass(current, rows).profile)
    ensures r.returned != r.original ==>
              FirstPass(current, rows).error.None? && r.returned.isfProfile == r.original.isfProfile
  {
    var first := FirstPass(current, rows);
    var shared := ShareNested(current, first.profile);
    if first.error.Some? then Adjusted(shared, shared)
    else
      match BasalPass(rows)
      case Err(_) => Adjusted(shared, shared)
      case Ok(slots) =>
        var d := first.profile;
        if |slots| == 0 then Adjusted(d, shared)
        else Adjusted(d.(basalprofile := Some(SortByKey(slots, SlotHour))), shared)
  }

  /** A row the first pass reads as a sensitivity. */
  predicate SetsIsf(row: Row) {
    "Parameter" in row && TextContains(row["Parameter"], IsfMarker)
  }

  /** A row the first pass reads as a carb ratio. */
  predicate SetsCarbRatio(row: Row) {
    "Parameter" in row && !TextContains(row["Parameter"], IsfMarker)
    && TextContains(row["Parameter"], CarbRatioMarker)
  }

  /** Rows that are not sensitivity rows leave the sensitivities alone. */
  lemma {:induction false} FirstPassKeepsIsf(p: OapsProfile, rows: seq<Row>)
    requires FirstPass(p, rows).error.None?
    requires forall j :: 0 <= j < |rows| ==> !SetsIsf(rows[j])
    ensures FirstPass(p, rows).profile.isfProfile == p.isfProfile
    decreases |rows|
  {
    if |rows| > 0 {
      var q := ApplyRow(p, rows[0]).value;
      assert q.isfProfile == p.isfProfile;
      assert forall j :: 0 <= j < |rows[1..]| ==> rows[1..][j] == rows[j + 1];
      FirstPassKeepsIsf(q, rows[1..]);
    }
  }

  /** Rows that are not carb ratio rows leave both carb ratios alone. */
  lemma {:induction false} FirstPassKeepsCarbRatio(p: OapsProfile, rows: seq<Row>)
    requires FirstPass(p, rows).error.None?
    requires forall j :: 0 <= j < |rows| ==> !SetsCarbRatio(rows[j])
    ensures FirstPass(p, rows).profile.carbRatios == p.carbRatios
    ensures FirstPass(p, rows).profile.carbRatio == p.carbRatio
    decreases |rows|
  {
    if |rows| > 0 {
      var q := ApplyRow(p, rows[0]).value;
      assert q.carbRatios == p.carbRatios && q.carbRatio == p.carbRatio;
      assert forall j :: 0 <= j < |rows[1..]| ==> rows[1..][j] == rows[j + 1];
      FirstPassKeepsCarbRatio(q, rows[1..]);
    }
  }

  /** After a finished first pass the first sensitivity is the last
      sensitivity row's value divided by 18 and rounded to one decimal. */
  lemma {:induction false} FirstPassLastIsf(p: OapsProfile, rows: seq<Row>, k: nat)
    requires FirstPass(p, rows).error.None?
    requires k < |rows| && SetsIsf(rows[k])
    requires forall j :: k < j < |rows| ==> !SetsIsf(rows[j])
    ensures var q := FirstPass(p, rows).profile;
            "Autotune" in rows[k] && ScaledRounded(rows[k]["Autotune"], MgdlPerMmol).Ok?
            && q.isfProfile.Some? && q.isfProfile.value.sensitivities.Some?
            && |q.isfProfile.value.sensitivities.value| > 0
            && "sensitivity" in q.isfProfile.value.sensitivities.value[0]
            && q.isfProfile.value.sensitivities.value[0]["sensitivity"]
               == FloatCell(ScaledRounded(rows[k]["Autotune"], MgdlPerMmol).value)
    decreases |rows|
  {
    var q := ApplyRow(p, rows[0]).value;
    assert forall j :: 0 <= j < |rows[1..]| ==> rows[1..][j] == rows[j + 1];
    if k == 0 {
      FirstPassKeepsIsf(q, rows[1..]);
    } else {
      FirstPassLastIsf(q, rows[1..], k - 1);
    }
  }

  /** After a finished first pass both carb ratios hold the last carb ratio
      row's value rounded to one decimal. */
  lemma {:induction false} FirstPassLastCarbRatio(p: OapsProfile, rows: seq<Row>, k: nat)
    requires FirstPass(p, rows).error.None?
    requires k < |rows| && SetsCarbRatio(rows[k])
    requires forall j :: k < j < |rows| ==> !SetsCarbRatio(rows[j])
    ensures var q := FirstPass(p, rows).profile;
            "Autotune" in rows[k] && ScaledRounded(rows[k]["Autotune"], 1.0).Ok?
            && q.carbRatio == Some(FloatCell(ScaledRounded(rows[k]["Autotune"], 1.0).value))
            && q.carbRatios.Some? && q.carbRatios.value.schedule.Some?
            && |q.carbRatios.value.schedule.value| > 0
            && "ratio" in q.carbRatios.value.schedule.value[0]
            && q.carbRatios.value.schedule.value[0]["ratio"] == q.carbRatio.value
    decreases |rows|
  {
    var q := ApplyRow(p, rows[0]).value;
    assert forall j :: 0 <= j < |rows[1..]| ==> rows[1..][j] == rows[j + 1];
    if k == 0 {
      FirstPassKeepsCarbRatio(q, rows[1..]);
    } else {
      FirstPassLastCarbRatio(q, rows[1..], k - 1);
    }
  }

  /** A first pass that finished saw a Parameter in every row. */
  lemma {:induction false} FirstPassComplete(p: OapsProfile, rows: seq<Row>)
    requires FirstPass(p, rows).error.None?
    ensures forall k :: 0 <= k < |rows| ==> "Parameter" in rows[k]
    decreases |rows|
  {
    if |rows| > 0 {
      var q := ApplyRow(p, rows[0]).value;
      FirstPassComplete(q, rows[1..]);
      assert forall k :: 1 <= k < |rows| ==> rows[k] == rows[1..][k - 1];
    }
  }

  /** On success the returned basal profile is the surviving slots stable-
      sorted by hour, or the old one when no slot survived. */
  lemma AdjustedBasalProfile(rows: seq<Row>, current: OapsProfile)
    requires FirstPass(current, rows).error.None?
    ensures var r := CreateAdjustedProfile(rows, current).returned;
            match BasalPass(rows)
            case Err(_) => r == ShareNested(current, FirstPass(current, rows).profile)
            case Ok(slots) =>
              r.isfProfile == FirstPass(current, rows).profile.isfProfile
              && r.carbRatios == FirstPass(current, rows).profile.carbRatios
              && (|slots| == 0 ==> r.basalprofile == current.basalprofile)
              && (|slots| > 0 ==> r.basalprofile == Some(SortByKey(slots, SlotHour))
                                  && SortedBy(r.basalprofile.value, KeyLe(SlotHour))
                                  && multiset(r.basalprofile.value) == multiset(slots))
  {
  }

  const SampleProfile: OapsProfile := OapsProfile(
    Some(IsfProfile(Some([map["sensitivity" := Num(3.0)]]))),
    Some(CarbRatios(Some([map["ratio" := Num(9.0)]]))),
    Some(Num(9.0)),
    None)

  /** The shallow copy in action: an ISF row followed by a row whose
      Parameter is not a string. The basal pass fails, the caller gets its
      own profile back, and that profile already carries the new
      sensitivity 90 / 18 = 5.0. */
  lemma FailureKeepsNestedWrite()
    ensures var rows := [map["Parameter" := Text("ISF[mg/dL/U]"), "Autotune" := Num(90.0)],
                         map["Parameter" := Num(1.0), "Autotune" := Num(1.0)]];
            var r := CreateAdjustedProfile(rows, SampleProfile);
            r.returned == r.original && r.returned != SampleProfile
            && r.returned.isfProfile == Some(IsfProfile(Some([map["sensitivity" := Num(5.0)]])))
  {
    var rows := [map["Parameter" := Text("ISF[mg/dL/U]"), "Autotune" := Num(90.0)],
                 map["Parameter" := Num(1.0), "Autotune" := Num(1.0)]];
    assert Contains("ISF[mg/dL/U]", IsfMarker);
    assert Pow10(1) == 10.0;
    assert 90.0 / 18.0 == 50 as real / Pow10(1);
    RoundExact(50, 1);
    assert ScaledRounded(Num(90.0), MgdlPerMmol) == Ok(Fin(5.0));
    var sens := [map["sensitivity" := Num(3.0)]];
    assert sens[0]["sensitivity" := Num(5.0)] == map["sensitivity" := Num(5.0)];
    assert sens[1..] == [];
    assert [sens[0]["sensitivity" := Num(5.0)]] + sens[1..] == [map["sensitivity" := Num(5.0)]];
    assert SetFirst(Some(sens), "sensitivities", "sensitivity", Num(5.0))
        == Ok([map["sensitivity" := Num(5.0)]]);
    var q := ApplyRow(SampleProfile, rows[0]);
    assert q.Ok?;
    assert q.value.isfProfile == Some(IsfProfile(Some([map["sensitivity" := Num(5.0)]])));
    assert rows[1..] == [rows[1]];
    assert FirstPass(SampleProfile, rows).profile == q.value;
    assert BasalPass(rows).Err?;
  }

  /** A label "HH:MM" with HH below 24 lands in slot HH whatever the
      minutes, and the rate is written with two decimals. */
  lemma SlotOfTimeLabel(row: Row, h: nat, m: nat, x: real)
    requires h < 24 && m < 60
    requires "Parameter" in row && row["Parameter"] == Text(Pad2(h) + ":" + Pad2(m))
    requires "Autotune" in row && row["Autotune"] == Num(x)
    ensures SlotOf(row) == Ok(Some(BasalSlot(h, 60.0 * h as real, Pad2(h) + ":00:00", Text(Fixed2(x)))))
  {
    TimeRowSlot(row, h, m);
    SlotAtNumber(row, h, m, x);
  }

  /** A row labelled "HH:MM" gets its slot from the seconds of HH:MM. */
  lemma TimeRowSlot(row: Row, h: nat, m: nat)
    requires h < 100 && m < 60
    requires "Parameter" in row && row["Parameter"] == Text(Pad2(h) + ":" + Pad2(m))
    ensures SlotOf(row) == SlotAt(Some(3600 * h + 60 * m), row)
    ensures (3600 * h + 60 * m) / 3600 == h
  {
    TimeLabelHour(h, m);
  }

  /** A number in Autotune gives the slot of hour `h` to any time in it,
      its rate in "%.2f". */
  lemma SlotAtNumber(row: Row, h: nat, m: nat, x: real)
    requires h < 24 && m < 60
    requires "Autotune" in row && row["Autotune"] == Num(x)
    ensures SlotAt(Some(3600 * h + 60 * m), row) == Ok(Some(BasalSlot(h, 60.0 * h as real, Pad2(h) + ":00:00", Text(Fixed2(x)))))
  {
    assert (3600 * h + 60 * m) / 3600 == h;
  }

  /** "HH:MM" reads as a time whose seconds fall in hour HH. */
  lemma TimeLabelHour(h: nat, m: nat)
    requires h < 100 && m < 60
    ensures TimeLike(Pad2(h) + ":" + Pad2(m))
    ensures Seconds(Split(Pad2(h) + ":" + Pad2(m), ':')) == Some(3600 * h + 60 * m)
    ensures (3600 * h + 60 * m) / 3600 == h
  {
    var tag := Pad2(h) + ":" + Pad2(m);
    NoAlphaInDigits(tag, Pad2(h), Pad2(m));
    SplitPair(Pad2(h), Pad2(m), ':');
    assert tag == Pad2(h) + [':'] + Pad2(m);
    var parts := [Pad2(h), Pad2(m)];
    assert SecondsFrom(parts, 2) == Some(0);
    assert Seconds(parts) == Some(3600 * h + 60 * m);
    assert (3600 * h + 60 * m) / 3600 == h;
  }

  lemma NoAlphaInDigits(tag: string, hh: string, mm: string)
    requires AllDigits(hh) && AllDigits(mm) && tag == hh + ":" + mm
    ensures !HasAlpha(tag) && ':' in tag
  {
    assert tag[|hh|] == ':';
    forall k | 0 <= k < |tag|
      ensures !IsAlpha(tag[k])
    {
      if k < |hh| {
        assert tag[k] == hh[k];
      } else if k > |hh| {
        assert tag[k] == mm[k - |hh| - 1];
      }
    }
  }

  /** A label whose hours are 24 or more is skipped. */
  lemma SlotOfLateLabel(row: Row, h: nat, m: nat)
    requires 24 <= h < 100 && m < 60
    requires "Parameter" in row && row["Parameter"] == Text(Pad2(h) + ":" + Pad2(m))
    ensures SlotOf(row) == Ok(None)
  {
    TimeRowSlot(row, h, m);
  }

  /** A rate that `float()` rejects drops the row and nothing more. */
  lemma SlotOfBadRate(row: Row, h: nat, m: nat, bad: string)
    requires h < 24 && m < 60 && ParseFloat(bad).None?
    requires "Parameter" in row && row["Parameter"] == Text(Pad2(h) + ":" + Pad2(m))
    requires "Autotune" in row && row["Autotune"] == Text(bad)
    ensures SlotOf(row) == Ok(None)
  {
    TimeRowSlot(row, h, m);
  }

  // ---------------------------------------------------------------- url check

  /** The characters `urlsplit` strips from the front: C0 controls and
      space. */
  predicate IsC0OrSpace(c: char) {
    c <= ' '
  }

  function StripLeadingC0(s: string): (t: string)
    ensures |t| <= |s| && t == s[|s| - |t|..]
    ensures |t| == 0 || !IsC0OrSpace(t[0])
  {
    if |s| > 0 && IsC0OrSpace(s[0]) then StripLeadingC0(s[1..]) else s
  }

  /** Tab, carriage return and line feed are removed everywhere. */
  function RemoveUnsafe(s: string): (t: string)
    ensures '\t' !in t && '\r' !in t && '\n' !in t
    ensures forall x :: x in t ==> x in s
  {
    RemoveChar(RemoveChar(RemoveChar(s, '\t'), '\r'), '\n')
  }

  predicate SchemeChar(c: char) {
    IsAlpha(c) || IsDigit(c) || c == '+' || c == '-' || c == '.'
  }

  /** The scheme (possibly empty) and the rest of the URL. */
  function SplitScheme(url: string): (r: (string, string))
    ensures |r.0| > 0 ==> IsAlpha(r.0[0]) && url == r.0 + ":" + r.1
    ensures |r.0| == 0 ==> r.1 == url
  {
    if ':' !in url then ("", url)
    else
      var i := IndexOf(url, ':');
      if i > 0 && IsAlpha(url[0]) && forall k :: 0 <= k < i ==> SchemeChar(url[k]) then
        assert url == url[..i] + ":" + url[i + 1..];
        (url[..i], url[i + 1..])
      else ("", url)
  }

  /** The text up to the first '/', '?' or '#'. */
  function NetlocPrefix(s: string): (n: string)
    ensures |n| <= |s| && n == s[..|n|]
    ensures forall k :: 0 <= k < |n| ==> n[k] != '/' && n[k] != '?' && n[k] != '#'
    ensures |n| < |s| ==> s[|n|] == '/' || s[|n|] == '?' || s[|n|] == '#'
  {
    if |s| == 0 || s[0] == '/' || s[0] == '?' || s[0] == '#' then ""
    else [s[0]] + NetlocPrefix(s[1..])
  }

  /** The text between the first '[' and the next ']'. */
  function BracketedHost(n: string): string
    requires '[' in n
  {
    var after := n[IndexOf(n, '[') + 1..];
    if ']' in after then after[..IndexOf(after, ']')] else after
  }

  /** The network location `urlsplit` finds, or the ValueError it raises.
      Whether a bracketed host is a valid IP literal is decided by the
      `ipaddress` library, here the parameter `hostOk`. */
  function Netloc(rest: string, hostOk: string -> bool): (r: Result<string>)
    ensures r.Ok? && |r.value| > 0 ==> StartsWith(rest, "//")
    ensures StartsWith(rest, "//") && '[' !in rest && ']' !in rest ==> r == Ok(NetlocPrefix(rest[2..]))
  {
    if !StartsWith(rest, "//") then Ok("")
    else
      var n := NetlocPrefix(rest[2..]);
      if ('[' in n && ']' !in n) || (']' in n && '[' !in n) then Err(ValueError("Invalid IPv6 URL"))
      else if '[' in n && ']' in n && !hostOk(BracketedHost(n)) then Err(ValueError("Invalid IPv6 URL"))
      else Ok(n)
  }

  /** `url_validator`: `urlparse` succeeds and finds both a scheme and a
      network location; a ValueError from `urlparse` means invalid. */
  predicate UrlValid(url: string, hostOk: string -> bool) {
    var clean := RemoveUnsafe(StripLeadingC0(url));
    var (scheme, rest) := SplitScheme(clean);
    match Netloc(rest, hostOk)
    case Err(_) => false
    case Ok(netloc) => |scheme| > 0 && |netloc| > 0
  }

  /** The usual shape: a scheme, "://", a host without delimiters or
      brackets, and a path, query or fragment (or nothing). Such a URL is
      valid exactly when the host is non-empty. */
  lemma UrlValidPlain(scheme: string, host: string, tail: string, hostOk: string -> bool)
    requires |scheme| > 0 && IsAlpha(scheme[0]) && forall k :: 0 <= k < |scheme| ==> SchemeChar(scheme[k])
    requires forall k :: 0 <= k < |host| ==> PlainHostChar(host[k])
    requires |tail| == 0 || tail[0] == '/' || tail[0] == '?' || tail[0] == '#'
    requires forall k :: 0 <= k < |tail| ==> PlainTailChar(tail[k])
    ensures UrlValid(scheme + "://" + host + tail, hostOk) <==> |host| > 0
  {
    var url, rest := PlainParts(scheme, host, tail, hostOk);
    UrlValidOfParts(url, scheme, rest, host, hostOk);
  }

  lemma PlainParts(scheme: string, host: string, tail: string, hostOk: string -> bool)
    returns (url: string, rest: string)
    requires |scheme| > 0 && IsAlpha(scheme[0]) && forall k :: 0 <= k < |scheme| ==> SchemeChar(scheme[k])
    requires forall k :: 0 <= k < |host| ==> PlainHostChar(host[k])
    requires |tail| == 0 || tail[0] == '/' || tail[0] == '?' || tail[0] == '#'
    requires forall k :: 0 <= k < |tail| ==> PlainTailChar(tail[k])
    ensures url == scheme + "://" + host + tail
    ensures RemoveUnsafe(StripLeadingC0(url)) == url
    ensures SplitScheme(url) == (scheme, rest)
    ensures Netloc(rest, hostOk) == Ok(host)
  {
    url := scheme + "://" + host + tail;
    rest := "//" + host + tail;
    assert url == scheme + ":" + rest;
    CleanUrl(scheme, host, tail);
    SplitSchemeAt(scheme, rest);
    PlainNetloc(host, tail, hostOk);
  }

  lemma PlainNetloc(host: string, tail: string, hostOk: string -> bool)
    requires forall k :: 0 <= k < |host| ==> PlainHostChar(host[k])
    requires |tail| == 0 || tail[0] == '/' || tail[0] == '?' || tail[0] == '#'
    requires forall k :: 0 <= k < |tail| ==> PlainTailChar(tail[k])
    ensures Netloc("//" + host + tail, hostOk) == Ok(host)
  {
    var rest := "//" + host + tail;
    assert rest[2..] == host + tail;
    NetlocPrefixOf(host, tail);
    NoBrackets(host, tail);
    assert StartsWith(rest, "//");
  }

  lemma UrlValidOfParts(url: string, scheme: string, rest: string, netloc: string, hostOk: string -> bool)
    requires RemoveUnsafe(StripLeadingC0(url)) == url
    requires SplitScheme(url) == (scheme, rest)
    requires Netloc(rest, hostOk) == Ok(netloc)
    ensures UrlValid(url, hostOk) <==> |scheme| > 0 && |netloc| > 0
  {
  }

  /** Characters that may follow the host. */
  predicate PlainTailChar(c: char) {
    c != '\t' && c != '\r' && c != '\n' && c != '[' && c != ']'
  }

  lemma CleanUrl(scheme: string, host: string, tail: string)
    requires |scheme| > 0 && forall k :: 0 <= k < |scheme| ==> SchemeChar(scheme[k])
    requires forall k :: 0 <= k < |host| ==> PlainHostChar(host[k])
    requires forall k :: 0 <= k < |tail| ==> PlainTailChar(tail[k])
    ensures var url := scheme + "://" + host + tail;
            RemoveUnsafe(StripLeadingC0(url)) == url
  {
    var url := scheme + "://" + host + tail;
    assert url[0] == scheme[0];
    assert StripLeadingC0(url) == url;
    assert '\t' !in url && '\r' !in url && '\n' !in url by {
      forall k | 0 <= k < |url|
        ensures PlainTailChar(url[k]) || SchemeChar(url[k]) || url[k] == ':' || url[k] == '/'
      {
        if k < |scheme| {
          assert url[k] == scheme[k];
        } else if k >= |scheme| + 3 + |host| {
          assert url[k] == tail[k - |scheme| - 3 - |host|];
        } else if k >= |scheme| + 3 {
          assert url[k] == host[k - |scheme| - 3];
        }
      }
    }
    RemoveAbsent(url);
  }

  lemma NoBrackets(host: string, tail: string)
    requires forall k :: 0 <= k < |host| ==> PlainHostChar(host[k])
    requires forall k :: 0 <= k < |tail| ==> PlainTailChar(tail[k])
    ensures '[' !in "//" + host + tail && ']' !in "//" + host + tail
  {
    var rest := "//" + host + tail;
    forall k | 0 <= k < |rest|
      ensures rest[k] != '[' && rest[k] != ']'
    {
      if 2 <= k < 2 + |host| {
        assert rest[k] == host[k - 2];
      } else if k >= 2 + |host| {
        assert rest[k] == tail[k - 2 - |host|];
      }
    }
  }

  /** Host characters that need no special treatment. */
  predicate PlainHostChar(c: char) {
    c > ' ' && c != '/' && c != '?' && c != '#' && c != '[' && c != ']' && c != ':'
  }

  lemma RemoveAbsent(url: string)
    requires '\t' !in url && '\r' !in url && '\n' !in url
    ensures RemoveUnsafe(url) == url
  {
    RemoveCharAbsent(url, '\t');
    RemoveCharAbsent(url, '\r');
    RemoveCharAbsent(url, '\n');
  }

  lemma SplitSchemeAt(scheme: string, rest: string)
    requires |scheme| > 0 && IsAlpha(scheme[0]) && forall k :: 0 <= k < |scheme| ==> SchemeChar(scheme[k])
    ensures SplitScheme(scheme + ":" + rest) == (scheme, rest)
  {
    var url := scheme + ":" + rest;
    assert url[|scheme|] == ':';
    assert forall k :: 0 <= k < |scheme| ==> url[k] == scheme[k] && scheme[k] != ':';
    var i := IndexOf(url, ':');
    assert i == |scheme|;
    assert url[..i] == scheme && url[i + 1..] == rest;
  }

  lemma NetlocPrefixOf(host: string, tail: string)
    requires forall k :: 0 <= k < |host| ==> PlainHostChar(host[k])
    requires |tail| == 0 || tail[0] == '/' || tail[0] == '?' || tail[0] == '#'
    ensures NetlocPrefix(host + tail) == host
  {
    if |host| > 0 {
      assert (host + tail)[1..] == host[1..] + tail;
      NetlocPrefixOf(host[1..], tail);
    } else {
      assert host + tail == tail;
    }
  }

  /** Without a colon there is no scheme, so the URL is invalid. */
  lemma UrlWithoutColon(url: string, hostOk: string -> bool)
    requires ':' !in url
    ensures !UrlValid(url, hostOk)
  {
    var clean := RemoveUnsafe(StripLeadingC0(url));
    assert ':' !in clean;
  }

  // ---------------------------------------------------------------- run_modern

  /** The configuration `run_modern` builds: the dates and UAM switch it is
      given, everything else at its default. */
  function ModernConfig(start: string, end: string, uam: bool): Config {
    Config(start, end, uam, false, "UTC", 4.0, true)
  }

  /** `run_modern`: the recommendation rows of a successful run, and None
      for an invalid URL or a failed run. The three fetch results stand for
      the requests the engine makes. */
  function RunModern(url: string, hostOk: string -> bool, start: string, end: string, uam: bool,
                     entries: Result<seq<RawEntry>>, treatments: Result<seq<RawTreatment>>,
                     profiles: Result<seq<ProfileDoc>>, aggressive: bool): (r: Option<seq<Recommendation>>)
    ensures r.Some? <==> UrlValid(url, hostOk)
                         && RunAutotune(ModernConfig(start, end, uam), entries, treatments, profiles, aggressive).Success?
    ensures r.Some? ==> r.value == RunAutotune(ModernConfig(start, end, uam), entries, treatments, profiles, aggressive).recommendations
  {
    if !UrlValid(url, hostOk) then None
    else
      match RunAutotune(ModernConfig(start, end, uam), entries, treatments, profiles, aggressive)
      case Failure(_, _) => None
      case Success(_, _, _, _, recs, _) => Some(recs)
  }

  // ---------------------------------------------------------------- get view

  /** The tables `get` builds from a profile: basal rows (time without
      seconds, rate), and the ISF in both units with the carb ratio. */
  datatype ProfileView = ProfileView(basals: seq<(string, Cell)>, isfMgdl: Cell, isfMmol: Float, carbRatio: Cell)

  /** `profile[outer][listKey][0][key]`. */
  function FirstValue(list: Option<seq<map<string, Cell>>>, listKey: string, key: string): (r: Result<Cell>)
    ensures r.Ok? <==> list.Some? && |list.value| > 0 && key in list.value[0]
    ensures r.Ok? ==> r.value == list.value[0][key]
  {
    match list
    case None => Err(KeyError(listKey))
    case Some(entries) =>
      if |entries| == 0 then Err(IndexError)
      else if key !in entries[0] then Err(KeyError(key))
      else Ok(entries[0][key])
  }

  /** `value / 18` on a Python value: strings and None raise TypeError. */
  function DivideBy18(v: Cell): (r: Result<Float>)
    ensures r.Ok? <==> v.Num? || v.NaNValue?
    ensures v.Num? ==> r == Ok(Fin(v.x / MgdlPerMmol))
  {
    match v
    case Num(x) => Ok(Fin(x / MgdlPerMmol))
    case NaNValue => Ok(NaN)
    case _ => Err(TypeError("unsupported operand type(s) for /"))
  }

  function BasalRow(s: BasalSlot): (string, Cell) {
    (DropLast(s.start, 3), s.rate)
  }

  function BasalRows(slots: seq<BasalSlot>): (r: seq<(string, Cell)>)
    ensures |r| == |slots|
    ensures forall k :: 0 <= k < |slots| ==> r[k] == BasalRow(slots[k])
  {
    if |slots| == 0 then [] else [BasalRow(slots[0])] + BasalRows(slots[1..])
  }

  function GetView(p: OapsProfile): (r: Result<ProfileView>)
    ensures r.Ok? <==> p.carbRatios.Some? && FirstValue(p.carbRatios.value.schedule, "schedule", "ratio").Ok?
                       && p.isfProfile.Some? && FirstValue(p.isfProfile.value.sensitivities, "sensitivities", "sensitivity").Ok?
                       && p.basalprofile.Some? && |p.basalprofile.value| > 0
                       && DivideBy18(p.isfProfile.value.sensitivities.value[0]["sensitivity"]).Ok?
    ensures r.Ok? ==> r.value.carbRatio == p.carbRatios.value.schedule.value[0]["ratio"]
                      && r.value.isfMgdl == p.isfProfile.value.sensitivities.value[0]["sensitivity"]
                      && |r.value.basals| == |p.basalprofile.value|
                      && (forall k :: 0 <= k < |r.value.basals| ==>
                            r.value.basals[k].1 == p.basalprofile.value[k].rate
                            && r.value.basals[k].0 == DropLast(p.basalprofile.value[k].start, 3))
  {
    if p.carbRatios.None? then Err(KeyError("carb_ratios"))
    else match FirstValue(p.carbRatios.value.schedule, "schedule", "ratio")
    case Err(e) => Err(e)
    case Ok(cr) =>
      if p.isfProfile.None? then Err(KeyError("isfProfile"))
      else match FirstValue(p.isfProfile.value.sensitivities, "sensitivities", "sensitivity")
      case Err(e) => Err(e)
      case Ok(isf) =>
        if p.basalprofile.None? then Err(KeyError("basalprofile"))
        else if |p.basalprofile.value| == 0 then Err(KeyError("['i' 'minutes'] not found in axis"))
        else match DivideBy18(isf)
        case Err(e) => Err(e)
        case Ok(mmol) => Ok(ProfileView(BasalRows(p.basalprofile.value), isf, mmol, cr))
  }

  /** The slots the applier writes show in the view as "HH:00". */
  lemma AppliedSlotTime(h: nat)
    requires h < 24
    ensures DropLast(Pad2(h) + ":00:00", 3) == Pad2(h) + ":00"
  {
    assert (Pad2(h) + ":00:00")[..5] == Pad2(h) + ":00";
  }
}

=== FILE: clean.dfy ===
/** data_processing/clean_values.py: the Pump and Autotune columns as
    two-decimal text for display. Index labels are assumed unique, so
    `df["Pump"][3]` is one cell. */
module Cleaning {
  import opened PyValues
  import opened Numeric
  import opened Text
  import opened Tables

  /** `replace('', np.nan).astype(float)` on one value: "" and None are
      NaN; other strings must parse or the cast raises ValueError. */
  function CastFloat(c: Cell): (r: Result<Float>)
    ensures c == Text("") || IsNA(c) ==> r == Ok(NaN)
    ensures c.Num? ==> r == Ok(Fin(c.x))
    ensures c.Text? && |c.s| > 0 ==> (r.Ok? <==> ParseFloat(c.s).Some?)
    ensures c.Text? && |c.s| > 0 && ParseFloat(c.s).Some? ==> r == Ok(ParseFloat(c.s).value)
  {
    if c == Text("") || c.Null? then Ok(NaN) else ToFloat(c)
  }

  /** The cast followed by `f'{x:.2f}'`. */
  function Fixed2Cell(c: Cell): (r: Result<Cell>)
    ensures r.Ok? <==> CastFloat(c).Ok?
    ensures r.Ok? ==> r.value == Text(FormatFixed2(CastFloat(c).value))
  {
    match CastFloat(c)
    case Err(e) => Err(e)
    case Ok(f) => Ok(Text(FormatFixed2(f)))
  }

  /** One column cast and formatted, row by row; the first value that does
      not cast fails it. */
  function FormatColumn(rows: seq<Row>, column: string): (r: Result<seq<Row>>)
    ensures r.Ok? <==> forall j :: 0 <= j < |rows| ==> Fixed2Cell(At(rows[j], column)).Ok?
    ensures r.Ok? ==> |r.value| == |rows|
    ensures r.Ok? ==> forall j :: 0 <= j < |rows| ==>
              r.value[j] == Row(rows[j].index, rows[j].cells[column := Fixed2Cell(At(rows[j], column)).value])
  {
    if |rows| == 0 then Ok([])
    else
      assert forall j :: 1 <= j < |rows| ==> rows[1..][j - 1] == rows[j];
      match Fixed2Cell(At(rows[0], column))
      case Err(e) => Err(e)
      case Ok(c) =>
        match FormatColumn(rows[1..], column)
        case Err(e) => Err(e)
        case Ok(rest) => Ok([Row(rows[0].index, rows[0].cells[column := c])] + rest)
  }

  /** `df.replace("nan", "")` on one row. */
  function ClearNan(r: Row): (q: Row)
    ensures q.index == r.index && q.cells.Keys == r.cells.Keys
    ensures forall c :: c in r.cells ==> q.cells[c] == if r.cells[c] == Text("nan") then Text("") else r.cells[c]
  {
    Row(r.index, map c | c in r.cells :: if r.cells[c] == Text("nan") then Text("") else r.cells[c])
  }

  function ClearNanRows(rows: seq<Row>): (r: seq<Row>)
    ensures |r| == |rows|
    ensures forall j :: 0 <= j < |rows| ==> r[j] == ClearNan(rows[j])
  {
    seq(|rows|, j requires 0 <= j < |rows| => ClearNan(rows[j]))
  }

  predicate HasIndex(rows: seq<Row>, index: int) {
    exists j :: 0 <= j < |rows| && rows[j].index == index
  }

  /** `df["Pump"][3] = ""`. */
  function BlankPump3(rows: seq<Row>): (r: seq<Row>)
    ensures |r| == |rows|
    ensures forall j :: 0 <= j < |rows| ==>
              r[j] == if rows[j].index == 3 then Row(3, rows[j].cells["Pump" := Text("")]) else rows[j]
  {
    seq(|rows|, j requires 0 <= j < |rows| =>
      if rows[j].index == 3 then Row(3, rows[j].cells["Pump" := Text("")]) else rows[j])
  }

  /** The rows after the blanking step: the comparison with the type
      `float` is never equal, so with more than three rows the Pump value
      labelled 3 is always blanked, and a missing label 3 raises KeyError. */
  function Blanked(rows: seq<Row>): (r: Result<seq<Row>>)
    ensures |rows| <= 3 ==> r == Ok(rows)
    ensures |rows| > 3 ==> (r.Ok? <==> HasIndex(rows, 3))
    ensures |rows| > 3 && r.Ok? ==> r.value == BlankPump3(rows)
  {
    if |rows| <= 3 then Ok(rows)
    else if !HasIndex(rows, 3) then Err(KeyError("3"))
    else Ok(BlankPump3(rows))
  }

  /** `clean_values(df)`. */
  function CleanValues(f: Frame): (r: Result<Frame>)
    ensures IsEmpty(f) || "Pump" !in f.columns ==> r == Ok(f)
    ensures r.Ok? ==> r.value.columns == f.columns && |r.value.rows| == |f.rows|
    ensures r.Ok? ==> forall j :: 0 <= j < |f.rows| ==> r.value.rows[j].index == f.rows[j].index
    ensures r.Ok? && !IsEmpty(f) && "Pump" in f.columns ==>
              forall j, c :: 0 <= j < |f.rows| && c in r.value.rows[j].cells ==> r.value.rows[j].cells[c] != Text("nan")
    ensures (!IsEmpty(f) && "Pump" in f.columns && "Autotune" !in f.columns && Blanked(f.rows).Ok?
             && FormatColumn(Blanked(f.rows).value, "Pump").Ok?) ==> r == Err(KeyError("Autotune"))
  {
    if IsEmpty(f) || "Pump" !in f.columns then Ok(f)
    else
      match Blanked(f.rows)
      case Err(e) => Err(e)
      case Ok(rows0) =>
        match FormatColumn(rows0, "Pump")
        case Err(e) => Err(e)
        case Ok(rows1) =>
          if "Autotune" !in f.columns then Err(KeyError("Autotune"))
          else match FormatColumn(rows1, "Autotune")
          case Err(e) => Err(e)
          case Ok(rows2) => Ok(Frame(f.columns, ClearNanRows(rows2)))
  }

  /** How a value that casts shows after `clean_values`: its "%.2f" text,
      or "" for NaN. */
  function Shown(f: Float): Cell {
    match f
    case Fin(x) => Text(Fixed2(x))
    case NaN => Text("")
  }

  /** "nan" texts show as "". */
  function Blank(c: Cell): Cell {
    if c == Text("nan") then Text("") else c
  }

  /** The Pump value the cast sees: the one labelled 3 is blanked first. */
  function PumpSource(rows: seq<Row>, j: nat): Cell
    requires j < |rows|
  {
    if |rows| > 3 && rows[j].index == 3 then Text("") else At(rows[j], "Pump")
  }

  /** After the blanking step the Pump value is `PumpSource`, and every
      other column is as before. */
  lemma BlankedAt(rows: seq<Row>)
    requires |rows| <= 3 || HasIndex(rows, 3)
    ensures Blanked(rows).Ok? && |Blanked(rows).value| == |rows|
    ensures forall j :: 0 <= j < |rows| ==> At(Blanked(rows).value[j], "Pump") == PumpSource(rows, j)
    ensures forall j, c :: 0 <= j < |rows| && c != "Pump" ==> At(Blanked(rows).value[j], c) == At(rows[j], c)
  {
  }

  /** Formatting one column leaves the others alone. */
  lemma FormatColumnOther(rows: seq<Row>, column: string)
    requires FormatColumn(rows, column).Ok?
    ensures forall j, c :: 0 <= j < |rows| && c != column ==> At(FormatColumn(rows, column).value[j], c) == At(rows[j], c)
  {
  }

  /** `clean_values` succeeds exactly when label 3 exists in a table of more
      than three rows, every Pump value casts, there is an Autotune column
      and every Autotune value casts. */
  lemma CleanValuesOk(f: Frame)
    requires !IsEmpty(f) && "Pump" in f.columns
    ensures CleanValues(f).Ok? <==>
              (|f.rows| <= 3 || HasIndex(f.rows, 3))
              && (forall j :: 0 <= j < |f.rows| ==> CastFloat(PumpSource(f.rows, j)).Ok?)
              && "Autotune" in f.columns
              && (forall j :: 0 <= j < |f.rows| ==> CastFloat(At(f.rows[j], "Autotune")).Ok?)
  {
    if |f.rows| <= 3 || HasIndex(f.rows, 3) {
      PumpCasts(f.rows);
      if FormatColumn(Blanked(f.rows).value, "Pump").Ok? {
        AutotuneCasts(f.rows);
      }
    }
  }

  /** The Pump step succeeds exactly when every Pump value the cast sees
      casts. */
  lemma PumpCasts(rows: seq<Row>)
    requires |rows| <= 3 || HasIndex(rows, 3)
    ensures Blanked(rows).Ok?
    ensures FormatColumn(Blanked(rows).value, "Pump").Ok?
        <==> forall j :: 0 <= j < |rows| ==> CastFloat(PumpSource(rows, j)).Ok?
  {
    BlankedAt(rows);
  }

  /** After the Pump step, the Autotune step succeeds exactly when every
      original Autotune value casts. */
  lemma AutotuneCasts(rows: seq<Row>)
    requires |rows| <= 3 || HasIndex(rows, 3)
    requires Blanked(rows).Ok? && FormatColumn(Blanked(rows).value, "Pump").Ok?
    ensures FormatColumn(FormatColumn(Blanked(rows).value, "Pump").value, "Autotune").Ok?
        <==> forall j :: 0 <= j < |rows| ==> CastFloat(At(rows[j], "Autotune")).Ok?
  {
    BlankedAt(rows);
    FormatColumnOther(Blanked(rows).value, "Pump");
  }

  /** The three steps of a successful `clean_values` on a usable table. */
  lemma CleanValuesSteps(f: Frame)
    requires !IsEmpty(f) && "Pump" in f.columns && CleanValues(f).Ok?
    ensures Blanked(f.rows).Ok?
    ensures FormatColumn(Blanked(f.rows).value, "Pump").Ok?
    ensures FormatColumn(FormatColumn(Blanked(f.rows).value, "Pump").value, "Autotune").Ok?
    ensures CleanValues(f).value.rows
         == ClearNanRows(FormatColumn(FormatColumn(Blanked(f.rows).value, "Pump").value, "Autotune").value)
  {
  }

  /** Formatting Pump and then Autotune replaces both values of a row. */
  lemma FormatBoth(rows: seq<Row>, j: nat)
    requires j < |rows| && FormatColumn(rows, "Pump").Ok?
    requires FormatColumn(FormatColumn(rows, "Pump").value, "Autotune").Ok?
    ensures CastFloat(At(rows[j], "Pump")).Ok? && CastFloat(At(rows[j], "Autotune")).Ok?
    ensures FormatColumn(FormatColumn(rows, "Pump").value, "Autotune").value[j]
         == Row(rows[j].index,
              rows[j].cells["Pump" := Text(FormatFixed2(CastFloat(At(rows[j], "Pump")).value))]
                           ["Autotune" := Text(FormatFixed2(CastFloat(At(rows[j], "Autotune")).value))])
  {
    var rows1 := FormatColumn(rows, "Pump").value;
    assert At(rows1[j], "Autotune") == At(rows[j], "Autotune");
  }

  /** One row after `clean_values`: Pump and Autotune replaced by their
      formatted casts, then "nan" cleared. */
  lemma CleanRow(f: Frame, j: nat)
    requires !IsEmpty(f) && "Pump" in f.columns && CleanValues(f).Ok? && j < |f.rows|
    ensures CastFloat(PumpSource(f.rows, j)).Ok? && CastFloat(At(f.rows[j], "Autotune")).Ok?
    ensures CleanValues(f).value.rows[j]
         == ClearNan(Row(f.rows[j].index,
              f.rows[j].cells["Pump" := Text(FormatFixed2(CastFloat(PumpSource(f.rows, j)).value))]
                             ["Autotune" := Text(FormatFixed2(CastFloat(At(f.rows[j], "Autotune")).value))]))
  {
    CleanValuesSteps(f);
    BlankedAt(f.rows);
    var rows0 := Blanked(f.rows).value;
    FormatBoth(rows0, j);
    assert At(rows0[j], "Pump") == PumpSource(f.rows, j);
    assert At(rows0[j], "Autotune") == At(f.rows[j], "Autotune");
    var p := Text(FormatFixed2(CastFloat(PumpSource(f.rows, j)).value));
    if |f.rows| > 3 && f.rows[j].index == 3 {
      assert rows0[j] == Row(3, f.rows[j].cells["Pump" := Text("")]);
      UpdateTwice(f.rows[j].cells, "Pump", Text(""), p);
    } else {
      assert rows0[j] == f.rows[j];
    }
  }

  lemma UpdateTwice<K, V>(m: map<K, V>, k: K, a: V, b: V)
    ensures m[k := a][k := b] == m[k := b]
  {
  }

  /** The cells of a row whose Pump and Autotune values were replaced by
      the formatted `p` and `a`, once "nan" is cleared. */
  lemma ClearNanUpdated(r: Row, p: Float, a: Float)
    ensures var q := ClearNan(Row(r.index, r.cells["Pump" := Text(FormatFixed2(p))]["Autotune" := Text(FormatFixed2(a))]));
            At(q, "Pump") == Shown(p) && At(q, "Autotune") == Shown(a)
            && q.cells.Keys == r.cells.Keys + {"Pump", "Autotune"}
            && (forall c :: c in r.cells && c != "Pump" && c != "Autotune" ==> q.cells[c] == Blank(r.cells[c]))
  {
    ShownText(p);
    ShownText(a);
  }

  /** What `clean_values` leaves in every row: the Pump and Autotune values
      as their "%.2f" texts ("" for NaN), the Pump value labelled 3 blanked
      first, and every other cell unchanged except that "nan" shows as "". */
  lemma CleanValuesCells(f: Frame)
    requires !IsEmpty(f) && "Pump" in f.columns && CleanValues(f).Ok?
    ensures forall j :: 0 <= j < |f.rows| ==>
              var q := CleanValues(f).value.rows[j];
              CastFloat(PumpSource(f.rows, j)).Ok?
              && At(q, "Pump") == Shown(CastFloat(PumpSource(f.rows, j)).value)
              && CastFloat(At(f.rows[j], "Autotune")).Ok?
              && At(q, "Autotune") == Shown(CastFloat(At(f.rows[j], "Autotune")).value)
              && q.cells.Keys == f.rows[j].cells.Keys + {"Pump", "Autotune"}
              && (forall c :: c in f.rows[j].cells && c != "Pump" && c != "Autotune" ==>
                    q.cells[c] == Blank(f.rows[j].cells[c]))
  {
    forall j | 0 <= j < |f.rows|
      ensures var q := CleanValues(f).value.rows[j];
              CastFloat(PumpSource(f.rows, j)).Ok?
              && At(q, "Pump") == Shown(CastFloat(PumpSource(f.rows, j)).value)
              && CastFloat(At(f.rows[j], "Autotune")).Ok?
              && At(q, "Autotune") == Shown(CastFloat(At(f.rows[j], "Autotune")).value)
              && q.cells.Keys == f.rows[j].cells.Keys + {"Pump", "Autotune"}
              && (forall c :: c in f.rows[j].cells && c != "Pump" && c != "Autotune" ==>
                    q.cells[c] == Blank(f.rows[j].cells[c]))
    {
      CleanRow(f, j);
      ClearNanUpdated(f.rows[j], CastFloat(PumpSource(f.rows, j)).value, CastFloat(At(f.rows[j], "Autotune")).value);
    }
  }

  /** The same for one row, with every other column read through `At`:
      a column the row lacks stays missing. */
  lemma CleanValuesAt(f: Frame, j: nat)
    requires !IsEmpty(f) && "Pump" in f.columns && CleanValues(f).Ok? && j < |f.rows|
    ensures var q := CleanValues(f).value.rows[j];
            q.index == f.rows[j].index
            && CastFloat(PumpSource(f.rows, j)).Ok?
            && At(q, "Pump") == Shown(CastFloat(PumpSource(f.rows, j)).value)
            && CastFloat(At(f.rows[j], "Autotune")).Ok?
            && At(q, "Autotune") == Shown(CastFloat(At(f.rows[j], "Autotune")).value)
            && (forall c :: c != "Pump" && c != "Autotune" ==> At(q, c) == Blank(At(f.rows[j], c)))
  {
    CleanRow(f, j);
    ClearNanUpdated(f.rows[j], CastFloat(PumpSource(f.rows, j)).value, CastFloat(At(f.rows[j], "Autotune")).value);
  }

  /** A formatted value shows as `Shown` once "nan" is cleared. */
  lemma ShownText(f: Float)
    ensures Blank(Text(FormatFixed2(f))) == Shown(f)
  {
    if f.Fin? {
      NotNanText(f.v);
    }
  }

  /** A number in the Pump column (away from label 3) comes out as its
      "%.2f" text, which reads back as the number rounded to two decimals.
      The other cells of the row are the business of `CleanValuesCells`. */
  lemma CleanPumpNumber(f: Frame, j: nat, x: real)
    requires !IsEmpty(f) && "Pump" in f.columns && j < |f.rows|
    requires f.rows[j].index != 3 && At(f.rows[j], "Pump") == Num(x)
    requires CleanValues(f).Ok?
    ensures At(CleanValues(f).value.rows[j], "Pump") == Text(Fixed2(x))
    ensures ParseFloat(Fixed2(x)) == Some(Fin(Round(x, 2)))
  {
    ParseFixed2(x);
    var rows0 := Blanked(f.rows).value;
    assert rows0[j] == f.rows[j];
    var rows1 := FormatColumn(rows0, "Pump").value;
    assert At(rows1[j], "Pump") == Text(Fixed2(x));
    var rows2 := FormatColumn(rows1, "Autotune").value;
    assert At(rows2[j], "Pump") == Text(Fixed2(x));
    assert Fixed2(x) != "nan" by {
      NotNanText(x);
    }
  }

  /** A "%.2f" text always has a digit, so it is never "nan". */
  lemma NotNanText(x: real)
    ensures Fixed2(x) != "nan"
  {
    ParseFixed2(x);
    assert ParseFloat("nan") == Some(NaN);
  }

  /** An empty or missing Pump value, and the one labelled 3, show as "". */
  lemma CleanPumpBlank(f: Frame, j: nat)
    requires !IsEmpty(f) && "Pump" in f.columns && j < |f.rows|
    requires (|f.rows| > 3 && f.rows[j].index == 3) || At(f.rows[j], "Pump") == Text("") || IsNA(At(f.rows[j], "Pump"))
    requires CleanValues(f).Ok?
    ensures At(CleanValues(f).value.rows[j], "Pump") == Text("")
  {
    CleanValuesAt(f, j);
    assert CastFloat(PumpSource(f.rows, j)) == Ok(NaN);
  }

  /** A non-empty Pump text that `float()` cannot read raises: nothing
      catches the ValueError. */
  lemma CleanRejectsText(f: Frame, j: nat, s: string)
    requires !IsEmpty(f) && "Pump" in f.columns && j < |f.rows| && f.rows[j].index != 3
    requires At(f.rows[j], "Pump") == Text(s) && |s| > 0 && ParseFloat(s).None?
    ensures CleanValues(f).Err?
  {
    if Blanked(f.rows).Ok? {
      var rows0 := Blanked(f.rows).value;
      assert rows0[j] == f.rows[j];
      assert Fixed2Cell(At(rows0[j], "Pump")).Err?;
    }
  }
}

=== FILE: dashboard.dfy ===
/** dash_app.py, `load_profile`: the date window of a run, and the
    profile choices offered for upload (`profile-name-option` and
    `populate_profile_selection_dropdown`). Dates are day numbers: parsing
    and formatting them is not part of this model, and the formatting is
    the parameter `format` where a run needs date strings. */
module Dashboard {
  import opened PyValues
  import opened Text
  import opened Sorting
  import opened Nightscout
  import opened Recommendations
  import opened Applier

  // ---------------------------------------------------------------- date window

  /** The picked dates, as day numbers. */
  datatype DateRange = DateRange(start: int, end: int)

  /** The longest window a run may cover, in days. */
  const MaxDays: int := 14

  function Days(d: DateRange): int {
    d.end - d.start
  }

  /** The window check: more than 14 days moves the start to 14 days
      before the end; `restricted` says which message is shown. */
  function ClampWindow(d: DateRange): (r: (DateRange, bool))
    ensures r.0.end == d.end
    ensures r.1 <==> Days(d) > MaxDays
    ensures Days(r.0) <= MaxDays
    ensures r.0.start >= d.start
    ensures !r.1 ==> r.0 == d
  {
    if Days(d) > MaxDays then (DateRange(d.end - MaxDays, d.end), true) else (d, false)
  }

  /** Clamping twice changes nothing more. */
  lemma ClampIdempotent(d: DateRange)
    ensures ClampWindow(ClampWindow(d).0) == (ClampWindow(d).0, false)
  {
  }

  /** The dates handed to the run: both one day later. */
  function ShiftForRun(d: DateRange): (r: DateRange)
    ensures Days(r) == Days(d)
    ensures r.start == d.start + 1 && r.end == d.end + 1
  {
    DateRange(d.start + 1, d.end + 1)
  }

  /** `'aggressive' in (aggressive_mode or [])`. */
  function AggressiveEnabled(checked: Option<seq<string>>): (r: bool)
    ensures r <==> checked.Some? && exists k :: 0 <= k < |checked.value| && checked.value[k] == "aggressive"
  {
    match checked
    case None => false
    case Some(xs) => "aggressive" in xs
  }

  /** `checklist_value == 1`. */
  function UamEnabled(checklist: Cell): (r: bool)
    ensures r <==> checklist == Num(1.0)
  {
    checklist == Num(1.0)
  }

  /** The run step: taken when the run was requested with a host and a
      valid URL; it then runs on the clamped window shifted by a day. The
      dates are always there: the window check before every step has
      parsed both already. None: the step is not taken. */
  function RunStep(run: bool, dates: DateRange, host: string, hostOk: string -> bool,
                   checklist: Cell, aggressive: Option<seq<string>>, format: int -> string,
                   entries: Result<seq<RawEntry>>, treatments: Result<seq<RawTreatment>>,
                   profiles: Result<seq<ProfileDoc>>): (r: Option<Option<seq<Recommendation>>>)
    ensures r.Some? <==> run && |host| > 0 && UrlValid(host, hostOk)
    ensures r.Some? ==>
              var w := ShiftForRun(ClampWindow(dates).0);
              r.value == RunModern(host, hostOk, format(w.start), format(w.end), UamEnabled(checklist),
                                   entries, treatments, profiles, AggressiveEnabled(aggressive))
  {
    if run && |host| > 0 && UrlValid(host, hostOk) then
      var w := ShiftForRun(ClampWindow(dates).0);
      Some(RunModern(host, hostOk, format(w.start), format(w.end), UamEnabled(checklist),
                     entries, treatments, profiles, AggressiveEnabled(aggressive)))
    else None
  }

  /** A run never covers more than 14 days, and it ends the day after the
      picked end. */
  lemma RunWindow(d: DateRange)
    ensures var w := ShiftForRun(ClampWindow(d).0);
            w.end == d.end + 1 && Days(w) <= MaxDays && w.start >= d.start + 1
            && (Days(d) <= MaxDays ==> Days(w) == Days(d))
            && (Days(d) > MaxDays ==> Days(w) == MaxDays)
  {
  }

  // ---------------------------------------------------------------- profile choices

  /** A stored profile as the profile list reports it. */
  datatype StoredProfile = StoredProfile(name: string, isDefault: bool, startDate: Option<string>)

  /** The position in the unique-profile dict holding this name. */
  function Find(d: seq<StoredProfile>, name: string): (r: Option<nat>)
    ensures r.Some? ==> r.value < |d| && d[r.value].name == name
    ensures r.None? <==> forall i :: 0 <= i < |d| ==> d[i].name != name
    ensures r.Some? ==> forall i :: 0 <= i < r.value ==> d[i].name != name
  {
    if |d| == 0 then None
    else if d[0].name == name then Some(0)
    else match Find(d[1..], name)
      case None => None
      case Some(i) => Some(i + 1)
  }

  /** One step of the loop: a new name is appended; a known name is
      replaced, in place, only by a default profile. */
  function Keep(d: seq<StoredProfile>, p: StoredProfile): (r: seq<StoredProfile>)
    ensures |r| == |d| || r == d + [p]
  {
    match Find(d, p.name)
    case None => d + [p]
    case Some(i) => if p.isDefault then d[i := p] else d
  }

  /** The unique profiles: one entry per name, in first-seen order. */
  function Unique(ps: seq<StoredProfile>): (r: seq<StoredProfile>)
  {
    if |ps| == 0 then []
    else Keep(Unique(ps[..|ps| - 1]), ps[|ps| - 1])
  }

  predicate DistinctNames(d: seq<StoredProfile>) {
    forall i, j :: 0 <= i < j < |d| ==> d[i].name != d[j].name
  }

  predicate Named(ps: seq<StoredProfile>, name: string) {
    exists k :: 0 <= k < |ps| && ps[k].name == name
  }

  /** The position of the first profile with the name. */
  function FirstNamed(ps: seq<StoredProfile>, name: string): (k: nat)
    requires Named(ps, name)
    ensures k < |ps| && ps[k].name == name
    ensures forall j :: 0 <= j < k ==> ps[j].name != name
  {
    if ps[0].name == name then 0
    else
      assert Named(ps[1..], name) by {
        var k :| 0 <= k < |ps| && ps[k].name == name;
        assert ps[1..][k - 1] == ps[k];
      }
      FirstNamed(ps[1..], name) + 1
  }

  /** Exactly the names seen, each once. */
  lemma UniqueNames(ps: seq<StoredProfile>)
    ensures DistinctNames(Unique(ps))
    ensures forall name :: Named(Unique(ps), name) <==> Named(ps, name)
  {
    UniqueDistinct(ps);
    UniqueCover(ps);
  }

  lemma {:induction false} UniqueDistinct(ps: seq<StoredProfile>)
    ensures DistinctNames(Unique(ps))
  {
    if |ps| > 0 {
      var init := ps[..|ps| - 1];
      var p := ps[|ps| - 1];
      var d := Unique(init);
      UniqueDistinct(init);
      match Find(d, p.name)
      case None =>
        var u := d + [p];
        assert Unique(ps) == u;
        assert forall x :: 0 <= x < |d| ==> u[x] == d[x] && d[x].name != p.name;
      case Some(x) =>
        if p.isDefault {
          var u := d[x := p];
          assert Unique(ps) == u;
          assert forall y :: 0 <= y < |d| ==> u[y].name == d[y].name;
        } else {
          assert Unique(ps) == d;
        }
    }
  }

  lemma {:induction false} UniqueCover(ps: seq<StoredProfile>)
    ensures forall name :: Named(Unique(ps), name) <==> Named(ps, name)
  {
    if |ps| > 0 {
      var init := ps[..|ps| - 1];
      var p := ps[|ps| - 1];
      UniqueCover(init);
      var d := Unique(init);
      assert forall k :: 0 <= k < |init| ==> init[k] == ps[k];
      forall name
        ensures Named(Unique(ps), name) <==> Named(ps, name)
      {
        FindAppend(d, p, name);
        if Find(d, p.name).Some? {
          FindUpdate(d, Find(d, p.name).value, p, name);
        }
        if Named(ps, name) {
          var k :| 0 <= k < |ps| && ps[k].name == name;
          if k < |init| {
            assert init[k].name == name;
          }
        }
        if Named(init, name) {
          var k :| 0 <= k < |init| && init[k].name == name;
          assert ps[k].name == name;
        }
      }
    }
  }

  /** Appending keeps the positions found so far. */
  lemma FindAppend(d: seq<StoredProfile>, p: StoredProfile, name: string)
    ensures Find(d + [p], name) == if Find(d, name).Some? then Find(d, name) else if p.name == name then Some(|d|) else None
    ensures Named(d + [p], name) <==> Named(d, name) || p.name == name
  {
    var e := d + [p];
    assert forall i :: 0 <= i < |d| ==> e[i] == d[i];
    assert e[|d|] == p;
    if Find(d, name).Some? {
      var i := Find(d, name).value;
      assert Find(e, name).Some? by {
        assert e[i].name == name;
      }
    } else if p.name == name {
      assert Find(e, name) != None by {
        assert e[|d|].name == name;
      }
    }
    if Named(e, name) {
      var i :| 0 <= i < |e| && e[i].name == name;
      if i < |d| {
        assert d[i].name == name;
      }
    }
    if Named(d, name) {
      var i :| 0 <= i < |d| && d[i].name == name;
      assert e[i].name == name;
    }
  }

  /** Replacing an entry by one of the same name moves no name. */
  lemma FindUpdate(d: seq<StoredProfile>, i: nat, p: StoredProfile, name: string)
    requires i < |d| && d[i].name == p.name
    ensures Find(d[i := p], name) == Find(d, name)
    ensures Named(d[i := p], name) <==> Named(d, name)
  {
    SameNames(d, d[i := p], name);
  }

  /** Sequences with the same names, position by position, find the same
      positions. */
  lemma {:induction false} SameNames(d: seq<StoredProfile>, e: seq<StoredProfile>, name: string)
    requires |d| == |e| && forall j :: 0 <= j < |d| ==> d[j].name == e[j].name
    ensures Find(d, name) == Find(e, name)
    ensures Named(d, name) <==> Named(e, name)
  {
    if |d| > 0 {
      SameNames(d[1..], e[1..], name);
    }
    if Named(d, name) {
      var k :| 0 <= k < |d| && d[k].name == name;
      assert e[k].name == name;
    }
    if Named(e, name) {
      var k :| 0 <= k < |e| && e[k].name == name;
      assert d[k].name == name;
    }
  }

  /** A default profile that no later default of its name follows is the
      one kept for the name. */
  lemma {:induction false} UniqueLastDefault(ps: seq<StoredProfile>, k: nat)
    requires k < |ps| && ps[k].isDefault
    requires forall j :: k < j < |ps| ==> !(ps[j].name == ps[k].name && ps[j].isDefault)
    ensures Find(Unique(ps), ps[k].name).Some?
    ensures Unique(ps)[Find(Unique(ps), ps[k].name).value] == ps[k]
  {
    var init := ps[..|ps| - 1];
    var p := ps[|ps| - 1];
    var d := Unique(init);
    UniqueNames(init);
    if k < |ps| - 1 {
      assert forall j :: k < j < |init| ==> init[j] == ps[j];
      UniqueLastDefault(init, k);
      assert init[k] == ps[k];
      var i := Find(d, ps[k].name).value;
      if p.name == ps[k].name {
        assert !p.isDefault;
        assert Unique(ps) == d;
      } else {
        FindAppend(d, p, ps[k].name);
        match Find(d, p.name)
        case None =>
          assert Unique(ps) == d + [p];
          assert (d + [p])[i] == d[i];
        case Some(i2) =>
          if p.isDefault {
            FindUpdate(d, i2, p, ps[k].name);
            assert Unique(ps) == d[i2 := p];
          } else {
            assert Unique(ps) == d;
          }
      }
    } else {
      match Find(d, p.name)
      case None =>
        assert Unique(ps) == d + [p];
        FindAppend(d, p, p.name);
      case Some(i) =>
        assert Unique(ps) == d[i := p];
        FindUpdate(d, i, p, p.name);
    }
  }

  /** Without a default of its name, the first profile of the name is the
      one kept. */
  lemma {:induction false} UniqueFirst(ps: seq<StoredProfile>, name: string)
    requires Named(ps, name)
    requires forall j :: 0 <= j < |ps| && ps[j].name == name ==> !ps[j].isDefault
    ensures Find(Unique(ps), name).Some?
    ensures Unique(ps)[Find(Unique(ps), name).value] == ps[FirstNamed(ps, name)]
  {
    var init := ps[..|ps| - 1];
    var p := ps[|ps| - 1];
    var d := Unique(init);
    UniqueNames(init);
    assert forall j :: 0 <= j < |init| ==> init[j] == ps[j];
    if Named(init, name) {
      UniqueFirst(init, name);
      assert FirstNamed(init, name) == FirstNamed(ps, name) by {
        var f := FirstNamed(init, name);
        assert ps[f].name == name;
        FirstNamedUnique(ps, name, f);
      }
      var i := Find(d, name).value;
      FindAppend(d, p, name);
      match Find(d, p.name)
      case None =>
        assert Unique(ps) == d + [p];
        assert (d + [p])[i] == d[i];
      case Some(i2) =>
        if p.isDefault {
          assert p.name != name;
          FindUpdate(d, i2, p, name);
          assert Unique(ps) == d[i2 := p];
        } else {
          assert Unique(ps) == d;
        }
    } else {
      assert p.name == name && FirstNamed(ps, name) == |ps| - 1;
      assert !Named(d, name);
      assert Unique(ps) == d + [p];
      FindAppend(d, p, p.name);
    }
  }

  lemma FirstNamedUnique(ps: seq<StoredProfile>, name: string, f: nat)
    requires f < |ps| && ps[f].name == name
    requires forall j :: 0 <= j < f ==> ps[j].name != name
    ensures FirstNamed(ps, name) == f
  {
  }

  /** The unique profiles keep the order in which their names first
      appear. */
  lemma {:induction false} UniqueOrder(ps: seq<StoredProfile>, i: nat, j: nat)
    requires i < j < |Unique(ps)|
    ensures Named(ps, Unique(ps)[i].name) && Named(ps, Unique(ps)[j].name)
    ensures FirstNamed(ps, Unique(ps)[i].name) < FirstNamed(ps, Unique(ps)[j].name)
  {
    var init := ps[..|ps| - 1];
    var d := Unique(init);
    UniqueStep(ps);
    UniqueNames(init);
    if j < |d| {
      UniqueOrder(init, i, j);
      NamedPrefix(ps, init, d[i].name);
      NamedPrefix(ps, init, d[j].name);
    } else {
      var p := ps[|ps| - 1];
      assert Named(d, d[i].name);
      NamedPrefix(ps, init, d[i].name);
      assert ps[|ps| - 1].name == p.name;
      FirstNamedUnique(ps, p.name, |ps| - 1);
    }
  }

  /** The last profile either leaves the names where they were or adds a
      new name at the end. */
  lemma UniqueStep(ps: seq<StoredProfile>)
    requires |ps| > 0
    ensures var d := Unique(ps[..|ps| - 1]);
            var u := Unique(ps);
            |d| <= |u| <= |d| + 1
            && (forall x :: 0 <= x < |d| ==> u[x].name == d[x].name)
            && (|u| > |d| ==> u[|d|] == ps[|ps| - 1] && !Named(ps[..|ps| - 1], ps[|ps| - 1].name))
  {
    var init := ps[..|ps| - 1];
    var p := ps[|ps| - 1];
    var d := Unique(init);
    UniqueNames(init);
    match Find(d, p.name)
    case None =>
      assert Unique(ps) == d + [p];
      assert !Named(d, p.name);
    case Some(x) =>
      assert Unique(ps) == d || Unique(ps) == d[x := p];
  }

  /** A name already seen before the last profile keeps its first
      position. */
  lemma NamedPrefix(ps: seq<StoredProfile>, init: seq<StoredProfile>, name: string)
    requires |ps| > 0 && init == ps[..|ps| - 1] && Named(init, name)
    ensures Named(ps, name) && FirstNamed(ps, name) == FirstNamed(init, name) < |init|
  {
    var f := FirstNamed(init, name);
    assert ps[f] == init[f];
    assert forall j :: 0 <= j < f ==> ps[j] == init[j];
    FirstNamedUnique(ps, name, f);
  }

  // ---------------------------------------------------------------- dropdown options

  /** Python's `<=` on strings: code point by code point, a prefix first. */
  predicate StrLe(a: string, b: string)
    decreases |a|
  {
    |a| == 0 || (|b| > 0 && (a[0] < b[0] || (a[0] == b[0] && StrLe(a[1..], b[1..]))))
  }

  lemma {:induction false} StrLeTotal(a: string, b: string)
    ensures StrLe(a, b) || StrLe(b, a)
    decreases |a|
  {
    if |a| > 0 && |b| > 0 && a[0] == b[0] {
      StrLeTotal(a[1..], b[1..]);
    }
  }

  lemma {:induction false} StrLeTransitive(a: string, b: string, c: string)
    requires StrLe(a, b) && StrLe(b, c)
    ensures StrLe(a, c)
    decreases |a|
  {
    if |a| > 0 && a[0] == b[0] && b[0] == c[0] {
      StrLeTransitive(a[1..], b[1..], c[1..]);
    }
  }

  /** The two dropdowns: the upload dialog's list of existing profiles,
      and the profile selection dropdown. */
  datatype Dropdown = UploadTarget | ProfileSelection

  /** What is appended to a default profile's name. */
  function Marker(v: Dropdown): string {
    match v
    case UploadTarget => " (Default)"
    case ProfileSelection => " (Current Default)"
  }

  /** What the sort looks for in a label to put it first. */
  function SortTag(v: Dropdown): string {
    match v
    case UploadTarget => "(Default)"
    case ProfileSelection => "Current Default"
  }

  datatype Choice = Choice(text: string, value: string, disabled: bool)

  /** The name, the default marker, and the first ten characters of a
      non-empty start date. */
  function LabelOf(p: StoredProfile, v: Dropdown): string {
    p.name + (if p.isDefault then Marker(v) else "")
    + (if p.startDate.Some? && |p.startDate.value| > 0 then " - " + Take(p.startDate.value, 10) else "")
  }

  /** Whether the sort puts the choice first: its label contains the tag,
      whatever the reason. */
  predicate Marked(c: Choice, v: Dropdown) {
    Contains(c.text, SortTag(v))
  }

  /** The sort key `(tag not in label, label)`: marked labels first, then
      by label. */
  function ChoiceLe(v: Dropdown): (Choice, Choice) -> bool {
    (a: Choice, b: Choice) => (Marked(a, v) && !Marked(b, v)) || (Marked(a, v) == Marked(b, v) && StrLe(a.text, b.text))
  }

  lemma ChoiceLeOrder(v: Dropdown)
    ensures Total(ChoiceLe(v)) && Transitive(ChoiceLe(v))
  {
    forall a: Choice, b: Choice
      ensures ChoiceLe(v)(a, b) || ChoiceLe(v)(b, a)
    {
      StrLeTotal(a.text, b.text);
    }
    forall a: Choice, b: Choice, c: Choice | ChoiceLe(v)(a, b) && ChoiceLe(v)(b, c)
      ensures ChoiceLe(v)(a, c)
    {
      if Marked(a, v) == Marked(b, v) && Marked(b, v) == Marked(c, v) {
        StrLeTransitive(a.text, b.text, c.text);
      }
    }
  }

  function ChoiceOf(p: StoredProfile, v: Dropdown): Choice {
    Choice(LabelOf(p, v), p.name, false)
  }

  function Choices(u: seq<StoredProfile>, v: Dropdown): (r: seq<Choice>)
    ensures |r| == |u|
    ensures forall k :: 0 <= k < |u| ==> r[k] == ChoiceOf(u[k], v)
  {
    seq(|u|, k requires 0 <= k < |u| => ChoiceOf(u[k], v))
  }

  /** One choice per unique profile, sorted. */
  function Options(ps: seq<StoredProfile>, v: Dropdown): (r: seq<Choice>)
    ensures SortedBy(r, ChoiceLe(v))
    ensures multiset(r) == multiset(Choices(Unique(ps), v))
  {
    var cs := Choices(Unique(ps), v);
    ChoiceLeOrder(v);
    SortSorted(cs, ChoiceLe(v));
    Sort(cs, ChoiceLe(v))
  }

  /** Every profile name is offered. */
  lemma OptionsValues(ps: seq<StoredProfile>, v: Dropdown, name: string)
    ensures (exists i :: 0 <= i < |Options(ps, v)| && Options(ps, v)[i].value == name) <==> Named(ps, name)
  {
    var u := Unique(ps);
    var cs := Choices(u, v);
    var r := Options(ps, v);
    UniqueNames(ps);
    if exists i :: 0 <= i < |r| && r[i].value == name {
      var i :| 0 <= i < |r| && r[i].value == name;
      assert r[i] in multiset(cs);
      var k :| 0 <= k < |cs| && cs[k] == r[i];
      assert u[k].name == name;
      assert Named(u, name);
    }
    if Named(ps, name) {
      assert Named(u, name);
      var k :| 0 <= k < |u| && u[k].name == name;
      assert cs[k] in multiset(r);
      var i :| 0 <= i < |r| && r[i] == cs[k];
    }
  }

  /** No name is offered twice. */
  lemma OptionsDistinct(ps: seq<StoredProfile>, v: Dropdown, i: nat, j: nat)
    requires i < j < |Options(ps, v)|
    ensures Options(ps, v)[i].value != Options(ps, v)[j].value
  {
    var u := Unique(ps);
    var cs := Choices(u, v);
    var r := Options(ps, v);
    if r[i].value == r[j].value {
      UniqueNames(ps);
      assert r[i] in multiset(cs) && r[j] in multiset(cs);
      SameNameSameChoice(cs, u, v, r[i], r[j]);
      TwiceInMultiset(r, i, j);
      ChoiceOnce(cs, u, v, r[i]);
      assert false;
    }
  }

  /** Two choices of distinctly named profiles with the same value are one. */
  lemma SameNameSameChoice(cs: seq<Choice>, u: seq<StoredProfile>, v: Dropdown, x: Choice, y: Choice)
    requires DistinctNames(u) && |cs| == |u|
    requires forall k :: 0 <= k < |u| ==> cs[k] == ChoiceOf(u[k], v)
    requires x in cs && y in cs && x.value == y.value
    ensures x == y
  {
    var a :| 0 <= a < |cs| && cs[a] == x;
    var b :| 0 <= b < |cs| && cs[b] == y;
    assert u[a].name == u[b].name;
  }

  /** Each choice of distinctly named profiles occurs once. */
  lemma ChoiceOnce(cs: seq<Choice>, u: seq<StoredProfile>, v: Dropdown, x: Choice)
    requires DistinctNames(u) && |cs| == |u|
    requires forall k :: 0 <= k < |u| ==> cs[k] == ChoiceOf(u[k], v)
    requires x in cs
    ensures multiset(cs)[x] == 1
  {
    var a :| 0 <= a < |cs| && cs[a] == x;
    DistinctChoices(cs, u, v, a);
  }

  lemma TwiceInMultiset<T>(r: seq<T>, i: nat, j: nat)
    requires i < j < |r| && r[i] == r[j]
    ensures multiset(r)[r[i]] >= 2
  {
    assert r == r[..i] + [r[i]] + r[i + 1..j] + [r[j]] + r[j + 1..];
  }

  lemma DistinctChoices(cs: seq<Choice>, u: seq<StoredProfile>, v: Dropdown, a: nat)
    requires DistinctNames(u) && |cs| == |u| && a < |cs|
    requires forall k :: 0 <= k < |u| ==> cs[k] == ChoiceOf(u[k], v)
    ensures multiset(cs)[cs[a]] == 1
  {
    assert cs == cs[..a] + [cs[a]] + cs[a + 1..];
    assert forall k :: 0 <= k < a ==> cs[..a][k].value == u[k].name != u[a].name;
    assert forall k :: a < k < |cs| ==> cs[k].value == u[k].name != u[a].name;
    assert cs[a] !in cs[..a];
    assert cs[a] !in cs[a + 1..];
  }

  /** Marked labels come first. */
  lemma MarkedFirst(ps: seq<StoredProfile>, v: Dropdown, i: nat, j: nat)
    requires i < j < |Options(ps, v)| && Marked(Options(ps, v)[j], v)
    ensures Marked(Options(ps, v)[i], v)
  {
  }

  /** `str(e)` for the error labels. */
  function Message(e: PyError): string {
    match e
    case ValueError(reason) => reason
    case TypeError(reason) => reason
    case KeyError(key) => "'" + key + "'"
    case IndexError => "list index out of range"
    case ZeroDivisionError => "division by zero"
    case FetchError(reason) => reason
  }

  predicate Given(s: Option<string>) {
    s.Some? && |s.value| > 0
  }

  /** The upload dialog's list when "existing profile" is chosen: nothing
      without a URL and token, an error or "No profiles found" notice, or
      the sorted choices. `fetched` is the profile list request. */
  function UploadTargets(url: Option<string>, token: Option<string>, fetched: Result<seq<StoredProfile>>)
    : (r: seq<Choice>)
    ensures !Given(url) || !Given(token) ==> r == []
    ensures Given(url) && Given(token) && fetched.Err? ==> r == [Choice("Error: " + Message(fetched.error), "", true)]
    ensures Given(url) && Given(token) && fetched.Ok? && |fetched.value| == 0 ==> r == [Choice("No profiles found", "", true)]
    ensures Given(url) && Given(token) && fetched.Ok? && |fetched.value| > 0 ==> r == Options(fetched.value, UploadTarget)
  {
    if !Given(url) || !Given(token) then []
    else match fetched
      case Err(e) => [Choice("Error: " + Message(e), "", true)]
      case Ok(ps) => if |ps| == 0 then [Choice("No profiles found", "", true)] else Options(ps, UploadTarget)
  }

  /** The profile selection dropdown and whether its load button is
      disabled: enabled only when profiles were listed and one is
      selected. */
  function SelectionChoices(url: Option<string>, token: Option<string>, selected: Option<string>,
                            fetched: Result<seq<StoredProfile>>): (r: (seq<Choice>, bool))
    ensures !r.1 <==> Given(url) && Given(token) && fetched.Ok? && |fetched.value| > 0 && Given(selected)
    ensures !Given(url) || !Given(token) ==> r.0 == [Choice("Enter Nightscout URL and token first", "", true)]
    ensures Given(url) && Given(token) && fetched.Ok? ==> r.0 == if |fetched.value| == 0 then [] else Options(fetched.value, ProfileSelection)
    ensures Given(url) && Given(token) && fetched.Err? ==> |r.0| == 1 && r.0[0].disabled
  {
    if !Given(url) || !Given(token) then ([Choice("Enter Nightscout URL and token first", "", true)], true)
    else match fetched
      case Err(e) => ([Choice("Error loading profiles: " + Take(Message(e), 50) + "...", "", true)], true)
      case Ok(ps) => if |ps| == 0 then ([], true) else (Options(ps, ProfileSelection), !Given(selected))
  }
}

=== FILE: deviations.dfy ===
/** `AutotuneDataProcessor`: pairs each glucose reading with the one before
    it and, for pairs at most 15 minutes apart, compares the actual change
    with the change the treatments in between would explain. */
module Deviations {
  import opened PyValues
  import opened Nightscout
  import opened Seqs

  /** One row of the deviations table. */
  datatype DeviationRecord = DeviationRecord(
    timestamp: int,
    bg: real,
    deviation: real,
    treatments: nat,
    basalOnly: bool,
    timeDiffMin: real)

  /** The longest gap, in seconds, between the readings of a valid pair. */
  const MaxGap: int := 15 * 60

  const DefaultIsf: real := 50.0
  const DefaultCarbRatio: real := 10.0
  /** The glucose rise credited to one unit of "carbs / carb ratio". */
  const CarbRise: real := 50.0

  /** `profile.get(key, [{'value': default}])[0]['value']`. */
  function FirstValue(schedule: Option<seq<ScheduleEntry>>, default: real): (r: Result<real>)
    ensures schedule.None? ==> r == Ok(default)
    ensures schedule.Some? && |schedule.value| == 0 ==> r == Err(IndexError)
    ensures schedule.Some? && |schedule.value| > 0 ==>
              r == (match schedule.value[0].value
                    case Some(v) => Ok(v)
                    case None => Err(KeyError("value")))
  {
    match schedule
    case None => Ok(default)
    case Some(entries) =>
      if |entries| == 0 then Err(IndexError)
      else if entries[0].value.None? then Err(KeyError("value"))
      else Ok(entries[0].value.value)
  }

  /** The readings `i - 1` and `i` form a valid pair. */
  predicate ValidPair(readings: seq<BgReading>, i: int) {
    1 <= i < |readings| && 0 < readings[i].timestamp - readings[i - 1].timestamp <= MaxGap
  }

  /** The test a treatment passes to be in the window from `lo` to `hi`. */
  function Between(lo: int, hi: int): Treatment -> bool {
    (t: Treatment) => lo <= t.timestamp <= hi
  }

  /** The treatments between two times, both ends included, in order and
      with their duplicates. */
  function Window(treatments: seq<Treatment>, lo: int, hi: int): (w: seq<Treatment>)
    ensures Kept(treatments, Between(lo, hi), w)
    ensures forall t :: t in w <==> t in treatments && lo <= t.timestamp <= hi
  {
    if |treatments| == 0 then []
    else
      var t := treatments[0];
      assert treatments == [t] + treatments[1..];
      KeptCons(treatments, Between(lo, hi), Window(treatments[1..], lo, hi));
      (if Between(lo, hi)(t) then [t] else []) + Window(treatments[1..], lo, hi)
  }

  /** What one treatment adds to the expected change. The profile lookups
      happen only for a truthy insulin or carbs amount. */
  function Contribution(profile: NsProfile, t: Treatment): (r: Result<real>)
    ensures !TruthyAmount(t.insulin) && !TruthyAmount(t.carbs) ==> r == Ok(0.0)
  {
    var fromInsulin :=
      if TruthyAmount(t.insulin) then
        match FirstValue(profile.sens, DefaultIsf)
        case Ok(isf) => Ok(-(t.insulin.value * isf))
        case Err(e) => Err(e)
      else Ok(0.0);
    if fromInsulin.Err? then fromInsulin
    else if TruthyAmount(t.carbs) then
      match FirstValue(profile.carbratio, DefaultCarbRatio)
      case Ok(cr) =>
        if cr == 0.0 then Err(ZeroDivisionError)
        else Ok(fromInsulin.value + t.carbs.value / cr * CarbRise)
      case Err(e) => Err(e)
    else fromInsulin
  }

  /** `_calculate_expected_bg_change`: the first failing lookup ends it. */
  function ExpectedChange(profile: NsProfile, ts: seq<Treatment>): (r: Result<real>)
    ensures |ts| == 0 ==> r == Ok(0.0)
  {
    if |ts| == 0 then Ok(0.0)
    else
      match Contribution(profile, ts[0])
      case Err(e) => Err(e)
      case Ok(c) =>
        match ExpectedChange(profile, ts[1..])
        case Err(e) => Err(e)
        case Ok(rest) => Ok(c + rest)
  }

  /** The total of the present insulin amounts (an absent one counts 0). */
  function InsulinTotal(ts: seq<Treatment>): real {
    if |ts| == 0 then 0.0
    else Amount(ts[0].insulin) + InsulinTotal(ts[1..])
  }

  function CarbTotal(ts: seq<Treatment>): real {
    if |ts| == 0 then 0.0
    else Amount(ts[0].carbs) + CarbTotal(ts[1..])
  }

  predicate NeedsIsf(ts: seq<Treatment>) {
    exists k :: 0 <= k < |ts| && TruthyAmount(ts[k].insulin)
  }

  predicate NeedsCarbRatio(ts: seq<Treatment>) {
    exists k :: 0 <= k < |ts| && TruthyAmount(ts[k].carbs)
  }

  /** The expected change fails exactly when a needed lookup fails, or the
      carb ratio needed is zero. */
  lemma {:induction false} ExpectedChangeOk(profile: NsProfile, ts: seq<Treatment>)
    ensures var isf := FirstValue(profile.sens, DefaultIsf);
            var cr := FirstValue(profile.carbratio, DefaultCarbRatio);
            ExpectedChange(profile, ts).Ok? <==>
              (NeedsIsf(ts) ==> isf.Ok?) && (NeedsCarbRatio(ts) ==> cr.Ok? && cr.value != 0.0)
  {
    if |ts| > 0 {
      ExpectedChangeOk(profile, ts[1..]);
      NeedsCons(ts);
    }
  }

  /** The expected change in closed form: minus the insulin total times the
      first sensitivity, plus the carb total over the first carb ratio times
      50. A lookup that is not needed may stand for any value. */
  lemma ExpectedChangeValue(profile: NsProfile, ts: seq<Treatment>, isf: real, cr: real)
    requires NeedsIsf(ts) ==> FirstValue(profile.sens, DefaultIsf) == Ok(isf)
    requires NeedsCarbRatio(ts) ==> FirstValue(profile.carbratio, DefaultCarbRatio) == Ok(cr)
    requires cr != 0.0
    ensures ExpectedChange(profile, ts) == Ok(-(InsulinTotal(ts) * isf) + CarbTotal(ts) / cr * CarbRise)
  {
    ExpectedChangeIsSum(profile, ts, isf, cr);
    EffectSumClosedForm(ts, isf, cr);
  }

  /** The sum of the per-treatment effects for given lookup results. */
  function EffectSum(ts: seq<Treatment>, isf: real, cr: real): real
    requires cr != 0.0
  {
    if |ts| == 0 then 0.0 else Effect(ts[0], isf, cr) + EffectSum(ts[1..], isf, cr)
  }

  function Effect(t: Treatment, isf: real, cr: real): real
    requires cr != 0.0
  {
    -(Amount(t.insulin) * isf) + Amount(t.carbs) / cr * CarbRise
  }

  lemma {:induction false} ExpectedChangeIsSum(profile: NsProfile, ts: seq<Treatment>, isf: real, cr: real)
    requires NeedsIsf(ts) ==> FirstValue(profile.sens, DefaultIsf) == Ok(isf)
    requires NeedsCarbRatio(ts) ==> FirstValue(profile.carbratio, DefaultCarbRatio) == Ok(cr)
    requires cr != 0.0
    ensures ExpectedChange(profile, ts) == Ok(EffectSum(ts, isf, cr))
  {
    if |ts| > 0 {
      NeedsCons(ts);
      ExpectedChangeIsSum(profile, ts[1..], isf, cr);
      ContributionValue(profile, ts[0], isf, cr);
    }
  }

  lemma {:induction false} EffectSumClosedForm(ts: seq<Treatment>, isf: real, cr: real)
    requires cr != 0.0
    ensures EffectSum(ts, isf, cr) == -(InsulinTotal(ts) * isf) + CarbTotal(ts) / cr * CarbRise
  {
    if |ts| > 0 {
      EffectSumClosedForm(ts[1..], isf, cr);
      Combine(Effect(ts[0], isf, cr), EffectSum(ts[1..], isf, cr), InsulinTotal(ts), Amount(ts[0].insulin),
        InsulinTotal(ts[1..]), CarbTotal(ts), Amount(ts[0].carbs), CarbTotal(ts[1..]), isf, cr);
    }
  }

  lemma Combine(c: real, rest: real, ta: real, a: real, ai: real, tb: real, b: real, bc: real, isf: real, cr: real)
    requires ta == a + ai && tb == b + bc && cr != 0.0
    requires c == -(a * isf) + b / cr * CarbRise && rest == -(ai * isf) + bc / cr * CarbRise
    ensures c + rest == -(ta * isf) + tb / cr * CarbRise
  {
  }

  /** An optional amount, absent counting as zero. */
  function Amount(a: Option<real>): real {
    if a.Some? then a.value else 0.0
  }

  lemma ContributionValue(profile: NsProfile, t: Treatment, isf: real, cr: real)
    requires TruthyAmount(t.insulin) ==> FirstValue(profile.sens, DefaultIsf) == Ok(isf)
    requires TruthyAmount(t.carbs) ==> FirstValue(profile.carbratio, DefaultCarbRatio) == Ok(cr)
    requires cr != 0.0
    ensures Contribution(profile, t) == Ok(Effect(t, isf, cr))
  {
    var a, b := Amount(t.insulin), Amount(t.carbs);
    var fromInsulin := -(a * isf);
    if !TruthyAmount(t.insulin) {
      assert a == 0.0;
    }
    if TruthyAmount(t.carbs) {
      assert Contribution(profile, t) == Ok(fromInsulin + b / cr * CarbRise);
    } else {
      assert b == 0.0;
      assert Contribution(profile, t) == Ok(fromInsulin);
    }
  }

  /** Whether a lookup is needed, split at the first treatment. */
  lemma NeedsCons(ts: seq<Treatment>)
    requires |ts| > 0
    ensures NeedsIsf(ts) <==> TruthyAmount(ts[0].insulin) || NeedsIsf(ts[1..])
    ensures NeedsCarbRatio(ts) <==> TruthyAmount(ts[0].carbs) || NeedsCarbRatio(ts[1..])
  {
    if NeedsIsf(ts[1..]) {
      var k :| 0 <= k < |ts[1..]| && TruthyAmount(ts[1..][k].insulin);
      assert ts[k + 1] == ts[1..][k];
    }
    if NeedsIsf(ts) && !TruthyAmount(ts[0].insulin) {
      var k :| 0 <= k < |ts| && TruthyAmount(ts[k].insulin);
      assert ts[1..][k - 1] == ts[k];
    }
    if NeedsCarbRatio(ts[1..]) {
      var k :| 0 <= k < |ts[1..]| && TruthyAmount(ts[1..][k].carbs);
      assert ts[k + 1] == ts[1..][k];
    }
    if NeedsCarbRatio(ts) && !TruthyAmount(ts[0].carbs) {
      var k :| 0 <= k < |ts| && TruthyAmount(ts[k].carbs);
      assert ts[1..][k - 1] == ts[k];
    }
  }

  /** Without a truthy amount the totals are zero. */
  lemma {:induction false} ZeroTotals(ts: seq<Treatment>)
    ensures !NeedsIsf(ts) ==> InsulinTotal(ts) == 0.0
    ensures !NeedsCarbRatio(ts) ==> CarbTotal(ts) == 0.0
  {
    if |ts| > 0 {
      ZeroTotals(ts[1..]);
      NeedsCons(ts);
    }
  }

  /** The record for the valid pair ending at reading `i`. */
  function Record(readings: seq<BgReading>, treatments: seq<Treatment>, profile: NsProfile, i: nat)
    : (r: Result<DeviationRecord>)
    requires ValidPair(readings, i)
    ensures var w := Window(treatments, readings[i - 1].timestamp, readings[i].timestamp);
            r.Ok? <==> ExpectedChange(profile, w).Ok?
    ensures var w := Window(treatments, readings[i - 1].timestamp, readings[i].timestamp);
            r.Ok? ==> (r.value.treatments == |w|
              && r.value.deviation == (readings[i].sgv - readings[i - 1].sgv) - ExpectedChange(profile, w).value)
    ensures r.Ok? ==> r.value.timestamp == readings[i].timestamp && r.value.bg == readings[i].sgv
    ensures r.Ok? ==> (r.value.basalOnly <==> r.value.treatments == 0)
    ensures r.Ok? ==> 0.0 < r.value.timeDiffMin <= 15.0
  {
    var prev, bg := readings[i - 1], readings[i];
    var window := Window(treatments, prev.timestamp, bg.timestamp);
    match ExpectedChange(profile, window)
    case Err(e) => Err(e)
    case Ok(expected) =>
      Ok(DeviationRecord(bg.timestamp, bg.sgv, (bg.sgv - prev.sgv) - expected, |window|,
        |window| == 0, (bg.timestamp - prev.timestamp) as real / 60.0))
  }

  /** The indices `i` below `k` that end a valid pair, in increasing order. */
  function ValidIndices(readings: seq<BgReading>, k: nat): (idx: seq<nat>)
    requires k <= |readings|
    ensures forall i :: i in idx <==> i < k && ValidPair(readings, i)
    ensures forall a, b :: 0 <= a < b < |idx| ==> idx[a] < idx[b]
  {
    if k <= 1 then []
    else
      var prefix := ValidIndices(readings, k - 1);
      assert forall a :: 0 <= a < |prefix| ==> prefix[a] < k - 1 by {
        forall a | 0 <= a < |prefix| ensures prefix[a] < k - 1 {
          assert prefix[a] in prefix;
        }
      }
      prefix + (if ValidPair(readings, k - 1) then [k - 1] else [])
  }

  /** The records of the valid pairs ending below reading `k`, in reading
      order; the first failure ends the walk. */
  function DeviationsUpTo(readings: seq<BgReading>, treatments: seq<Treatment>, profile: NsProfile, k: nat)
    : (r: Result<seq<DeviationRecord>>)
    requires k <= |readings|
    ensures r.Ok? ==> |r.value| < k || k == 0
  {
    if k <= 1 then Ok([])
    else
      match DeviationsUpTo(readings, treatments, profile, k - 1)
      case Err(e) => Err(e)
      case Ok(rs) =>
        if !ValidPair(readings, k - 1) then Ok(rs)
        else match Record(readings, treatments, profile, k - 1)
          case Err(e) => Err(e)
          case Ok(rec) => Ok(rs + [rec])
  }

  /** `calculate_deviations` as the table it builds. */
  function DeviationTable(readings: seq<BgReading>, treatments: seq<Treatment>, profile: NsProfile)
    : Result<seq<DeviationRecord>>
  {
    DeviationsUpTo(readings, treatments, profile, |readings|)
  }

  /** The table holds one record per valid pair, in reading order: the
      record of the `j`-th valid pair sits at position `j`. */
  lemma {:induction false} DeviationsArePairs(readings: seq<BgReading>, treatments: seq<Treatment>,
                                              profile: NsProfile, k: nat)
    requires k <= |readings|
    requires DeviationsUpTo(readings, treatments, profile, k).Ok?
    ensures var rs := DeviationsUpTo(readings, treatments, profile, k).value;
            var idx := ValidIndices(readings, k);
            |rs| == |idx| && forall j :: 0 <= j < |idx| ==> Record(readings, treatments, profile, idx[j]) == Ok(rs[j])
  {
    if k > 1 {
      DeviationsArePairs(readings, treatments, profile, k - 1);
    }
  }

  /** `calculate_deviations`, walking the readings once. */
  method CalculateDeviations(readings: seq<BgReading>, treatments: seq<Treatment>, profile: NsProfile)
    returns (r: Result<seq<DeviationRecord>>)
    ensures r == DeviationTable(readings, treatments, profile)
  {
    if |readings| == 0 {
      return Ok([]);
    }
    var out: seq<DeviationRecord> := [];
    var i := 1;
    while i < |readings|
      invariant 1 <= i <= |readings|
      invariant DeviationsUpTo(readings, treatments, profile, i) == Ok(out)
    {
      if ValidPair(readings, i) {
        var rec := Record(readings, treatments, profile, i);
        if rec.Err? {
          DeviationsFailFrom(readings, treatments, profile, i + 1, rec.error);
          return Err(rec.error);
        }
        out := out + [rec.value];
      }
      i := i + 1;
    }
    return Ok(out);
  }

  /** Once the walk up to reading `k` fails, every longer walk fails with
      the same error. */
  lemma {:induction false} DeviationsFailFrom(readings: seq<BgReading>, treatments: seq<Treatment>,
                                              profile: NsProfile, k: nat, e: PyError)
    requires 1 <= k <= |readings|
    requires DeviationsUpTo(readings, treatments, profile, k) == Err(e)
    ensures DeviationsUpTo(readings, treatments, profile, |readings|) == Err(e)
    decreases |readings| - k
  {
    if k < |readings| {
      DeviationsFailFrom(readings, treatments, profile, k + 1, e);
    }
  }
}

=== FILE: engine.dfy ===
/** `AutotuneEngine.run_autotune`: fetch, validate, compute, and report.
    The three requests are parameters: each is the decoded answer or the
    error the request raised. The method never raises: every failure becomes
    an error report. */
module Engine {
  import opened PyValues
  import opened Nightscout
  import opened Deviations
  import opened Recommendations

  /** Fewer readings than this abort the run. */
  const MinReadings: nat := 10

  datatype Report =
    | Success(config: Config, readings: nat, treatments: nat, deviations: nat,
              recommendations: seq<Recommendation>, profile: NsProfile)
    | Failure(error: PyError, config: Config)

  const InsufficientReadings: PyError := ValueError("Insufficient BG readings for autotune analysis")

  function RunAutotune(config: Config, entries: Result<seq<RawEntry>>, treatments: Result<seq<RawTreatment>>,
                       profiles: Result<seq<ProfileDoc>>, aggressive: bool): (r: Report)
    ensures r.config == config
    ensures r.Success? ==> entries.Ok? && treatments.Ok? && profiles.Ok?
    ensures r.Success? ==> r.readings >= MinReadings
    ensures r.Success? ==> FilterEntries(entries.value).Ok?
                           && r.readings == |FilterEntries(entries.value).value|
    ensures r.Success? ==> FilterTreatments(treatments.value).Ok?
                           && r.treatments == |FilterTreatments(treatments.value).value|
  {
    if entries.Err? then Failure(entries.error, config)
    else
      match FilterEntries(entries.value)
      case Err(e) => Failure(e, config)
      case Ok(bgs) =>
        if treatments.Err? then Failure(treatments.error, config)
        else match FilterTreatments(treatments.value)
        case Err(e) => Failure(e, config)
        case Ok(ts) =>
          if profiles.Err? then Failure(profiles.error, config)
          else match SelectProfile(profiles.value)
          case Err(e) => Failure(e, config)
          case Ok(profile) =>
            if |bgs| < MinReadings then Failure(InsufficientReadings, config)
            else match DeviationTable(bgs, ts, profile)
            case Err(e) => Failure(e, config)
            case Ok(devs) =>
              match Recommend(devs, profile, aggressive)
              case Err(e) => Failure(e, config)
              case Ok(recs) => Success(config, |bgs|, |ts|, |devs|, recs, profile)
  }

  /** With all three requests answered and parsed, fewer than ten readings
      always end in the "insufficient readings" error. */
  lemma TooFewReadings(config: Config, entries: seq<RawEntry>, treatments: seq<RawTreatment>,
                       profiles: seq<ProfileDoc>, aggressive: bool)
    requires FilterEntries(entries).Ok? && FilterTreatments(treatments).Ok? && SelectProfile(profiles).Ok?
    requires |FilterEntries(entries).value| < MinReadings
    ensures RunAutotune(config, Ok(entries), Ok(treatments), Ok(profiles), aggressive)
            == Failure(InsufficientReadings, config)
  {
  }

  /** When every step succeeds the report carries the deviation count and
      the recommendations computed from the sorted readings and treatments. */
  lemma SuccessContents(config: Config, entries: seq<RawEntry>, treatments: seq<RawTreatment>,
                        profiles: seq<ProfileDoc>, aggressive: bool)
    requires RunAutotune(config, Ok(entries), Ok(treatments), Ok(profiles), aggressive).Success?
    ensures var r := RunAutotune(config, Ok(entries), Ok(treatments), Ok(profiles), aggressive);
            var bgs := FilterEntries(entries).value;
            var ts := FilterTreatments(treatments).value;
            var profile := SelectProfile(profiles).value;
            var devs := DeviationTable(bgs, ts, profile);
            devs.Ok? && r.deviations == |devs.value| && r.profile == profile
            && Recommend(devs.value, profile, aggressive) == Ok(r.recommendations)
  {
  }

  /** A failed request is reported as it was raised, before anything else is
      looked at. */
  lemma FetchFailureReported(config: Config, e: PyError, treatments: Result<seq<RawTreatment>>,
                             profiles: Result<seq<ProfileDoc>>, aggressive: bool)
    ensures RunAutotune(config, Err(e), treatments, profiles, aggressive) == Failure(e, config)
  {
  }
}

=== FILE: filtered.dfy ===
/** data_processing/get_filtered_data.py: the basal part of the
    recommendation table as three lists (time labels, pump values for the
    chart, smoothed autotune values). The Savitzky-Golay filter is the
    parameter `smooth` (window, polynomial order). */
module Filtered {
  import opened PyValues
  import opened Numeric
  import opened Text
  import opened Tables
  import opened Seqs

  /** `(times, pump_display, filtered_autotune)`. */
  datatype Lists = Lists(times: seq<Cell>, pump: seq<Cell>, autotune: seq<Float>)

  const NoLists: Lists := Lists([], [], [])

  /** `convert_to_float`: "", None, NaN and anything `float()` rejects
      become NaN. */
  function ConvertToFloat(c: Cell): (r: Float)
    ensures IsNA(c) || c == Text("") ==> r == NaN
    ensures c.Num? ==> r == Fin(c.x)
    ensures c.Text? && ParseFloat(c.s).None? ==> r == NaN
    ensures c.Text? && ParseFloat(c.s).Some? ==> r == ParseFloat(c.s).value
  {
    match ToFloat(c)
    case Ok(f) => f
    case Err(_) => NaN
  }

  function ConvertAll(cs: seq<Cell>): (r: seq<Float>)
    ensures |r| == |cs|
    ensures forall k :: 0 <= k < |cs| ==> r[k] == ConvertToFloat(cs[k])
  {
    if |cs| == 0 then [] else [ConvertToFloat(cs[0])] + ConvertAll(cs[1..])
  }

  predicate IsFinite(f: Float) {
    f.Fin?
  }

  /** `v` is the value of the finite float `f`. */
  predicate ValueOf(f: Float, v: real) {
    f.Fin? && f.v == v
  }

  /** The finite values, in order (`autotune_clean`). */
  function Finite(fs: seq<Float>): (r: seq<real>)
    ensures Ranked(fs, IsFinite, ValueOf, r)
  {
    if |fs| == 0 then []
    else
      var head := if fs[0].Fin? then [fs[0].v] else [];
      RankedCons(fs, IsFinite, ValueOf, head, Finite(fs[1..]));
      head + Finite(fs[1..])
  }

  /** The filter names and the window each needs. */
  function Window(name: string): Option<(nat, nat)> {
    if name == "Savitzky-Golay 11.6" then Some((11, 6))
    else if name == "Savitzky-Golay 17.5" then Some((17, 5))
    else if name == "Savitzky-Golay 23.3" then Some((23, 3))
    else None
  }

  /** The values after the selected filter: unfiltered for "No filter",
      "None", no name, an unknown name, or fewer values than the window. */
  function ApplyFilter(clean: seq<real>, filter: Option<string>, smooth: (seq<real>, nat, nat) -> seq<real>)
    : (r: seq<real>)
    ensures filter.None? || filter == Some("No filter") || filter == Some("None") ==> r == clean
    ensures filter.Some? && Window(filter.value).None? ==> r == clean
    ensures filter.Some? && Window(filter.value).Some? && |clean| < Window(filter.value).value.0 ==> r == clean
    ensures filter.Some? && Window(filter.value).Some? && |clean| >= Window(filter.value).value.0 ==>
              r == smooth(clean, Window(filter.value).value.0, Window(filter.value).value.1)
  {
    if filter.None? || filter.value == "No filter" || filter.value == "None" then clean
    else if |clean| == 0 then clean
    else match Window(filter.value)
      case None => clean
      case Some((w, order)) => if |clean| >= w then smooth(clean, w, order) else clean
  }

  /** Filtered values go back, rounded to two decimals, into the positions
      that held a number; NaN positions stay NaN, and once the filtered
      values run out the remaining numbers are kept as they were. */
  function WriteBack(vals: seq<Float>, filtered: seq<real>): (r: seq<Float>)
    ensures |r| == |vals|
    ensures forall k :: 0 <= k < |vals| ==> (r[k].NaN? <==> vals[k].NaN?)
  {
    if |vals| == 0 then []
    else if vals[0].NaN? then [NaN] + WriteBack(vals[1..], filtered)
    else if |filtered| == 0 then [vals[0]] + WriteBack(vals[1..], filtered)
    else [Fin(Round(filtered[0], 2))] + WriteBack(vals[1..], filtered[1..])
  }

  /** The loop that puts the filtered values back: a NaN stays NaN; the
      number at position k, the n-th number of `vals` counting from 0,
      takes the n-th filtered value rounded to two decimals when there is
      one, and keeps its own value otherwise. */
  lemma {:induction false} WriteBackAt(vals: seq<Float>, filtered: seq<real>)
    ensures forall k :: 0 <= k < |vals| ==>
              var n := CountWhere(vals[..k], IsFinite);
              WriteBack(vals, filtered)[k]
              == if vals[k].NaN? then NaN
                 else if n < |filtered| then Fin(Round(filtered[n], 2))
                 else vals[k]
  {
    if |vals| > 0 {
      var rest := if vals[0].Fin? && |filtered| > 0 then filtered[1..] else filtered;
      var w := WriteBack(vals, filtered);
      assert w[1..] == WriteBack(vals[1..], rest);
      WriteBackAt(vals[1..], rest);
      CountWhereTail(vals, IsFinite);
      forall k | 1 <= k < |vals|
        ensures var n := CountWhere(vals[..k], IsFinite);
                w[k] == if vals[k].NaN? then NaN
                        else if n < |filtered| then Fin(Round(filtered[n], 2))
                        else vals[k]
      {
        assert vals[k] == vals[1..][k - 1];
        assert w[k] == w[1..][k - 1];
        var m := CountWhere(vals[1..][..k - 1], IsFinite);
        if vals[0].Fin? && |filtered| > 0 {
          assert m < |rest| ==> rest[m] == filtered[m + 1];
        }
      }
    }
  }

  function RoundAll(xs: seq<real>): (r: seq<real>)
    ensures |r| == |xs|
    ensures forall k :: 0 <= k < |xs| ==> r[k] == Round(xs[k], 2)
  {
    if |xs| == 0 then [] else [Round(xs[0], 2)] + RoundAll(xs[1..])
  }

  /** As many filtered values as numbers: the numbers read back are exactly
      the filtered values rounded, in order. */
  lemma {:induction false} WriteBackFinite(vals: seq<Float>, filtered: seq<real>)
    requires |filtered| == |Finite(vals)|
    ensures Finite(WriteBack(vals, filtered)) == RoundAll(filtered)
  {
    if |vals| > 0 {
      if vals[0].NaN? {
        WriteBackFinite(vals[1..], filtered);
      } else {
        WriteBackFinite(vals[1..], filtered[1..]);
      }
    }
  }

  /** Without a filter every number is just rounded in place. */
  lemma {:induction false} WriteBackUnfiltered(vals: seq<Float>)
    ensures WriteBack(vals, Finite(vals)) == RoundFloats(vals)
  {
    if |vals| > 0 {
      WriteBackUnfiltered(vals[1..]);
      if vals[0].Fin? {
        assert Finite(vals) == [vals[0].v] + Finite(vals[1..]);
        assert Finite(vals)[1..] == Finite(vals[1..]);
      } else {
        assert Finite(vals) == [] + Finite(vals[1..]) == Finite(vals[1..]);
        assert RoundFloats(vals) == [NaN] + RoundFloats(vals[1..]);
      }
    }
  }

  function RoundFloats(vals: seq<Float>): (r: seq<Float>)
    ensures |r| == |vals|
    ensures forall k :: 0 <= k < |vals| ==> r[k] == RoundFloat(vals[k], 2)
  {
    if |vals| == 0 then [] else [RoundFloat(vals[0], 2)] + RoundFloats(vals[1..])
  }

  /** A time label shown without a pump value: the half hours. */
  predicate HalfHour(time: Cell) {
    time.Text? && Contains(time.s, ":30")
  }

  /** The pump values for the chart: "nan" at half hours and where there
      is no number. */
  function PumpDisplay(times: seq<Cell>, pump: seq<Float>): (r: seq<Cell>)
    requires |times| == |pump|
    ensures |r| == |times|
    ensures forall k :: 0 <= k < |times| ==>
              r[k] == if HalfHour(times[k]) || pump[k].NaN? then Text("nan") else Num(pump[k].v)
  {
    if |times| == 0 then []
    else [if HalfHour(times[0]) || pump[0].NaN? then Text("nan") else Num(pump[0].v)]
         + PumpDisplay(times[1..], pump[1..])
  }

  /** The chart's pump value for one table row: "nan" at a half hour or
      where the row has no number. */
  function PumpShown(row: Row): Cell {
    var pump := ConvertToFloat(At(row, "Pump"));
    if HalfHour(At(row, "Parameter")) || pump.NaN? then Text("nan") else Num(pump.v)
  }

  /** `get_filtered_data(df, filter)`. A missing Pump or Autotune column
      raises KeyError. */
  function GetFilteredData(f: Frame, filter: Option<string>, smooth: (seq<real>, nat, nat) -> seq<real>)
    : (r: Result<Lists>)
    ensures IsEmpty(f) || "Parameter" !in f.columns ==> r == Ok(NoLists)
    ensures r.Err? <==> !IsEmpty(f) && "Parameter" in f.columns && ("Pump" !in f.columns || "Autotune" !in f.columns)
    ensures r.Ok? && !IsEmpty(f) && "Parameter" in f.columns ==>
              var n := if |f.rows| >= 2 then |f.rows| - 2 else 0;
              |r.value.times| == n && |r.value.pump| == n && |r.value.autotune| == n
              && (forall k :: 0 <= k < n ==>
                    r.value.times[k] == At(f.rows[k + 2], "Parameter")
                    && r.value.pump[k] == PumpShown(f.rows[k + 2])
                    && (r.value.autotune[k].NaN? <==> ConvertToFloat(At(f.rows[k + 2], "Autotune")).NaN?))
  {
    if IsEmpty(f) || "Parameter" !in f.columns then Ok(NoLists)
    else if "Pump" !in f.columns then Err(KeyError("Pump"))
    else if "Autotune" !in f.columns then Err(KeyError("Autotune"))
    else
      var body := if |f.rows| >= 2 then f.rows[2..] else [];
      ListsOfRows(body, filter, smooth);
      Ok(ListsOf(body, filter, smooth))
  }

  /** The three lists read from the rows below the two header rows. */
  function ListsOf(body: seq<Row>, filter: Option<string>, smooth: (seq<real>, nat, nat) -> seq<real>): Lists {
    var times := ColumnValues(body, "Parameter");
    var pumpFloat := ConvertAll(ColumnValues(body, "Pump"));
    var autotuneFloat := ConvertAll(ColumnValues(body, "Autotune"));
    var filtered := ApplyFilter(Finite(autotuneFloat), filter, smooth);
    Lists(times, PumpDisplay(times, pumpFloat), WriteBack(autotuneFloat, filtered))
  }

  /** One entry per row in each list: its time label, its chart Pump value,
      and an Autotune value that is NaN exactly where the row's is. */
  lemma ListsOfRows(body: seq<Row>, filter: Option<string>, smooth: (seq<real>, nat, nat) -> seq<real>)
    ensures var l := ListsOf(body, filter, smooth);
            |l.times| == |body| && |l.pump| == |body| && |l.autotune| == |body|
            && (forall k :: 0 <= k < |body| ==>
                  l.times[k] == At(body[k], "Parameter")
                  && l.pump[k] == PumpShown(body[k])
                  && (l.autotune[k].NaN? <==> ConvertToFloat(At(body[k], "Autotune")).NaN?))
  {
    TimesOf(body, filter, smooth);
    PumpsOf(body, filter, smooth);
    AutotunesOf(body, filter, smooth);
  }

  lemma TimesOf(body: seq<Row>, filter: Option<string>, smooth: (seq<real>, nat, nat) -> seq<real>)
    ensures |ListsOf(body, filter, smooth).times| == |body|
    ensures forall k :: 0 <= k < |body| ==> ListsOf(body, filter, smooth).times[k] == At(body[k], "Parameter")
  {
  }

  lemma PumpsOf(body: seq<Row>, filter: Option<string>, smooth: (seq<real>, nat, nat) -> seq<real>)
    ensures |ListsOf(body, filter, smooth).pump| == |body|
    ensures forall k :: 0 <= k < |body| ==> ListsOf(body, filter, smooth).pump[k] == PumpShown(body[k])
  {
  }

  lemma AutotunesOf(body: seq<Row>, filter: Option<string>, smooth: (seq<real>, nat, nat) -> seq<real>)
    ensures |ListsOf(body, filter, smooth).autotune| == |body|
    ensures forall k :: 0 <= k < |body| ==>
              (ListsOf(body, filter, smooth).autotune[k].NaN? <==> ConvertToFloat(At(body[k], "Autotune")).NaN?)
  {
  }

  /** The Autotune values of the table from the third row on. */
  function AutotuneFloats(f: Frame): seq<Float> {
    ConvertAll(ColumnValues(if |f.rows| >= 2 then f.rows[2..] else [], "Autotune"))
  }

  /** The autotune list under any filter: the values `AutotuneFloats`
      gives, with each number replaced by the filtered value of its rank,
      rounded, while filtered values last. When the filter returns one value
      per number, the numbers of the list are the filtered values rounded,
      in order. */
  lemma GetFilteredAutotune(f: Frame, filter: Option<string>, smooth: (seq<real>, nat, nat) -> seq<real>)
    requires !IsEmpty(f) && "Parameter" in f.columns && "Pump" in f.columns && "Autotune" in f.columns
    ensures var vals := AutotuneFloats(f);
            var filtered := ApplyFilter(Finite(vals), filter, smooth);
            var r := GetFilteredData(f, filter, smooth);
            r.Ok? && |r.value.autotune| == |vals|
            && (forall k :: 0 <= k < |vals| ==>
                  var n := CountWhere(vals[..k], IsFinite);
                  r.value.autotune[k]
                  == if vals[k].NaN? then NaN
                     else if n < |filtered| then Fin(Round(filtered[n], 2))
                     else vals[k])
            && (|filtered| == |Finite(vals)| ==> Finite(r.value.autotune) == RoundAll(filtered))
  {
    var vals := AutotuneFloats(f);
    var filtered := ApplyFilter(Finite(vals), filter, smooth);
    assert GetFilteredData(f, filter, smooth) == Ok(Lists(ColumnValues(if |f.rows| >= 2 then f.rows[2..] else [], "Parameter"),
      PumpDisplay(ColumnValues(if |f.rows| >= 2 then f.rows[2..] else [], "Parameter"),
                  ConvertAll(ColumnValues(if |f.rows| >= 2 then f.rows[2..] else [], "Pump"))),
      WriteBack(vals, filtered)));
    WriteBackAt(vals, filtered);
    if |filtered| == |Finite(vals)| {
      WriteBackFinite(vals, filtered);
    }
  }

  /** Without a filter, or with one that leaves the values alone, the
      autotune list is the column's numbers rounded to two decimals. */
  lemma NoFilterRounds(f: Frame, smooth: (seq<real>, nat, nat) -> seq<real>)
    requires !IsEmpty(f) && "Parameter" in f.columns && "Pump" in f.columns && "Autotune" in f.columns
    ensures var r := GetFilteredData(f, Some("No filter"), smooth);
            r.Ok? && forall k :: 0 <= k < |r.value.autotune| ==>
              r.value.autotune[k] == RoundFloat(ConvertToFloat(At(f.rows[k + 2], "Autotune")), 2)
  {
    var body := if |f.rows| >= 2 then f.rows[2..] else [];
    WriteBackUnfiltered(ConvertAll(ColumnValues(body, "Autotune")));
  }
}

=== FILE: isf.dfy ===
/** data_processing/isf_conversion.py: adding the mmol/L row under the
    mg/dL ISF row of the recommendation table, and taking it out again.
    Index labels are assumed unique, so `df.loc[label]` is one row. */
module IsfUnits {
  import opened PyValues
  import opened Text
  import opened Tables
  import opened Seqs

  const IsfMgdl: string := "ISF[mg/dL/U]"
  const IsfMmol: string := "ISF[mmol/L/U]"

  predicate IsIsfRow(r: Row) {
    At(r, "Parameter") == Text(IsfMgdl)
  }

  /** Every ISF row twice, in place (`np.repeat` with 2 for ISF rows). */
  function Duplicate(rows: seq<Row>): (r: seq<Row>)
    ensures |r| == |rows| + IsfCount(rows)
  {
    if |rows| == 0 then []
    else (if IsIsfRow(rows[0]) then [rows[0], rows[0]] else [rows[0]]) + Duplicate(rows[1..])
  }

  function IsfCount(rows: seq<Row>): nat {
    CountWhere(rows, IsIsfRow)
  }

  /** Each row lands after the copies of the ISF rows before it, and an
      ISF row is followed by its copy. With the length this places every
      row of the result. */
  lemma {:induction false} DuplicateInPlace(rows: seq<Row>)
    ensures forall k :: 0 <= k < |rows| ==>
              var at := k + IsfCount(rows[..k]);
              at < |Duplicate(rows)| && Duplicate(rows)[at] == rows[k]
              && (IsIsfRow(rows[k]) ==> at + 1 < |Duplicate(rows)| && Duplicate(rows)[at + 1] == rows[k])
  {
    if |rows| > 0 {
      var d := Duplicate(rows);
      var rest := Duplicate(rows[1..]);
      var head := if IsIsfRow(rows[0]) then [rows[0], rows[0]] else [rows[0]];
      assert d == head + rest;
      DuplicateInPlace(rows[1..]);
      CountWhereTail(rows, IsIsfRow);
      forall k | 0 <= k < |rows|
        ensures var at := k + IsfCount(rows[..k]);
                at < |d| && d[at] == rows[k]
                && (IsIsfRow(rows[k]) ==> at + 1 < |d| && d[at + 1] == rows[k])
      {
        if k > 0 {
          assert rows[k] == rows[1..][k - 1];
          assert k + IsfCount(rows[..k]) == |head| + (k - 1) + IsfCount(rows[1..][..k - 1]);
        }
      }
    }
  }

  /** The position of the first ISF row. */
  function FirstIsf(rows: seq<Row>): (p: nat)
    requires exists j :: 0 <= j < |rows| && IsIsfRow(rows[j])
    ensures p < |rows| && IsIsfRow(rows[p])
    ensures forall j :: 0 <= j < p ==> !IsIsfRow(rows[j])
  {
    if IsIsfRow(rows[0]) then 0
    else
      assert exists j :: 0 <= j < |rows[1..]| && IsIsfRow(rows[1..][j]) by {
        var j :| 0 <= j < |rows| && IsIsfRow(rows[j]);
        assert rows[1..][j - 1] == rows[j];
      }
      1 + FirstIsf(rows[1..])
  }

  /** Duplication leaves the rows before the first ISF row in place and
      puts the ISF row at p and its copy at p + 1. */
  lemma {:induction false} DuplicateAround(rows: seq<Row>, p: nat)
    requires p < |rows| && IsIsfRow(rows[p]) && forall j :: 0 <= j < p ==> !IsIsfRow(rows[j])
    ensures |Duplicate(rows)| > p + 1
    ensures Duplicate(rows)[..p] == rows[..p]
    ensures Duplicate(rows)[p] == rows[p] && Duplicate(rows)[p + 1] == rows[p]
  {
    if p > 0 {
      DuplicateAround(rows[1..], p - 1);
      assert Duplicate(rows) == [rows[0]] + Duplicate(rows[1..]);
      assert rows[..p] == [rows[0]] + rows[1..][..p - 1];
    }
  }

  function SetCell(rows: seq<Row>, pos: nat, column: string, v: Cell): (r: seq<Row>)
    requires pos < |rows|
    ensures |r| == |rows| && r[pos].index == rows[pos].index
    ensures At(r[pos], column) == v
    ensures forall c :: c != column ==> At(r[pos], c) == At(rows[pos], c)
    ensures forall j :: 0 <= j < |rows| && j != pos ==> r[j] == rows[j]
  {
    rows[pos := Row(rows[pos].index, rows[pos].cells[column := v])]
  }

  /** `str(round(float(v) / 18, 2))`, or the ValueError `float()` raises. */
  function MmolText(v: Cell): (r: Result<Cell>)
    ensures r.Ok? <==> ToFloat(v).Ok?
    ensures v.Num? ==> r == Ok(Text(Repr2(v.x / 18.0)))
    ensures v.Text? && ParseFloat(v.s).Some? && ParseFloat(v.s).value.Fin? ==>
              r == Ok(Text(Repr2(ParseFloat(v.s).value.v / 18.0)))
    ensures ToFloat(v) == Ok(NaN) ==> r == Ok(Text("nan"))
  {
    match ToFloat(v)
    case Err(e) => Err(e)
    case Ok(f) =>
      match f
      case NaN => Ok(Text("nan"))
      case Fin(x) => Ok(Text(Repr2(x / 18.0)))
  }

  /** The writes into the copy at `p`, reading the values of the ISF row
      `src` (the row just above it); each failure returns the table as far
      as it got. */
  function FillMmolRow(rows: seq<Row>, columns: seq<string>, p: nat, src: Row): (r: seq<Row>)
    requires p < |rows|
    ensures |r| == |rows|
    ensures forall j :: 0 <= j < |rows| && j != p ==> r[j] == rows[j]
    ensures r[p].index == rows[p].index
    ensures MmolRowOf(r[p], src, columns)
  {
    match MmolText(At(src, "Pump"))
    case Err(_) => rows
    case Ok(pump) =>
      var rows1 := SetCell(rows, p, "Pump", pump);
      match MmolText(At(src, "Autotune"))
      case Err(_) => rows1
      case Ok(auto) =>
        var rows2 := SetCell(rows1, p, "Autotune", auto);
        var rows3 := SetCell(rows2, p, "Parameter", Text(IsfMmol));
        if "DaysMissing" !in columns then rows3
        else SetCell(rows3, p, "DaysMissing", At(src, "DaysMissing"))
  }

  /** When both values of `src` convert, `row` is its mmol/L row. */
  predicate MmolRowOf(row: Row, src: Row, columns: seq<string>) {
    MmolText(At(src, "Pump")).Ok? && MmolText(At(src, "Autotune")).Ok? ==>
      At(row, "Parameter") == Text(IsfMmol)
      && At(row, "Pump") == MmolText(At(src, "Pump")).value
      && At(row, "Autotune") == MmolText(At(src, "Autotune")).value
      && ("DaysMissing" in columns ==> At(row, "DaysMissing") == At(src, "DaysMissing"))
  }

  /** Whether the conversion goes ahead: a non-empty table with a Parameter
      column, an ISF row, and truthy Pump and Autotune values in it. */
  predicate Converts(f: Frame) {
    !IsEmpty(f) && "Parameter" in f.columns
    && (exists j :: 0 <= j < |f.rows| && IsIsfRow(f.rows[j]))
    && "Pump" in f.columns && "Autotune" in f.columns
    && Truthy(At(f.rows[FirstIsf(f.rows)], "Pump")) && Truthy(At(f.rows[FirstIsf(f.rows)], "Autotune"))
  }

  /** `isf_conversion(df)`. Reading Pump or Autotune of the ISF row raises
      KeyError when the column is missing. */
  function IsfConversion(f: Frame): (r: Result<Frame>)
    ensures IsEmpty(f) || "Parameter" !in f.columns || (forall j :: 0 <= j < |f.rows| ==> !IsIsfRow(f.rows[j]))
            ==> r == Ok(f)
    ensures r.Err? <==> !IsEmpty(f) && "Parameter" in f.columns
                        && (exists j :: 0 <= j < |f.rows| && IsIsfRow(f.rows[j]))
                        && ("Pump" !in f.columns || "Autotune" !in f.columns)
    ensures r.Ok? && !Converts(f) ==> r == Ok(f)
    ensures Converts(f) ==> r == Ok(Converted(f))
    ensures Converts(f) ==> |r.value.rows| == |f.rows| + IsfCount(f.rows)
  {
    if IsEmpty(f) || "Parameter" !in f.columns then Ok(f)
    else if forall j :: 0 <= j < |f.rows| ==> !IsIsfRow(f.rows[j]) then Ok(f)
    else
      var p := FirstIsf(f.rows);
      if "Pump" !in f.columns then Err(KeyError("Pump"))
      else if "Autotune" !in f.columns then Err(KeyError("Autotune"))
      else if !Truthy(At(f.rows[p], "Pump")) || !Truthy(At(f.rows[p], "Autotune")) then Ok(f)
      else Ok(Converted(f))
  }

  /** The table after the conversion went ahead: ISF rows doubled, labels
      reset, the copy of the first ISF row turned into the mmol/L row as far
      as the writes got. */
  function Converted(f: Frame): (r: Frame)
    requires Converts(f)
    ensures r.columns == f.columns && |r.rows| == |f.rows| + IsfCount(f.rows)
  {
    var p := FirstIsf(f.rows);
    DuplicateAround(f.rows, p);
    Frame(f.columns, FillMmolRow(ResetIndex(Duplicate(f.rows)), f.columns, p + 1, f.rows[p]))
  }

  /** What the conversion does to the rows: labels run 0, 1, 2, ...; the
      rows up to the first ISF row keep their cells; and every row but the
      mmol/L row holds the cells of the duplicated table at its position,
      so the rows after it are the old rows, shifted by the copies. */
  lemma ConvertedRows(f: Frame)
    requires Converts(f)
    ensures var p := FirstIsf(f.rows);
            var r := Converted(f);
            (forall j :: 0 <= j < |r.rows| ==> r.rows[j].index == j)
            && (forall j :: 0 <= j <= p ==> r.rows[j].cells == f.rows[j].cells)
            && |r.rows| == |Duplicate(f.rows)|
            && (forall j :: 0 <= j < |r.rows| && j != p + 1 ==> r.rows[j].cells == Duplicate(f.rows)[j].cells)
  {
    var p := FirstIsf(f.rows);
    DuplicateAround(f.rows, p);
    var d := Duplicate(f.rows);
    var dup := ResetIndex(d);
    var rows := FillMmolRow(dup, f.columns, p + 1, f.rows[p]);
    assert Converted(f).rows == rows;
    forall j | 0 <= j < |rows|
      ensures rows[j].index == j
    {
      if j != p + 1 {
        assert rows[j] == dup[j];
      }
    }
    forall j | 0 <= j < |rows| && j != p + 1
      ensures rows[j].cells == d[j].cells
    {
      assert rows[j] == dup[j];
    }
    forall j | 0 <= j <= p
      ensures rows[j].cells == f.rows[j].cells
    {
      assert rows[j] == dup[j];
      if j < p {
        assert d[j] == d[..p][j];
      }
    }
  }

  /** The position of row j once every ISF row before it has its copy. */
  function Place(rows: seq<Row>, j: nat): nat
    requires j <= |rows|
  {
    j + IsfCount(rows[..j])
  }

  /** Where each row ends up after the conversion: row j at its `Place`,
      labelled by that position, with its cells. No row lands on the
      mmol/L row. */
  lemma ConvertedPlaces(f: Frame)
    requires Converts(f)
    ensures forall j :: 0 <= j < |f.rows| ==>
              Place(f.rows, j) < |Converted(f).rows| && Place(f.rows, j) != FirstIsf(f.rows) + 1
              && Converted(f).rows[Place(f.rows, j)] == Row(Place(f.rows, j), f.rows[j].cells)
  {
    forall j | 0 <= j < |f.rows|
      ensures Place(f.rows, j) < |Converted(f).rows| && Place(f.rows, j) != FirstIsf(f.rows) + 1
              && Converted(f).rows[Place(f.rows, j)] == Row(Place(f.rows, j), f.rows[j].cells)
    {
      ConvertedPlace(f, j);
    }
  }

  lemma ConvertedPlace(f: Frame, j: nat)
    requires Converts(f) && j < |f.rows|
    ensures Place(f.rows, j) < |Converted(f).rows| && Place(f.rows, j) != FirstIsf(f.rows) + 1
    ensures Converted(f).rows[Place(f.rows, j)] == Row(Place(f.rows, j), f.rows[j].cells)
  {
    var at := Place(f.rows, j);
    PlaceNotMmol(f.rows, j);
    PlaceInDuplicate(f.rows, j);
    ConvertedRows(f);
    var r := Converted(f).rows[at];
    assert r.index == at && r.cells == f.rows[j].cells;
    assert r == Row(r.index, r.cells);
  }

  /** Row j sits at `Place` in the duplicated rows. */
  lemma PlaceInDuplicate(rows: seq<Row>, j: nat)
    requires j < |rows|
    ensures Place(rows, j) < |Duplicate(rows)| && Duplicate(rows)[Place(rows, j)] == rows[j]
  {
    DuplicateInPlace(rows);
  }

  /** No row of the table is placed where the mmol/L row goes: the rows up
      to the first ISF row stay put, and those after it move past its copy. */
  lemma PlaceNotMmol(rows: seq<Row>, j: nat)
    requires (exists k :: 0 <= k < |rows| && IsIsfRow(rows[k])) && j < |rows|
    ensures Place(rows, j) != FirstIsf(rows) + 1
  {
    var p := FirstIsf(rows);
    if j <= p {
      CountWhereNone(rows[..j], IsIsfRow);
    } else {
      assert rows[..j][p] == rows[p];
      CountWhereSome(rows[..j], IsIsfRow, p);
    }
  }

  /** When both values of the first ISF row convert, the row after it is
      its mmol/L row. */
  lemma ConvertedMmolRow(f: Frame)
    requires Converts(f)
    ensures |Converted(f).rows| > FirstIsf(f.rows) + 1
    ensures MmolRowOf(Converted(f).rows[FirstIsf(f.rows) + 1], f.rows[FirstIsf(f.rows)], f.columns)
  {
    var p := FirstIsf(f.rows);
    DuplicateAround(f.rows, p);
    var rows := FillMmolRow(ResetIndex(Duplicate(f.rows)), f.columns, p + 1, f.rows[p]);
    assert Converted(f).rows == rows;
  }

  /** `remove_isf_conversion(df)`: drops every row carrying the label of
      the row at position 1, whatever it holds; fewer than two rows raise
      IndexError. */
  function RemoveIsfConversion(f: Frame): (r: Result<Frame>)
    ensures r.Err? <==> |f.rows| < 2
    ensures r.Ok? ==> r.value.columns == f.columns
    ensures r.Ok? ==> forall x :: x in r.value.rows <==> x in f.rows && x.index != f.rows[1].index
  {
    if |f.rows| < 2 then Err(IndexError)
    else Ok(Frame(f.columns, DropLabel(f.rows, f.rows[1].index)))
  }

  function DropLabel(rows: seq<Row>, index: int): (r: seq<Row>)
    ensures forall x :: x in r <==> x in rows && x.index != index
    ensures |r| <= |rows|
  {
    if |rows| == 0 then []
    else (if rows[0].index == index then [] else [rows[0]]) + DropLabel(rows[1..], index)
  }

  /** The test a row passes to survive `df.drop(index)`. */
  function LabelOtherThan(index: int): Row -> bool {
    (x: Row) => x.index != index
  }

  /** The surviving rows keep their order and duplicates: one per row with
      another label, each at its rank among them. */
  lemma {:induction false} DropLabelKept(rows: seq<Row>, index: int)
    ensures Kept(rows, LabelOtherThan(index), DropLabel(rows, index))
  {
    if |rows| > 0 {
      DropLabelKept(rows[1..], index);
      KeptCons(rows, LabelOtherThan(index), DropLabel(rows[1..], index));
    }
  }

  /** With unique labels, exactly the row at position 1 goes and the rest
      keep their order and labels. */
  lemma RemoveSecondRow(f: Frame)
    requires |f.rows| >= 2
    requires forall i, j :: 0 <= i < j < |f.rows| ==> f.rows[i].index != f.rows[j].index
    ensures RemoveIsfConversion(f) == Ok(Frame(f.columns, [f.rows[0]] + f.rows[2..]))
  {
    var rows := f.rows;
    var l := rows[1].index;
    assert rows[0].index != l;
    assert forall j :: 0 <= j < |rows[2..]| ==> rows[2..][j].index != l by {
      forall j | 0 <= j < |rows[2..]|
        ensures rows[2..][j].index != l
      {
        assert rows[2..][j] == rows[j + 2];
      }
    }
    DropAbsent(rows[2..], l);
    assert rows[1..][1..] == rows[2..];
    assert DropLabel(rows[1..], l) == [] + DropLabel(rows[2..], l);
    assert DropLabel(rows, l) == [rows[0]] + DropLabel(rows[1..], l);
    assert DropLabel(rows[1..], l) == rows[2..];
    assert RemoveIsfConversion(f) == Ok(Frame(f.columns, DropLabel(rows, l)));
  }

  lemma {:induction false} DropAbsent(rows: seq<Row>, index: int)
    requires forall j :: 0 <= j < |rows| ==> rows[j].index != index
    ensures DropLabel(rows, index) == rows
  {
    if |rows| > 0 {
      DropAbsent(rows[1..], index);
      assert [rows[0]] + rows[1..] == rows;
    }
  }

  /** A missing DaysMissing column still leaves the inserted row behind:
      the KeyError is caught after the other three cells were written. */
  lemma MissingDaysMissingKeepsRow(f: Frame)
    requires Converts(f) && "DaysMissing" !in f.columns
    requires ToFloat(At(f.rows[FirstIsf(f.rows)], "Pump")).Ok?
    requires ToFloat(At(f.rows[FirstIsf(f.rows)], "Autotune")).Ok?
    ensures IsfConversion(f).Ok?
    ensures var r := IsfConversion(f).value;
            |r.rows| == |f.rows| + IsfCount(f.rows) && |r.rows| > FirstIsf(f.rows) + 1
            && At(r.rows[FirstIsf(f.rows) + 1], "Parameter") == Text(IsfMmol)
            && At(r.rows[FirstIsf(f.rows) + 1], "Pump") == MmolText(At(f.rows[FirstIsf(f.rows)], "Pump")).value
  {
    ConvertedMmolRow(f);
  }
}

=== FILE: nightscout.dfy ===
/** The Nightscout client: the records the engine works on, and what the
    client does to the JSON it receives before handing it on. Timestamps are
    integer seconds of local (naive) time; turning Nightscout's epoch
    milliseconds and ISO strings into them is not part of this model, so the
    raw records below already carry converted timestamps. */
module Nightscout {
  import opened PyValues
  import opened Text
  import opened Sorting
  import opened Seqs

  /** The run configuration; the engine only carries it into its result. */
  datatype Config = Config(
    startDate: string,
    endDate: string,
    categorizeUamAsBasal: bool,
    tuneInsulinCurve: bool,
    timezone: string,
    dia: real,
    verbose: bool)

  datatype BgReading = BgReading(timestamp: int, sgv: real, direction: string, device: string)

  datatype Treatment = Treatment(
    timestamp: int,
    eventType: string,
    insulin: Option<real>,
    carbs: Option<real>,
    rate: Option<real>,
    duration: Option<int>,
    absolute: Option<real>)

  /** One entry of a profile schedule (`sens`, `carbratio`, `basal`); either
      key may be missing. */
  datatype ScheduleEntry = ScheduleEntry(time: Option<string>, value: Option<real>)

  /** The keys of a Nightscout profile the engine reads; each may be missing. */
  datatype NsProfile = NsProfile(
    sens: Option<seq<ScheduleEntry>>,
    carbratio: Option<seq<ScheduleEntry>>,
    basal: Option<seq<ScheduleEntry>>)

  /** An element of the `entries/sgv.json` answer. */
  datatype RawEntry = RawEntry(
    kind: Option<string>,
    sgv: Option<real>,
    date: Option<int>,
    direction: Option<string>,
    device: Option<string>)

  /** An element of the `treatments.json` answer. */
  datatype RawTreatment = RawTreatment(
    isValid: Option<Cell>,
    createdAt: Option<int>,
    eventType: Option<string>,
    insulin: Option<real>,
    carbs: Option<real>,
    rate: Option<real>,
    duration: Option<int>,
    absolute: Option<real>)

  /** An element of the `profile.json` answer. */
  datatype ProfileDoc = ProfileDoc(store: Option<map<string, NsProfile>>, defaultProfile: Option<string>)

  // ---------------------------------------------------------------- the client

  /** `base_url.rstrip('/')`. */
  function TrimSlashes(url: string): (r: string)
    ensures |r| <= |url| && r == url[..|r|]
    ensures |r| == 0 || r[|r| - 1] != '/'
    ensures forall k :: |r| <= k < |url| ==> url[k] == '/'
  {
    if |url| > 0 && url[|url| - 1] == '/' then TrimSlashes(url[..|url| - 1]) else url
  }

  lemma TrimSlashesIdempotent(url: string)
    ensures TrimSlashes(TrimSlashes(url)) == TrimSlashes(url)
  {
  }

  const TokenPrefix: string := "token="

  /** The query parameter the client authenticates with: none without a
      secret; otherwise "token=" and the secret with one leading "token="
      taken off. */
  function TokenParam(secret: Option<string>): (r: Option<string>)
    ensures r.Some? <==> secret.Some? && |secret.value| > 0
    ensures r.Some? ==> StartsWith(r.value, TokenPrefix)
    ensures r.Some? && !StartsWith(secret.value, TokenPrefix) ==> r.value == TokenPrefix + secret.value
    ensures r.Some? && StartsWith(secret.value, TokenPrefix) ==> r.value == secret.value
  {
    match secret
    case None => None
    case Some(s) =>
      if |s| == 0 then None
      else
        var clean := if StartsWith(s, TokenPrefix) then s[|TokenPrefix|..] else s;
        assert StartsWith(s, TokenPrefix) ==> TokenPrefix + clean == s;
        Some(TokenPrefix + clean)
  }

  /** Passing the token parameter back in as the secret gives it again. */
  lemma TokenParamIdempotent(secret: Option<string>)
    requires TokenParam(secret).Some?
    ensures TokenParam(TokenParam(secret)) == TokenParam(secret)
  {
    var t := TokenParam(secret).value;
    assert t[|TokenPrefix|..] == t[6..];
    assert TokenPrefix + t[6..] == t;
  }

  /** Whether an entry is a glucose value the client keeps. */
  predicate KeepEntry(e: RawEntry) {
    e.kind == Some("sgv") && TruthyAmount(e.sgv)
  }

  function Reading(e: RawEntry): BgReading
    requires KeepEntry(e) && e.date.Some?
  {
    BgReading(e.date.value, e.sgv.value,
      if e.direction.Some? then e.direction.value else "Unknown",
      if e.device.Some? then e.device.value else "Unknown")
  }

  /** `b` is the reading the kept entry `e` becomes. */
  predicate ReadingOf(e: RawEntry, b: BgReading) {
    KeepEntry(e) && e.date.Some? && Reading(e) == b
  }

  /** The kept entries as readings, in answer order; a kept entry without a
      `date` raises KeyError. */
  function Readings(raw: seq<RawEntry>): (r: Result<seq<BgReading>>)
    ensures r.Ok? <==> forall k :: 0 <= k < |raw| && KeepEntry(raw[k]) ==> raw[k].date.Some?
    ensures r.Err? ==> r.error == KeyError("date")
    ensures r.Ok? ==> forall b :: b in r.value ==>
              exists k :: 0 <= k < |raw| && KeepEntry(raw[k]) && raw[k].date.Some? && Reading(raw[k]) == b
    ensures r.Ok? ==> forall k :: 0 <= k < |raw| && KeepEntry(raw[k]) ==> Reading(raw[k]) in r.value
    ensures r.Ok? ==> Ranked(raw, KeepEntry, ReadingOf, r.value)
  {
    if |raw| == 0 then Ok([])
    else
      var e := raw[0];
      var rest := Readings(raw[1..]);
      assert forall k :: 1 <= k < |raw| ==> raw[k] == raw[1..][k - 1];
      if !KeepEntry(e) then
        if rest.Ok? then RankedCons(raw, KeepEntry, ReadingOf, [], rest.value); rest else rest
      else if e.date.None? then Err(KeyError("date"))
      else if rest.Err? then rest
      else
        RankedCons(raw, KeepEntry, ReadingOf, [Reading(e)], rest.value);
        Ok([Reading(e)] + rest.value)
  }

  function ReadingTime(b: BgReading): int {
    b.timestamp
  }

  /** `get_entries` after the request: kept readings sorted by time. */
  function FilterEntries(raw: seq<RawEntry>): (r: Result<seq<BgReading>>)
    ensures r.Ok? <==> Readings(raw).Ok?
    ensures r.Ok? ==> multiset(r.value) == multiset(Readings(raw).value)
    ensures r.Ok? ==> SortedBy(r.value, KeyLe(ReadingTime))
  {
    match Readings(raw)
    case Err(e) => Err(e)
    case Ok(bs) => Ok(SortByKey(bs, ReadingTime))
  }

  /** Readings with equal timestamps keep their answer order. */
  lemma FilterEntriesStable(raw: seq<RawEntry>, p: BgReading)
    requires Readings(raw).Ok?
    ensures Equivalents(FilterEntries(raw).value, KeyLe(ReadingTime), p)
         == Equivalents(Readings(raw).value, KeyLe(ReadingTime), p)
  {
    SortByKeyStable(Readings(raw).value, ReadingTime, p);
  }

  /** A treatment is dropped when `isValid` is present and falsy. */
  predicate KeepTreatment(t: RawTreatment) {
    t.isValid.None? || Truthy(t.isValid.value)
  }

  function TreatmentOf(t: RawTreatment): Treatment
    requires t.createdAt.Some?
  {
    Treatment(t.createdAt.value, if t.eventType.Some? then t.eventType.value else "",
      t.insulin, t.carbs, t.rate, t.duration, t.absolute)
  }

  /** `t` is the treatment the kept record `raw` becomes. */
  predicate TreatmentFrom(raw: RawTreatment, t: Treatment) {
    KeepTreatment(raw) && raw.createdAt.Some? && TreatmentOf(raw) == t
  }

  /** The kept treatments in answer order; a kept treatment without
      `created_at` raises KeyError. */
  function Treatments(raw: seq<RawTreatment>): (r: Result<seq<Treatment>>)
    ensures r.Ok? <==> forall k :: 0 <= k < |raw| && KeepTreatment(raw[k]) ==> raw[k].createdAt.Some?
    ensures r.Err? ==> r.error == KeyError("created_at")
    ensures r.Ok? ==> forall t :: t in r.value ==>
              exists k :: 0 <= k < |raw| && KeepTreatment(raw[k]) && raw[k].createdAt.Some? && TreatmentOf(raw[k]) == t
    ensures r.Ok? ==> forall k :: 0 <= k < |raw| && KeepTreatment(raw[k]) ==> TreatmentOf(raw[k]) in r.value
    ensures r.Ok? ==> Ranked(raw, KeepTreatment, TreatmentFrom, r.value)
  {
    if |raw| == 0 then Ok([])
    else
      var t := raw[0];
      var rest := Treatments(raw[1..]);
      assert forall k :: 1 <= k < |raw| ==> raw[k] == raw[1..][k - 1];
      if !KeepTreatment(t) then
        if rest.Ok? then RankedCons(raw, KeepTreatment, TreatmentFrom, [], rest.value); rest else rest
      else if t.createdAt.None? then Err(KeyError("created_at"))
      else if rest.Err? then rest
      else
        RankedCons(raw, KeepTreatment, TreatmentFrom, [TreatmentOf(t)], rest.value);
        Ok([TreatmentOf(t)] + rest.value)
  }

  function TreatmentTime(t: Treatment): int {
    t.timestamp
  }

  /** `get_treatments` after the request: kept treatments sorted by time. */
  function FilterTreatments(raw: seq<RawTreatment>): (r: Result<seq<Treatment>>)
    ensures r.Ok? <==> Treatments(raw).Ok?
    ensures r.Ok? ==> multiset(r.value) == multiset(Treatments(raw).value)
    ensures r.Ok? ==> SortedBy(r.value, KeyLe(TreatmentTime))
  {
    match Treatments(raw)
    case Err(e) => Err(e)
    case Ok(ts) => Ok(SortByKey(ts, TreatmentTime))
  }

  /** Treatments with equal timestamps keep their answer order. */
  lemma FilterTreatmentsStable(raw: seq<RawTreatment>, p: Treatment)
    requires Treatments(raw).Ok?
    ensures Equivalents(FilterTreatments(raw).value, KeyLe(TreatmentTime), p)
         == Equivalents(Treatments(raw).value, KeyLe(TreatmentTime), p)
  {
    SortByKeyStable(Treatments(raw).value, TreatmentTime, p);
  }

  /** `get_profile` after the request: the default profile of the first
      document. */
  function SelectProfile(docs: seq<ProfileDoc>): (r: Result<NsProfile>)
    ensures |docs| == 0 ==> r.Err? && r.error.ValueError?
    ensures r.Ok? <==> |docs| > 0 && docs[0].store.Some? && docs[0].defaultProfile.Some?
                       && docs[0].defaultProfile.value in docs[0].store.value
    ensures r.Ok? ==> r.value == docs[0].store.value[docs[0].defaultProfile.value]
  {
    if |docs| == 0 then Err(ValueError("No profile data found in Nightscout"))
    else
      var d := docs[0];
      if d.store.None? then Err(KeyError("store"))
      else if d.defaultProfile.None? then Err(KeyError("defaultProfile"))
      else if d.defaultProfile.value !in d.store.value then Err(KeyError(d.defaultProfile.value))
      else Ok(d.store.value[d.defaultProfile.value])
  }
}

=== FILE: numeric.dfy ===
/** Decimal rounding on reals. Python's `round(x, d)` rounds half to even on
    the binary value of a float; the model rounds half up on exact reals,
    which agrees with Python except on exact ties. */
module Numeric {
  import opened PyValues

  function Pow10(d: nat): (p: real)
    ensures p >= 1.0
  {
    if d == 0 then 1.0 else 10.0 * Pow10(d - 1)
  }

  /** The nearest integer to `x`, ties rounded up. */
  function RoundToInt(x: real): (n: int)
    ensures x - 0.5 < n as real <= x + 0.5
  {
    (x + 0.5).Floor
  }

  /** `round(x, d)`, half up: the multiple of 10^-d nearest to `x`. */
  function Round(x: real, d: nat): (r: real)
    ensures x - 0.5 / Pow10(d) < r <= x + 0.5 / Pow10(d)
  {
    RoundBy(x, Pow10(d))
  }

  function RoundBy(x: real, p: real): (r: real)
    requires p > 0.0
    ensures x - 0.5 / p < r <= x + 0.5 / p
  {
    var n := RoundToInt(x * p);
    ScaleDownStrict(x * p - 0.5, n as real, x * p + 0.5, p);
    n as real / p
  }

  lemma ScaleDownStrict(lo: real, m: real, hi: real, p: real)
    requires p > 0.0 && lo < m <= hi
    ensures lo / p < m / p <= hi / p
  {
  }

  /** Round applied to a Python float; NaN stays NaN. */
  function RoundFloat(f: Float, d: nat): (r: Float)
    ensures r.NaN? <==> f.NaN?
    ensures f.Fin? ==> r == Fin(Round(f.v, d))
  {
    match f
    case Fin(v) => Fin(Round(v, d))
    case NaN => NaN
  }

  /** Rounding never leaves an interval whose ends are exact at `d`
      decimals. */
  lemma RoundWithin(x: real, d: nat, lo: int, hi: int)
    requires lo as real / Pow10(d) <= x <= hi as real / Pow10(d)
    ensures lo as real / Pow10(d) <= Round(x, d) <= hi as real / Pow10(d)
  {
    RoundByWithin(x, Pow10(d), lo, hi);
  }

  lemma RoundByWithin(x: real, p: real, lo: int, hi: int)
    requires p > 0.0 && lo as real / p <= x <= hi as real / p
    ensures lo as real / p <= RoundBy(x, p) <= hi as real / p
  {
    var n := RoundToInt(x * p);
    ScaleUp(lo as real, x, hi as real, p);
    assert lo <= n <= hi;
    ScaleDown(lo as real, n as real, hi as real, p);
  }

  lemma ScaleUp(a: real, x: real, b: real, p: real)
    requires p > 0.0 && a / p <= x <= b / p
    ensures a <= x * p <= b
  {
    assert (a / p) * p == a;
    assert (b / p) * p == b;
  }

  lemma ScaleDown(a: real, m: real, b: real, p: real)
    requires p > 0.0 && a <= m <= b
    ensures a / p <= m / p <= b / p
  {
  }

  /** A value already at `d` decimals is left unchanged by rounding. */
  lemma RoundExact(n: int, d: nat)
    ensures Round(n as real / Pow10(d), d) == n as real / Pow10(d)
  {
    RoundByExact(n, Pow10(d));
  }

  lemma RoundByExact(n: int, p: real)
    requires p > 0.0
    ensures RoundBy(n as real / p, p) == n as real / p
  {
    var x := n as real / p;
    RoundByUnfold(x, p);
    assert x * p == n as real;
    assert RoundToInt(n as real) == n;
  }

  lemma RoundByUnfold(x: real, p: real)
    requires p > 0.0
    ensures RoundBy(x, p) == RoundToInt(x * p) as real / p
  {
  }
}

=== FILE: preparation.dfy ===
/** data_processing/data_preperation.py: the recommendation table as the
    web page shows it, and the totals of the two basal curves. Building
    the chart is not part of this model. */
module Preparation {
  import opened PyValues
  import opened Numeric
  import opened Text
  import opened Tables
  import opened Filtered
  import opened IsfUnits
  import opened Cleaning
  import opened Seqs

  /** The table, the pump total and the autotune total. */
  datatype Prepared = Prepared(frame: Frame, pumpTotal: real, autotuneTotal: real)

  /** The placeholder table for an empty input. */
  const EmptyTable: Frame := Frame(
    ["Parameter", "Pump", "Autotune", "Days Missing"],
    [Row(0, map["Parameter" := Text("ISF"), "Pump" := Num(0.0), "Autotune" := Num(0.0), "Days Missing" := Num(0.0)]),
     Row(1, map["Parameter" := Text("CarbRatio"), "Pump" := Num(0.0), "Autotune" := Num(0.0), "Days Missing" := Num(0.0)])])

  /** The start label `data_preperation` passes to `adjust_table`. */
  const StartRow: int := 4

  /** The position the basal lists are read from (`iloc[2:]`). */
  const ListRow: nat := 2

  // ------------------------------------------------------------ write-back

  /** The write-back as the source calls it: `adjust_table` from label 4. */
  function WriteListsAsWritten(d: Frame, l: Lists): (r: Result<Frame>)
    ensures r.Ok? ==> r.value.columns == d.columns && |r.value.rows| == |d.rows|
  {
    AdjustTable(d, [l.pump, FloatCells(l.autotune)], ["Pump", "Autotune"], StartRow)
  }

  /** Labels 0, 2, 3, 4, ...: what `remove_isf_conversion` leaves of a
      table labelled 0, 1, 2, ... */
  predicate SkipsOne(rows: seq<Row>) {
    |rows| > 0 && rows[0].index == 0 && forall j :: 1 <= j < |rows| ==> rows[j].index == j + 1
  }

  lemma {:induction false} SelectedSkipping(rows: seq<Row>, lo: int, hi: int, k: nat)
    requires SkipsOne(rows) && lo >= 2 && k <= |rows|
    ensures var m := if k <= hi then k else hi;
            Selected(rows[..k], lo, hi) == if m < lo then 0 else m - lo + 1
  {
    if k > 0 {
      SelectedSkipping(rows, lo, hi, k - 1);
      assert rows[..k][..k - 1] == rows[..k - 1];
    }
  }

  /** Dropping the row at position 1 of a table labelled 0, 1, 2, ...
      leaves labels 0, 2, 3, ... */
  lemma DropLeavesSkip(f: Frame)
    requires |f.rows| >= 2 && forall j :: 0 <= j < |f.rows| ==> f.rows[j].index == j
    ensures RemoveIsfConversion(f).Ok?
    ensures RemoveIsfConversion(f).value.rows == [f.rows[0]] + f.rows[2..]
    ensures SkipsOne(RemoveIsfConversion(f).value.rows)
  {
    RemoveSecondRow(f);
  }

  /** On a table labelled 0, 2, 3, ... the source's write-back succeeds:
      the rows labelled 4 .. n - 1 are exactly as many as the values it
      takes, and the value of rank k goes to position k + 3. */
  lemma AsWrittenFits(d: Frame, col: seq<Cell>)
    requires SkipsOne(d.rows) && |d.rows| >= 5 && |col| == |d.rows| - 2
    ensures EndLabel(d, col, StartRow) == |d.rows| - 1
    ensures Fits(d, col, StartRow)
    ensures forall j :: 0 <= j < |d.rows| ==>
              (InRange(d.rows[j], StartRow, EndLabel(d, col, StartRow)) <==> 3 <= j <= |d.rows| - 2)
    ensures forall j :: 3 <= j <= |d.rows| - 2 ==> Rank(d, col, StartRow, j) == j - 3
  {
    var hi := |d.rows| - 1;
    SelectedSkipping(d.rows, StartRow, hi, |d.rows|);
    assert d.rows[..|d.rows|] == d.rows;
    forall j | 3 <= j <= |d.rows| - 2
      ensures Rank(d, col, StartRow, j) == j - 3
    {
      SelectedSkipping(d.rows, StartRow, hi, j);
    }
  }

  /** What the source's write-back does to the table it is given, labelled
      0, 2, 3, ... as `remove_isf_conversion` leaves a table labelled 0, 1,
      2, ...: the value read from row j - 1 is written into row j, for
      every row from position 3 to the one before last, while row 2, the
      first row the lists were read from, keeps its old value. */
  lemma ListsLandOneRowLow(d: Frame, filter: Option<string>, smooth: (seq<real>, nat, nat) -> seq<real>)
    requires SkipsOne(d.rows) && |d.rows| >= 5
    requires "Parameter" in d.columns && "Pump" in d.columns && "Autotune" in d.columns
    ensures var l := GetFilteredData(d, filter, smooth).value;
            var w := WriteListsAsWritten(d, l);
            w.Ok? && |w.value.rows| == |d.rows|
            && At(w.value.rows[2], "Pump") == At(d.rows[2], "Pump")
            && forall j :: 3 <= j <= |d.rows| - 2 ==> At(w.value.rows[j], "Pump") == PumpShown(d.rows[j - 1])
  {
    var l := GetFilteredData(d, filter, smooth).value;
    PumpListRows(d, l.pump, filter, smooth);
    AsWrittenPump(d, l.pump, FloatCells(l.autotune));
  }

  function ProbeRow(index: int, time: string, rate: real): Row {
    Row(index, map["Parameter" := Text(time), "Pump" := Num(rate), "Autotune" := Num(rate)])
  }

  /** An ISF row labelled 0 over the hours 00:00 to 04:00 labelled 2 to 6,
      with pump rates 0.5, 1.0, 2.0, 3.0 and 4.0. */
  const ProbeTable: Frame := Frame(["Parameter", "Pump", "Autotune"],
    [ProbeRow(0, "ISF[mg/dL/U]", 50.0), ProbeRow(2, "00:00", 0.5), ProbeRow(3, "01:00", 1.0),
     ProbeRow(4, "02:00", 2.0), ProbeRow(5, "03:00", 3.0), ProbeRow(6, "04:00", 4.0)])

  /** The chart values of the probe table from position 2 on. */
  const ProbePump: seq<Cell> := [Num(1.0), Num(2.0), Num(3.0), Num(4.0)]

  /** On the probe table the 02:00 row receives 1.0, the rate read from
      the 01:00 row, instead of its own 2.0. */
  lemma ShiftProbe()
    ensures PumpShown(ProbeTable.rows[2]) == ProbePump[0]
    ensures var w := AdjustTable(ProbeTable, [ProbePump, ProbePump], ["Pump", "Autotune"], StartRow);
            w.Ok? && |w.value.rows| == 6 && At(w.value.rows[3], "Pump") == Num(1.0)
            && At(ProbeTable.rows[3], "Pump") == Num(2.0)
  {
    assert SkipsOne(ProbeTable.rows);
    AsWrittenPump(ProbeTable, ProbePump, ProbePump);
    ProbeRowShown();
  }

  lemma ProbeRowShown()
    ensures PumpShown(ProbeTable.rows[2]) == Num(1.0)
  {
    OnTheHour();
    var r := ProbeTable.rows[2];
    assert r == ProbeRow(3, "01:00", 1.0);
    assert At(r, "Pump") == Num(1.0) && At(r, "Parameter") == Text("01:00");
  }

  lemma OnTheHour()
    ensures !HalfHour(Text("01:00"))
  {
    var s := "01:00";
    var t := ":30";
    assert s[..3][0] != t[0] && s[1..][..3][0] != t[0] && s[2..][..3][1] != t[1];
    assert s[1..][1..] == s[2..] && s[2..][1..] == s[3..] && |s[3..]| < 3;
  }

  /** The pump list, read from position 2 on. */
  lemma PumpListRows(d: Frame, pump: seq<Cell>, filter: Option<string>, smooth: (seq<real>, nat, nat) -> seq<real>)
    requires !IsEmpty(d) && "Parameter" in d.columns && "Pump" in d.columns && "Autotune" in d.columns
    requires pump == GetFilteredData(d, filter, smooth).value.pump && |d.rows| >= 2
    ensures |pump| == |d.rows| - 2
    ensures forall j :: 2 <= j < |d.rows| ==> pump[j - 2] == PumpShown(d.rows[j])
  {
    forall j | 2 <= j < |d.rows|
      ensures pump[j - 2] == PumpShown(d.rows[j])
    {
      assert d.rows[j - 2 + 2] == d.rows[j];
    }
  }

  /** The Pump column after the source's write-back of two lists as long
      as the table minus two rows. */
  lemma AsWrittenPump(d: Frame, pump: seq<Cell>, autotune: seq<Cell>)
    requires SkipsOne(d.rows) && |d.rows| >= 5 && |pump| == |d.rows| - 2 && |autotune| == |d.rows| - 2
    requires "Pump" in d.columns && "Autotune" in d.columns
    ensures var w := AdjustTable(d, [pump, autotune], ["Pump", "Autotune"], StartRow);
            w.Ok? && |w.value.rows| == |d.rows|
            && At(w.value.rows[2], "Pump") == At(d.rows[2], "Pump")
            && forall j :: 3 <= j <= |d.rows| - 2 ==> At(w.value.rows[j], "Pump") == pump[j - 3]
  {
    AsWrittenOk(d, pump, autotune);
    AsWrittenRow2(d, pump, autotune);
    forall j | 3 <= j <= |d.rows| - 2
      ensures At(AdjustTable(d, [pump, autotune], ["Pump", "Autotune"], StartRow).value.rows[j], "Pump") == pump[j - 3]
    {
      AsWrittenAt(d, pump, autotune, j);
    }
  }

  lemma AsWrittenOk(d: Frame, pump: seq<Cell>, autotune: seq<Cell>)
    requires SkipsOne(d.rows) && |d.rows| >= 5 && |pump| == |d.rows| - 2 && |autotune| == |d.rows| - 2
    requires "Pump" in d.columns && "Autotune" in d.columns
    ensures var w := AdjustTable(d, [pump, autotune], ["Pump", "Autotune"], StartRow);
            w.Ok? && |w.value.rows| == |d.rows|
  {
    AsWrittenFits(d, pump);
    AsWrittenFits(d, autotune);
    AdjustTableOk(d, [pump, autotune], ["Pump", "Autotune"], StartRow);
  }

  lemma AsWrittenRow2(d: Frame, pump: seq<Cell>, autotune: seq<Cell>)
    requires SkipsOne(d.rows) && |d.rows| >= 5 && |pump| == |d.rows| - 2 && |autotune| == |d.rows| - 2
    requires "Pump" in d.columns && "Autotune" in d.columns
    requires AdjustTable(d, [pump, autotune], ["Pump", "Autotune"], StartRow).Ok?
    ensures At(AdjustTable(d, [pump, autotune], ["Pump", "Autotune"], StartRow).value.rows[2], "Pump") == At(d.rows[2], "Pump")
  {
    var cols := [pump, autotune];
    var names := ["Pump", "Autotune"];
    AsWrittenFits(d, pump);
    assert !Writes(d, cols, names, StartRow, 0, 2, "Pump");
    assert !Writes(d, cols, names, StartRow, 1, 2, "Pump");
    assert Unwritten(d, cols, names, StartRow, 2, "Pump");
    AdjustTableUnwritten(d, cols, names, StartRow);
  }

  lemma AsWrittenAt(d: Frame, pump: seq<Cell>, autotune: seq<Cell>, j: int)
    requires SkipsOne(d.rows) && |d.rows| >= 5 && |pump| == |d.rows| - 2 && |autotune| == |d.rows| - 2
    requires "Pump" in d.columns && "Autotune" in d.columns
    requires AdjustTable(d, [pump, autotune], ["Pump", "Autotune"], StartRow).Ok?
    requires 3 <= j <= |d.rows| - 2
    ensures At(AdjustTable(d, [pump, autotune], ["Pump", "Autotune"], StartRow).value.rows[j], "Pump") == pump[j - 3]
  {
    var cols := [pump, autotune];
    var names := ["Pump", "Autotune"];
    AsWrittenWriter(d, pump, autotune, j);
    AdjustTableAt(d, cols, names, StartRow, 0, j, "Pump");
  }

  /** On such a table the Pump list is the last to write Pump in the rows
      from position 3 to the one before last, at rank j - 3. */
  lemma AsWrittenWriter(d: Frame, pump: seq<Cell>, autotune: seq<Cell>, j: int)
    requires SkipsOne(d.rows) && |d.rows| >= 5 && |pump| == |d.rows| - 2
    requires "Pump" in d.columns
    requires 3 <= j <= |d.rows| - 2
    ensures LastWriter(d, [pump, autotune], ["Pump", "Autotune"], StartRow, 0, j, "Pump")
    ensures Rank(d, pump, StartRow, j) == j - 3
  {
    AsWrittenFits(d, pump);
  }

  /** Whether the source's write-back puts a list value into row `j` of a
      table labelled 0, 2, 3, ...: the rows from position 3 to the one
      before last. */
  predicate Shifted(d: Frame, j: int) {
    3 <= j <= |d.rows| - 2
  }

  /** The source's write-back of two lists as long as the table minus two
      rows, on a table of five rows or more labelled 0, 2, 3, ...: a
      shifted row gets the values of rank j - 3; every other cell and
      every label stays. */
  lemma AsWrittenRow(d: Frame, pump: seq<Cell>, autotune: seq<Cell>, j: nat)
    requires SkipsOne(d.rows) && |d.rows| >= 5 && |pump| == |d.rows| - 2 && |autotune| == |d.rows| - 2
    requires "Pump" in d.columns && "Autotune" in d.columns && j < |d.rows|
    ensures var w := AdjustTable(d, [pump, autotune], ["Pump", "Autotune"], StartRow);
            w.Ok? && |w.value.rows| == |d.rows|
            && (Shifted(d, j) ==>
                  At(w.value.rows[j], "Pump") == pump[j - 3] && At(w.value.rows[j], "Autotune") == autotune[j - 3])
            && (!Shifted(d, j) ==>
                  At(w.value.rows[j], "Pump") == At(d.rows[j], "Pump")
                  && At(w.value.rows[j], "Autotune") == At(d.rows[j], "Autotune"))
  {
    AsWrittenOk(d, pump, autotune);
    if Shifted(d, j) {
      AsWrittenAt(d, pump, autotune, j);
      AsWrittenAutotuneAt(d, pump, autotune, j);
    } else {
      AsWrittenKept(d, pump, autotune, j);
    }
  }

  lemma AsWrittenAutotuneAt(d: Frame, pump: seq<Cell>, autotune: seq<Cell>, j: int)
    requires SkipsOne(d.rows) && |d.rows| >= 5 && |pump| == |d.rows| - 2 && |autotune| == |d.rows| - 2
    requires "Pump" in d.columns && "Autotune" in d.columns
    requires AdjustTable(d, [pump, autotune], ["Pump", "Autotune"], StartRow).Ok?
    requires 3 <= j <= |d.rows| - 2
    ensures At(AdjustTable(d, [pump, autotune], ["Pump", "Autotune"], StartRow).value.rows[j], "Autotune") == autotune[j - 3]
  {
    AsWrittenAutotuneWriter(d, pump, autotune, j);
    AdjustTableAt(d, [pump, autotune], ["Pump", "Autotune"], StartRow, 1, j, "Autotune");
  }

  /** On such a table the Autotune list writes Autotune in the rows from
      position 3 to the one before last, at rank j - 3. */
  lemma AsWrittenAutotuneWriter(d: Frame, pump: seq<Cell>, autotune: seq<Cell>, j: int)
    requires SkipsOne(d.rows) && |d.rows| >= 5 && |autotune| == |d.rows| - 2
    requires "Autotune" in d.columns
    requires 3 <= j <= |d.rows| - 2
    ensures LastWriter(d, [pump, autotune], ["Pump", "Autotune"], StartRow, 1, j, "Autotune")
    ensures Rank(d, autotune, StartRow, j) == j - 3
  {
    AsWrittenFits(d, autotune);
  }

  lemma AsWrittenKept(d: Frame, pump: seq<Cell>, autotune: seq<Cell>, j: int)
    requires SkipsOne(d.rows) && |d.rows| >= 5 && |pump| == |d.rows| - 2 && |autotune| == |d.rows| - 2
    requires "Pump" in d.columns && "Autotune" in d.columns
    requires AdjustTable(d, [pump, autotune], ["Pump", "Autotune"], StartRow).Ok?
    requires 0 <= j < |d.rows| && !Shifted(d, j)
    ensures var w := AdjustTable(d, [pump, autotune], ["Pump", "Autotune"], StartRow).value;
            At(w.rows[j], "Pump") == At(d.rows[j], "Pump") && At(w.rows[j], "Autotune") == At(d.rows[j], "Autotune")
  {
    var cols := [pump, autotune];
    var names := ["Pump", "Autotune"];
    AsWrittenFits(d, pump);
    AsWrittenFits(d, autotune);
    assert Unwritten(d, cols, names, StartRow, j, "Pump");
    assert Unwritten(d, cols, names, StartRow, j, "Autotune");
    AdjustTableUnwritten(d, cols, names, StartRow);
  }

  /** The source's write-back of the lists read from the table itself, one
      row at a time, on a table labelled 0, 2, 3, ...: a shifted row shows
      the chart values read from the row above it; every other row keeps
      its Pump and Autotune values; labels and other cells never change.
      Below five rows no label reaches 4 and nothing is written. */
  lemma ListsAsWrittenRow(d: Frame, filter: Option<string>, smooth: (seq<real>, nat, nat) -> seq<real>, j: nat)
    requires SkipsOne(d.rows) && "Parameter" in d.columns && "Pump" in d.columns && "Autotune" in d.columns
    requires j < |d.rows|
    ensures var l := GetFilteredData(d, filter, smooth).value;
            var w := WriteListsAsWritten(d, l);
            w.Ok? && |w.value.rows| == |d.rows| && w.value.rows[j].index == d.rows[j].index
            && (forall c :: c != "Pump" && c != "Autotune" ==> At(w.value.rows[j], c) == At(d.rows[j], c))
            && (Shifted(d, j) ==>
                  |l.autotune| == |d.rows| - ListRow
                  && At(w.value.rows[j], "Pump") == PumpShown(d.rows[j - 1])
                  && At(w.value.rows[j], "Autotune") == FloatCell(l.autotune[j - 3]))
            && (!Shifted(d, j) ==>
                  At(w.value.rows[j], "Pump") == At(d.rows[j], "Pump")
                  && At(w.value.rows[j], "Autotune") == At(d.rows[j], "Autotune"))
  {
    var l := GetFilteredData(d, filter, smooth).value;
    WrittenRow(d, l, j);
    if Shifted(d, j) {
      PumpListRows(d, l.pump, filter, smooth);
      assert l.pump[j - 3] == PumpShown(d.rows[j - 3 + 2]);
    }
  }

  /** `ListsAsWrittenRow` for any two lists as long as the table minus two
      rows. */
  lemma WrittenRow(d: Frame, l: Lists, j: nat)
    requires SkipsOne(d.rows) && "Pump" in d.columns && "Autotune" in d.columns && j < |d.rows|
    requires |d.rows| >= 5 ==> |l.pump| == |d.rows| - 2 && |l.autotune| == |d.rows| - 2
    ensures var w := WriteListsAsWritten(d, l);
            w.Ok? && |w.value.rows| == |d.rows| && w.value.rows[j].index == d.rows[j].index
            && (forall c :: c != "Pump" && c != "Autotune" ==> At(w.value.rows[j], c) == At(d.rows[j], c))
            && (Shifted(d, j) ==>
                  At(w.value.rows[j], "Pump") == l.pump[j - 3]
                  && At(w.value.rows[j], "Autotune") == FloatCell(l.autotune[j - 3]))
            && (!Shifted(d, j) ==>
                  At(w.value.rows[j], "Pump") == At(d.rows[j], "Pump")
                  && At(w.value.rows[j], "Autotune") == At(d.rows[j], "Autotune"))
  {
    WrittenFrame(d, l);
    if |d.rows| >= 5 {
      AsWrittenRow(d, l.pump, FloatCells(l.autotune), j);
    }
  }

  /** The source's write-back succeeds on such a table and keeps its
      labels and the other columns. */
  lemma WrittenFrame(d: Frame, l: Lists)
    requires SkipsOne(d.rows) && "Pump" in d.columns && "Autotune" in d.columns
    requires |d.rows| >= 5 ==> |l.pump| == |d.rows| - 2 && |l.autotune| == |d.rows| - 2
    ensures var w := WriteListsAsWritten(d, l);
            w.Ok? && |w.value.rows| == |d.rows|
            && forall j :: 0 <= j < |d.rows| ==>
                 w.value.rows[j].index == d.rows[j].index
                 && forall c :: c != "Pump" && c != "Autotune" ==> At(w.value.rows[j], c) == At(d.rows[j], c)
  {
    if |d.rows| >= 5 {
      AsWrittenOk(d, l.pump, FloatCells(l.autotune));
    }
  }

  /** Writes `col` into column `name` from row position `pos` on, one value
      per row, while rows and values last; a missing column is left out. */
  function PutColumn(f: Frame, name: string, col: seq<Cell>, pos: nat): (r: Frame)
    ensures r.columns == f.columns && |r.rows| == |f.rows|
    ensures forall j :: 0 <= j < |f.rows| ==> r.rows[j].index == f.rows[j].index
    ensures forall j, c :: 0 <= j < |f.rows| && (c != name || name !in f.columns || !(pos <= j < pos + |col|)) ==>
              At(r.rows[j], c) == At(f.rows[j], c)
    ensures name in f.columns ==> forall j :: pos <= j < |f.rows| && j < pos + |col| ==> At(r.rows[j], name) == col[j - pos]
  {
    if name !in f.columns then f
    else Frame(f.columns, seq(|f.rows|, j requires 0 <= j < |f.rows| =>
      if pos <= j < pos + |col| then Row(f.rows[j].index, f.rows[j].cells[name := col[j - pos]]) else f.rows[j]))
  }

  /** The write-back the comment at the call promises: each list value goes
      back into the row it was read from. */
  function WriteLists(d: Frame, l: Lists): (r: Frame)
    ensures r.columns == d.columns && |r.rows| == |d.rows|
  {
    PutColumn(PutColumn(d, "Pump", l.pump, ListRow), "Autotune", FloatCells(l.autotune), ListRow)
  }

  /** Every row from position 2 on shows the chart values computed from its
      own cells; rows 0 and 1, the other columns and all labels are kept. */
  lemma WriteListsInPlace(d: Frame, filter: Option<string>, smooth: (seq<real>, nat, nat) -> seq<real>)
    requires !IsEmpty(d) && "Parameter" in d.columns && "Pump" in d.columns && "Autotune" in d.columns
    ensures var l := GetFilteredData(d, filter, smooth).value;
            var w := WriteLists(d, l);
            (forall j :: 0 <= j < |d.rows| ==> w.rows[j].index == d.rows[j].index)
            && (forall j, c :: 0 <= j < |d.rows| && (j < ListRow || (c != "Pump" && c != "Autotune")) ==>
                  At(w.rows[j], c) == At(d.rows[j], c))
            && (forall j :: ListRow <= j < |d.rows| ==>
                  At(w.rows[j], "Pump") == PumpShown(d.rows[j])
                  && At(w.rows[j], "Autotune") == FloatCell(l.autotune[j - ListRow])
                  && (At(w.rows[j], "Autotune").NaNValue? <==> ConvertToFloat(At(d.rows[j], "Autotune")).NaN?))
  {
  }

  /** `WriteListsInPlace` for one row. */
  lemma WriteListsRow(d: Frame, filter: Option<string>, smooth: (seq<real>, nat, nat) -> seq<real>, j: nat)
    requires !IsEmpty(d) && "Parameter" in d.columns && "Pump" in d.columns && "Autotune" in d.columns
    requires j < |d.rows|
    ensures var l := GetFilteredData(d, filter, smooth).value;
            var w := WriteLists(d, l);
            |w.rows| == |d.rows| && w.rows[j].index == d.rows[j].index
            && (forall c :: (j < ListRow || (c != "Pump" && c != "Autotune")) ==> At(w.rows[j], c) == At(d.rows[j], c))
            && (ListRow <= j ==>
                  |l.autotune| == |d.rows| - ListRow
                  && At(w.rows[j], "Pump") == PumpShown(d.rows[j])
                  && At(w.rows[j], "Autotune") == FloatCell(l.autotune[j - ListRow]))
  {
    WriteListsInPlace(d, filter, smooth);
  }

  /** The written table converted to mmol/L and cleaned for display, the
      steps between the write-back and the last tidy-up. */
  function ConvertAndClean(w: Frame): (r: Result<Frame>)
    ensures r.Ok? ==> r.value.columns == w.columns && |r.value.rows| == Grown(w)
  {
    match IsfConversion(w)
    case Err(e) => Err(e)
    case Ok(g) => CleanValues(g)
  }

  /** The number of rows after the conversion. */
  function Grown(w: Frame): nat {
    if Converts(w) then |w.rows| + IsfCount(w.rows) else |w.rows|
  }

  /** The position of row j once the conversion has run. */
  function Placed(w: Frame, j: nat): nat
    requires j <= |w.rows|
  {
    if Converts(w) then Place(w.rows, j) else j
  }

  /** The label of row j once the conversion has run: the conversion
      resets the labels, otherwise they stay. */
  function PlacedLabel(w: Frame, j: nat): int
    requires j < |w.rows|
  {
    if Converts(w) then Place(w.rows, j) else w.rows[j].index
  }

  /** Whether the Pump value of row j is the one `clean_values` blanks:
      the table has more than three rows and the row is labelled 3. */
  predicate BlankedPump(w: Frame, j: nat)
    requires j < |w.rows|
  {
    Grown(w) > 3 && PlacedLabel(w, j) == 3
  }

  /** Each row of the table after conversion and cleaning, at the place
      the conversion moved it to: Pump and Autotune show their "%.2f" texts
      ("" for NaN, and "" for the blanked Pump value), and every other cell
      is as written, with "nan" shown as "". */
  lemma ConvertAndCleanRow(w: Frame, j: nat)
    requires !IsEmpty(w) && "Pump" in w.columns && "Autotune" in w.columns && j < |w.rows|
    requires ConvertAndClean(w).Ok?
    ensures var g := ConvertAndClean(w).value;
            var src := if BlankedPump(w, j) then Text("") else At(w.rows[j], "Pump");
            Placed(w, j) < |g.rows| && g.rows[Placed(w, j)].index == PlacedLabel(w, j)
            && CastFloat(src).Ok? && At(g.rows[Placed(w, j)], "Pump") == Shown(CastFloat(src).value)
            && CastFloat(At(w.rows[j], "Autotune")).Ok?
            && At(g.rows[Placed(w, j)], "Autotune") == Shown(CastFloat(At(w.rows[j], "Autotune")).value)
            && (forall c :: c != "Pump" && c != "Autotune" ==>
                  At(g.rows[Placed(w, j)], c) == Blank(At(w.rows[j], c)))
  {
    var g3 := IsfConversion(w).value;
    ConversionPlace(w, j);
    assert ConvertAndClean(w) == CleanValues(g3);
    CleanedAs(g3, Placed(w, j), w.rows[j]);
  }

  /** `CleanValuesAt` for a row whose cells are those of `row`. */
  lemma CleanedAs(g: Frame, at: nat, row: Row)
    requires !IsEmpty(g) && "Pump" in g.columns && CleanValues(g).Ok? && at < |g.rows|
    requires g.rows[at].cells == row.cells
    ensures var q := CleanValues(g).value.rows[at];
            q.index == g.rows[at].index
            && CastFloat(PumpSource(g.rows, at)).Ok?
            && At(q, "Pump") == Shown(CastFloat(PumpSource(g.rows, at)).value)
            && CastFloat(At(row, "Autotune")).Ok?
            && At(q, "Autotune") == Shown(CastFloat(At(row, "Autotune")).value)
            && (forall c :: c != "Pump" && c != "Autotune" ==> At(q, c) == Blank(At(row, c)))
  {
    CleanValuesAt(g, at);
    assert forall c :: At(g.rows[at], c) == At(row, c);
  }

  /** The conversion moves row j to `Placed` and gives it `PlacedLabel`,
      keeping its cells. */
  lemma ConversionPlace(w: Frame, j: nat)
    requires "Pump" in w.columns && "Autotune" in w.columns && j < |w.rows|
    ensures IsfConversion(w).Ok?
    ensures var g3 := IsfConversion(w).value;
            g3.columns == w.columns && |g3.rows| == Grown(w)
            && Placed(w, j) < |g3.rows| && g3.rows[Placed(w, j)].index == PlacedLabel(w, j)
            && g3.rows[Placed(w, j)].cells == w.rows[j].cells
            && PumpSource(g3.rows, Placed(w, j)) == if BlankedPump(w, j) then Text("") else At(w.rows[j], "Pump")
  {
    if Converts(w) {
      ConvertedPlace(w, j);
    }
  }

  /** How the Pump value of a table row shows in the end: its "%.2f"
      text, or "" at a half hour and where there is no number. */
  function PumpText(row: Row): Cell {
    match PumpShown(row)
    case Num(x) => Text(Fixed2(x))
    case _ => Text("")
  }

  /** The chart's pump value casts, and shows as `PumpText`. */
  lemma PumpTextCast(row: Row)
    ensures CastFloat(PumpShown(row)).Ok? && Shown(CastFloat(PumpShown(row)).value) == PumpText(row)
  {
    assert ParseFloat("nan") == Some(NaN);
  }

  /** What the table holds after the lists computed from it are written
      back into their own rows, converted and cleaned, row by row at the place the conversion
      moved it to: from position 2 on, the row shows its own chart values
      as "%.2f" texts, its Pump value blank at a half hour, without a
      number, or when it is the one blanked; the rows above keep their own
      values, cleaned; every other cell is as in the table, with "nan"
      shown as "". The mmol/L row is described by `IsfUnits.ConvertedMmolRow`.
      This is the corrected write-back; `FilledCells` states what the
      source's own write-back leaves. */
  lemma FilledCellsIntended(d: Frame, filter: Option<string>, smooth: (seq<real>, nat, nat) -> seq<real>)
    requires !IsEmpty(d) && "Parameter" in d.columns && "Pump" in d.columns && "Autotune" in d.columns
    requires ConvertAndClean(WriteLists(d, GetFilteredData(d, filter, smooth).value)).Ok?
    ensures var l := GetFilteredData(d, filter, smooth).value;
            var w := WriteLists(d, l);
            var g := ConvertAndClean(w).value;
            forall j :: 0 <= j < |d.rows| ==> FilledRow(d, l, w, g, j)
  {
    var l := GetFilteredData(d, filter, smooth).value;
    var w := WriteLists(d, l);
    var g := ConvertAndClean(w).value;
    forall j | 0 <= j < |d.rows|
      ensures FilledRow(d, l, w, g, j)
    {
      FilledRowHolds(d, filter, smooth, j);
    }
  }

  /** Row j of `d` as it shows in `g`, the lists `l` written back into
      `d` as `w`, converted and cleaned. */
  ghost predicate FilledRow(d: Frame, l: Lists, w: Frame, g: Frame, j: nat)
    requires j < |d.rows| && |w.rows| == |d.rows|
    requires |l.autotune| == |d.rows| - ListRow || j < ListRow
  {
    var at := Placed(w, j);
    at < |g.rows| && g.rows[at].index == PlacedLabel(w, j)
    && (forall c :: c != "Pump" && c != "Autotune" ==> At(g.rows[at], c) == Blank(At(d.rows[j], c)))
    && (BlankedPump(w, j) ==> At(g.rows[at], "Pump") == Text(""))
    && (ListRow <= j ==>
          At(g.rows[at], "Autotune") == Shown(l.autotune[j - ListRow])
          && (!BlankedPump(w, j) ==> At(g.rows[at], "Pump") == PumpText(d.rows[j])))
    && (j < ListRow ==>
          CastFloat(At(d.rows[j], "Autotune")).Ok?
          && At(g.rows[at], "Autotune") == Shown(CastFloat(At(d.rows[j], "Autotune")).value)
          && (!BlankedPump(w, j) ==>
                CastFloat(At(d.rows[j], "Pump")).Ok?
                && At(g.rows[at], "Pump") == Shown(CastFloat(At(d.rows[j], "Pump")).value)))
  }

  lemma FilledRowHolds(d: Frame, filter: Option<string>, smooth: (seq<real>, nat, nat) -> seq<real>, j: nat)
    requires !IsEmpty(d) && "Parameter" in d.columns && "Pump" in d.columns && "Autotune" in d.columns
    requires j < |d.rows|
    requires ConvertAndClean(WriteLists(d, GetFilteredData(d, filter, smooth).value)).Ok?
    ensures var l := GetFilteredData(d, filter, smooth).value;
            var w := WriteLists(d, l);
            FilledRow(d, l, w, ConvertAndClean(w).value, j)
  {
    if ListRow <= j {
      FilledListRow(d, filter, smooth, j);
    } else {
      FilledHeadRow(d, filter, smooth, j);
    }
  }

  /** A row the lists are written into. */
  lemma FilledListRow(d: Frame, filter: Option<string>, smooth: (seq<real>, nat, nat) -> seq<real>, j: nat)
    requires !IsEmpty(d) && "Parameter" in d.columns && "Pump" in d.columns && "Autotune" in d.columns
    requires ListRow <= j < |d.rows|
    requires ConvertAndClean(WriteLists(d, GetFilteredData(d, filter, smooth).value)).Ok?
    ensures var l := GetFilteredData(d, filter, smooth).value;
            var w := WriteLists(d, l);
            FilledRow(d, l, w, ConvertAndClean(w).value, j)
  {
    var l := GetFilteredData(d, filter, smooth).value;
    var w := WriteLists(d, l);
    WriteListsRow(d, filter, smooth, j);
    ConvertAndCleanRow(w, j);
    assert CastFloat(Text("")) == Ok(NaN);
    PumpTextCast(d.rows[j]);
    var a := l.autotune[j - ListRow];
    assert CastFloat(FloatCell(a)) == Ok(a);
  }

  /** A row above the lists. */
  lemma FilledHeadRow(d: Frame, filter: Option<string>, smooth: (seq<real>, nat, nat) -> seq<real>, j: nat)
    requires !IsEmpty(d) && "Parameter" in d.columns && "Pump" in d.columns && "Autotune" in d.columns
    requires j < ListRow && j < |d.rows|
    requires ConvertAndClean(WriteLists(d, GetFilteredData(d, filter, smooth).value)).Ok?
    ensures var l := GetFilteredData(d, filter, smooth).value;
            var w := WriteLists(d, l);
            FilledRow(d, l, w, ConvertAndClean(w).value, j)
  {
    var l := GetFilteredData(d, filter, smooth).value;
    var w := WriteLists(d, l);
    WriteListsRow(d, filter, smooth, j);
    ConvertAndCleanRow(w, j);
    assert CastFloat(Text("")) == Ok(NaN);
  }

  /** Row j of `d` as it shows in `g`, the lists `l` written back by the
      source into `d` as `w`, converted and cleaned: a shifted row shows
      the chart values of the row above it, every other row its own values
      cleaned. */
  ghost predicate ShownAsWritten(d: Frame, l: Lists, w: Frame, g: Frame, j: nat)
    requires j < |d.rows| && |w.rows| == |d.rows|
    requires |l.autotune| == |d.rows| - ListRow || !Shifted(d, j)
  {
    var at := Placed(w, j);
    at < |g.rows| && g.rows[at].index == PlacedLabel(w, j)
    && (forall c :: c != "Pump" && c != "Autotune" ==> At(g.rows[at], c) == Blank(At(d.rows[j], c)))
    && (BlankedPump(w, j) ==> At(g.rows[at], "Pump") == Text(""))
    && (Shifted(d, j) ==>
          At(g.rows[at], "Autotune") == Shown(l.autotune[j - 3])
          && (!BlankedPump(w, j) ==> At(g.rows[at], "Pump") == PumpText(d.rows[j - 1])))
    && (!Shifted(d, j) ==>
          CastFloat(At(d.rows[j], "Autotune")).Ok?
          && At(g.rows[at], "Autotune") == Shown(CastFloat(At(d.rows[j], "Autotune")).value)
          && (!BlankedPump(w, j) ==>
                CastFloat(At(d.rows[j], "Pump")).Ok?
                && At(g.rows[at], "Pump") == Shown(CastFloat(At(d.rows[j], "Pump")).value)))
  }

  /** Whether the source's write-back, the conversion and the cleaning go
      through on the lists read from `d`. */
  predicate AsWrittenOkFor(d: Frame, filter: Option<string>, smooth: (seq<real>, nat, nat) -> seq<real>)
    requires GetFilteredData(d, filter, smooth).Ok?
  {
    var w := WriteListsAsWritten(d, GetFilteredData(d, filter, smooth).value);
    w.Ok? && ConvertAndClean(w.value).Ok?
  }

  /** What the table `remove_isf_conversion` leaves (labelled 0, 2, 3, ...)
      holds after the source writes back the lists computed from it and
      converts and cleans it, row by row at the place the conversion moved
      it to: the rows from position 3 to the one before last show, as
      "%.2f" texts, the chart values read from the row above them (Pump
      blank at a half hour of that row, without a number, or when it is the
      one blanked); the other rows, position 2 and the last one included,
      show their own values cleaned; every other cell is as in the table,
      with "nan" shown as "". */
  lemma FilledCells(d: Frame, filter: Option<string>, smooth: (seq<real>, nat, nat) -> seq<real>)
    requires SkipsOne(d.rows) && "Parameter" in d.columns && "Pump" in d.columns && "Autotune" in d.columns
    requires AsWrittenOkFor(d, filter, smooth)
    ensures FilledAsWritten(d, filter, smooth)
  {
    var l := GetFilteredData(d, filter, smooth).value;
    var w := WriteListsAsWritten(d, l).value;
    var g := ConvertAndClean(w).value;
    WrittenFrame(d, l);
    forall j | 0 <= j < |d.rows|
      ensures ShownAsWritten(d, l, w, g, j)
    {
      if Shifted(d, j) {
        FilledShiftedRow(d, filter, smooth, j);
      } else {
        FilledOwnRow(d, filter, smooth, j);
      }
    }
  }

  /** Every row of the table the lists were read from shows in the written,
      converted and cleaned table as `ShownAsWritten` says. */
  ghost predicate FilledAsWritten(d: Frame, filter: Option<string>, smooth: (seq<real>, nat, nat) -> seq<real>)
    requires GetFilteredData(d, filter, smooth).Ok? && AsWrittenOkFor(d, filter, smooth)
  {
    var l := GetFilteredData(d, filter, smooth).value;
    var w := WriteListsAsWritten(d, l).value;
    var g := ConvertAndClean(w).value;
    |w.rows| == |d.rows| && (|d.rows| >= 5 ==> |l.autotune| == |d.rows| - ListRow)
    && forall j :: 0 <= j < |d.rows| ==> ShownAsWritten(d, l, w, g, j)
  }

  /** A row the source writes the value of the row above into. */
  lemma FilledShiftedRow(d: Frame, filter: Option<string>, smooth: (seq<real>, nat, nat) -> seq<real>, j: nat)
    requires SkipsOne(d.rows) && "Parameter" in d.columns && "Pump" in d.columns && "Autotune" in d.columns
    requires AsWrittenOkFor(d, filter, smooth)
    requires j < |d.rows| && Shifted(d, j)
    ensures var l := GetFilteredData(d, filter, smooth).value;
            var w := WriteListsAsWritten(d, l).value;
            |l.autotune| == |d.rows| - ListRow && |w.rows| == |d.rows|
            && ShownAsWritten(d, l, w, ConvertAndClean(w).value, j)
  {
    var l := GetFilteredData(d, filter, smooth).value;
    ListsAsWrittenRow(d, filter, smooth, j);
    ShownShifted(d, l, WriteListsAsWritten(d, l).value, j);
  }

  /** A row the source's write-back leaves alone. */
  lemma FilledOwnRow(d: Frame, filter: Option<string>, smooth: (seq<real>, nat, nat) -> seq<real>, j: nat)
    requires SkipsOne(d.rows) && "Parameter" in d.columns && "Pump" in d.columns && "Autotune" in d.columns
    requires AsWrittenOkFor(d, filter, smooth)
    requires j < |d.rows| && !Shifted(d, j)
    ensures var l := GetFilteredData(d, filter, smooth).value;
            var w := WriteListsAsWritten(d, l).value;
            |w.rows| == |d.rows| && ShownAsWritten(d, l, w, ConvertAndClean(w).value, j)
  {
    var l := GetFilteredData(d, filter, smooth).value;
    ListsAsWrittenRow(d, filter, smooth, j);
    ShownOwn(d, l, WriteListsAsWritten(d, l).value, j);
  }

  /** A shifted row of any written table shows the values written into it. */
  lemma ShownShifted(d: Frame, l: Lists, w: Frame, j: nat)
    requires j < |d.rows| && |w.rows| == |d.rows| && Shifted(d, j) && |l.autotune| == |d.rows| - ListRow
    requires !IsEmpty(w) && "Pump" in w.columns && "Autotune" in w.columns && ConvertAndClean(w).Ok?
    requires forall c :: c != "Pump" && c != "Autotune" ==> At(w.rows[j], c) == At(d.rows[j], c)
    requires At(w.rows[j], "Pump") == PumpShown(d.rows[j - 1])
    requires At(w.rows[j], "Autotune") == FloatCell(l.autotune[j - 3])
    ensures ShownAsWritten(d, l, w, ConvertAndClean(w).value, j)
  {
    ConvertAndCleanRow(w, j);
    assert CastFloat(Text("")) == Ok(NaN);
    PumpTextCast(d.rows[j - 1]);
    var a := l.autotune[j - 3];
    assert CastFloat(FloatCell(a)) == Ok(a);
  }

  /** A row of any written table that kept its own values shows them
      cleaned. */
  lemma ShownOwn(d: Frame, l: Lists, w: Frame, j: nat)
    requires j < |d.rows| && |w.rows| == |d.rows| && !Shifted(d, j)
    requires !IsEmpty(w) && "Pump" in w.columns && "Autotune" in w.columns && ConvertAndClean(w).Ok?
    requires forall c :: c != "Pump" && c != "Autotune" ==> At(w.rows[j], c) == At(d.rows[j], c)
    requires At(w.rows[j], "Pump") == At(d.rows[j], "Pump")
    requires At(w.rows[j], "Autotune") == At(d.rows[j], "Autotune")
    ensures ShownAsWritten(d, l, w, ConvertAndClean(w).value, j)
  {
    ConvertAndCleanRow(w, j);
    assert CastFloat(Text("")) == Ok(NaN);
  }

  /** The sum of the values whose text is not "nan". */
  function ShownSum(cs: seq<Cell>): real {
    if |cs| == 0 then 0.0
    else ShownSum(cs[..|cs| - 1]) + (if cs[|cs| - 1].Num? then cs[|cs| - 1].x else 0.0)
  }

  function FiniteSum(fs: seq<Float>): real {
    if |fs| == 0 then 0.0
    else FiniteSum(fs[..|fs| - 1]) + (if fs[|fs| - 1].Fin? then fs[|fs| - 1].v else 0.0)
  }

  function FloatCells(fs: seq<Float>): (r: seq<Cell>)
    ensures |r| == |fs|
    ensures forall k :: 0 <= k < |fs| ==> r[k] == FloatCell(fs[k])
  {
    seq(|fs|, k requires 0 <= k < |fs| => FloatCell(fs[k]))
  }

  predicate Unnamed(column: string) {
    StartsWith(column, "Unnamed")
  }

  function NamedColumns(columns: seq<string>): (r: seq<string>)
    ensures forall c :: c in r <==> c in columns && !Unnamed(c)
  {
    if |columns| == 0 then []
    else (if Unnamed(columns[0]) then [] else [columns[0]]) + NamedColumns(columns[1..])
  }

  /** The test a column passes to survive the "Unnamed" clean-up. */
  function Named(): string -> bool {
    (c: string) => !Unnamed(c)
  }

  /** The surviving columns keep their order: one per named column, each
      at its rank among them. */
  lemma {:induction false} NamedColumnsKept(columns: seq<string>)
    ensures Kept(columns, Named(), NamedColumns(columns))
  {
    if |columns| > 0 {
      NamedColumnsKept(columns[1..]);
      KeptCons(columns, Named(), NamedColumns(columns[1..]));
    }
  }

  function KeepNamed(r: Row): Row {
    Row(r.index, map c | c in r.cells && !Unnamed(c) :: r.cells[c])
  }

  /** Whether every cell of the row is missing (`dropna(how='all')`). */
  predicate AllMissing(r: Row, columns: seq<string>) {
    forall c :: c in columns ==> IsNA(At(r, c))
  }

  /** The test a row passes to survive `dropna(how='all')`. */
  function HasValue(columns: seq<string>): Row -> bool {
    (x: Row) => !AllMissing(x, columns)
  }

  /** The rows that are not entirely missing, in order. */
  function DropEmptyRows(rows: seq<Row>, columns: seq<string>): (r: seq<Row>)
    ensures forall x :: x in r <==> x in rows && !AllMissing(x, columns)
  {
    if |rows| == 0 then []
    else
      assert rows == [rows[0]] + rows[1..];
      (if HasValue(columns)(rows[0]) then [rows[0]] else []) + DropEmptyRows(rows[1..], columns)
  }

  /** The surviving rows keep their order and duplicates: one per row with
      a value, each at its rank among them. */
  lemma {:induction false} DropEmptyRowsKept(rows: seq<Row>, columns: seq<string>)
    ensures Kept(rows, HasValue(columns), DropEmptyRows(rows, columns))
  {
    if |rows| > 0 {
      DropEmptyRowsKept(rows[1..], columns);
      KeptCons(rows, HasValue(columns), DropEmptyRows(rows[1..], columns));
    }
  }

  /** The last clean-up: no "Unnamed" columns, no empty rows, labels reset. */
  function Tidy(f: Frame): (r: Frame)
    ensures forall c :: c in r.columns <==> c in f.columns && !Unnamed(c)
    ensures forall j :: 0 <= j < |r.rows| ==> r.rows[j].index == j && !AllMissing(r.rows[j], r.columns)
    ensures forall j :: 0 <= j < |r.rows| ==> forall c :: c in r.rows[j].cells ==> !Unnamed(c)
    ensures NoNanText(f.rows) ==> NoNanText(r.rows)
  {
    var columns := NamedColumns(f.columns);
    TidyCells(f.rows, columns);
    Frame(columns, TidiedRows(f.rows, columns))
  }

  /** The rows with a value in one of `columns`, cut to their named cells
      and labelled 0, 1, 2, ... */
  function TidiedRows(rows: seq<Row>, columns: seq<string>): seq<Row> {
    ResetIndex(DropEmptyRows(NamedRows(rows), columns))
  }

  /** The rows the last clean-up keeps carry named cells only, and no
      "nan" text appears that was not there before. */
  lemma TidyCells(rows: seq<Row>, columns: seq<string>)
    ensures forall j :: 0 <= j < |TidiedRows(rows, columns)| ==> !AllMissing(TidiedRows(rows, columns)[j], columns)
    ensures forall j :: 0 <= j < |TidiedRows(rows, columns)| ==>
              forall c :: c in TidiedRows(rows, columns)[j].cells ==> !Unnamed(c)
    ensures NoNanText(rows) ==> NoNanText(TidiedRows(rows, columns))
  {
    var named := NamedRows(rows);
    var kept := DropEmptyRows(named, columns);
    var reset := ResetIndex(kept);
    forall j | 0 <= j < |reset|
      ensures !AllMissing(reset[j], columns)
      ensures forall c :: c in reset[j].cells ==> !Unnamed(c)
      ensures NoNanText(rows) ==> NoNanCells(reset[j].cells)
    {
      assert kept[j] in kept;
      var k :| 0 <= k < |named| && named[k] == kept[j];
      assert reset[j].cells == named[k].cells;
      assert forall c :: At(reset[j], c) == At(kept[j], c);
    }
  }

  function NamedRows(rows: seq<Row>): (r: seq<Row>)
    ensures |r| == |rows|
    ensures forall j :: 0 <= j < |rows| ==> r[j] == KeepNamed(rows[j])
  {
    seq(|rows|, j requires 0 <= j < |rows| => KeepNamed(rows[j]))
  }

  /** Which rows the last clean-up keeps and where: a row with a value in
      a named column sits at its rank among such rows, labelled by that
      rank, with its named cells; there are no other rows. */
  lemma TidyRows(f: Frame)
    ensures var rows := NamedRows(f.rows);
            var keep := HasValue(NamedColumns(f.columns));
            |Tidy(f).rows| == CountWhere(rows, keep)
            && forall j :: 0 <= j < |f.rows| && keep(rows[j]) ==>
                 CountWhere(rows[..j], keep) < |Tidy(f).rows|
                 && Tidy(f).rows[CountWhere(rows[..j], keep)] == Row(CountWhere(rows[..j], keep), KeepNamed(f.rows[j]).cells)
  {
    var rows := NamedRows(f.rows);
    DropEmptyRowsKept(rows, NamedColumns(f.columns));
  }

  predicate NoNanCells(cells: map<string, Cell>) {
    forall c :: c in cells ==> cells[c] != Text("nan")
  }

  /** No cell shows the text "nan". */
  predicate NoNanText(rows: seq<Row>) {
    forall j :: 0 <= j < |rows| ==> NoNanCells(rows[j].cells)
  }

  /** The basal lists to use: the selected filter, or "No filter" when
      that gave nothing. */
  function ChooseLists(d: Frame, filter: Option<string>, smooth: (seq<real>, nat, nat) -> seq<real>)
    : (r: Result<Lists>)
    ensures r.Ok? <==> GetFilteredData(d, filter, smooth).Ok?
  {
    match GetFilteredData(d, filter, smooth)
    case Err(e) => Err(e)
    case Ok(l) =>
      if |l.times| > 0 && |l.pump| > 0 && |l.autotune| > 0 then Ok(l)
      else GetFilteredData(d, Some("No filter"), smooth)
  }

  predicate NoLists(l: Lists) {
    |l.times| == 0 || |l.pump| == 0 || |l.autotune| == 0
  }

  /** The totals `data_preperation` reports, rounded to three decimals. */
  predicate Totals(p: Prepared, l: Lists) {
    p.pumpTotal == Round(ShownSum(l.pump), 3) && p.autotuneTotal == Round(FiniteSum(l.autotune), 3)
  }

  /** What `data_preperation` promises of the table it shows: no "Unnamed"
      column, labels 0, 1, 2, ..., and with a Pump column no "nan" text. */
  predicate Presentable(p: Prepared, columns: seq<string>) {
    (forall c :: c in p.frame.columns ==> !Unnamed(c))
    && (forall j :: 0 <= j < |p.frame.rows| ==> p.frame.rows[j].index == j)
    && ("Pump" in columns ==> NoNanText(p.frame.rows))
  }

  /** `data_preperation(dropdown_value, df)`. */
  function DataPreparation(filter: Option<string>, f: Frame, smooth: (seq<real>, nat, nat) -> seq<real>)
    : (r: Result<Prepared>)
    ensures IsEmpty(f) ==> r == Ok(Prepared(EmptyTable, 0.0, 0.0))
    ensures !IsEmpty(f) && |f.rows| < 2 ==> r == Err(IndexError)
    ensures r.Ok? && !IsEmpty(f) ==>
              var d := RemoveIsfConversion(f).value;
              ChooseLists(d, filter, smooth).Ok?
              && (NoLists(ChooseLists(d, filter, smooth).value) ==> r.value == Prepared(d, 0.0, 0.0))
              && (!NoLists(ChooseLists(d, filter, smooth).value) ==>
                    Totals(r.value, ChooseLists(d, filter, smooth).value) && Presentable(r.value, f.columns))
  {
    if IsEmpty(f) then Ok(Prepared(EmptyTable, 0.0, 0.0))
    else
      match RemoveIsfConversion(f)
      case Err(e) => Err(e)
      case Ok(d) =>
        match ChooseLists(d, filter, smooth)
        case Err(e) => Err(e)
        case Ok(l) =>
          if NoLists(l) then Ok(Prepared(d, 0.0, 0.0))
          else Combine(f, d, l)
  }

  /** `data_preperation` with the corrected write-back: the same steps,
      with every list value going back into the row it was read from. */
  function DataPreparationIntended(filter: Option<string>, f: Frame, smooth: (seq<real>, nat, nat) -> seq<real>)
    : (r: Result<Prepared>)
    ensures IsEmpty(f) ==> r == Ok(Prepared(EmptyTable, 0.0, 0.0))
    ensures !IsEmpty(f) && |f.rows| < 2 ==> r == Err(IndexError)
    ensures r.Ok? && !IsEmpty(f) ==>
              var d := RemoveIsfConversion(f).value;
              ChooseLists(d, filter, smooth).Ok?
              && (NoLists(ChooseLists(d, filter, smooth).value) ==> r.value == Prepared(d, 0.0, 0.0))
              && (!NoLists(ChooseLists(d, filter, smooth).value) ==>
                    Totals(r.value, ChooseLists(d, filter, smooth).value) && Presentable(r.value, f.columns))
  {
    if IsEmpty(f) then Ok(Prepared(EmptyTable, 0.0, 0.0))
    else
      match RemoveIsfConversion(f)
      case Err(e) => Err(e)
      case Ok(d) =>
        match ChooseLists(d, filter, smooth)
        case Err(e) => Err(e)
        case Ok(l) =>
          if NoLists(l) then Ok(Prepared(d, 0.0, 0.0))
          else CombineIntended(f, d, l)
  }

  /** The steps after the write-back: conversion to mmol/L, cleaning, the
      last clean-up, and the totals of the lists. */
  function Finish(w: Frame, l: Lists): (r: Result<Prepared>)
    ensures r.Ok? <==> ConvertAndClean(w).Ok?
    ensures r.Ok? ==> r.value.frame == Tidy(ConvertAndClean(w).value)
    ensures r.Ok? ==> Totals(r.value, l) && Presentable(r.value, w.columns)
  {
    match ConvertAndClean(w)
    case Err(e) => Err(e)
    case Ok(g) =>
      var shown := Tidy(g);
      assert "Pump" in w.columns ==> NoNanText(g.rows);
      assert "Pump" in w.columns ==> NoNanText(shown.rows);
      Ok(Prepared(shown, Round(ShownSum(l.pump), 3), Round(FiniteSum(l.autotune), 3)))
  }

  /** The second half of `data_preperation` as the source does it: the
      lists go back into the table by `adjust_table` from label 4, and the
      table is converted, cleaned and tidied, next to the totals. */
  function Combine(f: Frame, d: Frame, l: Lists): (r: Result<Prepared>)
    requires RemoveIsfConversion(f) == Ok(d)
    ensures r.Ok? ==> Totals(r.value, l) && Presentable(r.value, f.columns)
    ensures r.Ok? <==> WriteListsAsWritten(d, l).Ok? && ConvertAndClean(WriteListsAsWritten(d, l).value).Ok?
    ensures r.Ok? ==> r.value.frame == Tidy(ConvertAndClean(WriteListsAsWritten(d, l).value).value)
  {
    match WriteListsAsWritten(d, l)
    case Err(e) => Err(e)
    case Ok(w) => Finish(w, l)
  }

  /** The second half with the corrected write-back. */
  function CombineIntended(f: Frame, d: Frame, l: Lists): (r: Result<Prepared>)
    requires RemoveIsfConversion(f) == Ok(d)
    ensures r.Ok? ==> Totals(r.value, l) && Presentable(r.value, f.columns)
    ensures r.Ok? <==> ConvertAndClean(WriteLists(d, l)).Ok?
    ensures r.Ok? ==> r.value.frame == Tidy(ConvertAndClean(WriteLists(d, l)).value)
  {
    Finish(WriteLists(d, l), l)
  }

  /** The cells of the table `data_preperation` returns for a table the
      dashboard builds (labelled 0, 1, 2, ...): the tidy-up of the table
      whose rows `ShownAsWritten` describes, one per row left after the
      first drop, the shifted rows showing the chart values of the row
      above them. */
  lemma CombineCells(f: Frame, d: Frame, filter: Option<string>, smooth: (seq<real>, nat, nat) -> seq<real>)
    requires forall j :: 0 <= j < |f.rows| ==> f.rows[j].index == j
    requires RemoveIsfConversion(f) == Ok(d)
    requires !IsEmpty(d) && "Parameter" in d.columns && "Pump" in d.columns && "Autotune" in d.columns
    requires Combine(f, d, GetFilteredData(d, filter, smooth).value).Ok?
    ensures AsWrittenOkFor(d, filter, smooth) && FilledAsWritten(d, filter, smooth)
    ensures var l := GetFilteredData(d, filter, smooth).value;
            Combine(f, d, l).value.frame == Tidy(ConvertAndClean(WriteListsAsWritten(d, l).value).value)
  {
    DropLeavesSkip(f);
    FilledCells(d, filter, smooth);
  }

  /** The same for the corrected write-back: the tidy-up of the table
      whose rows `FilledRow` describes. */
  lemma CombineCellsIntended(f: Frame, d: Frame, filter: Option<string>, smooth: (seq<real>, nat, nat) -> seq<real>)
    requires RemoveIsfConversion(f) == Ok(d)
    requires !IsEmpty(d) && "Parameter" in d.columns && "Pump" in d.columns && "Autotune" in d.columns
    requires CombineIntended(f, d, GetFilteredData(d, filter, smooth).value).Ok?
    ensures var l := GetFilteredData(d, filter, smooth).value;
            var w := WriteLists(d, l);
            var g := ConvertAndClean(w).value;
            CombineIntended(f, d, l).value.frame == Tidy(g)
            && forall j :: 0 <= j < |d.rows| ==> FilledRow(d, l, w, g, j)
  {
    FilledCellsIntended(d, filter, smooth);
  }

  /** Retrying without a filter never helps: the lists are as long as the
      table minus its first two rows whatever the filter. */
  lemma RetryGivesSameLength(d: Frame, filter: Option<string>, smooth: (seq<real>, nat, nat) -> seq<real>)
    requires GetFilteredData(d, filter, smooth).Ok?
    ensures GetFilteredData(d, Some("No filter"), smooth).Ok?
    ensures |GetFilteredData(d, Some("No filter"), smooth).value.times|
         == |GetFilteredData(d, filter, smooth).value.times|
  {
  }

  /** With fewer than three rows after the first clean-up the lists are
      empty, so the table comes back as it was with zero totals. */
  lemma ShortTable(filter: Option<string>, f: Frame, smooth: (seq<real>, nat, nat) -> seq<real>)
    requires !IsEmpty(f) && 2 <= |f.rows|
    requires |RemoveIsfConversion(f).value.rows| <= 2
    requires "Pump" in f.columns && "Autotune" in f.columns
    ensures DataPreparation(filter, f, smooth) == Ok(Prepared(RemoveIsfConversion(f).value, 0.0, 0.0))
  {
    var d := RemoveIsfConversion(f).value;
    if !IsEmpty(d) && "Parameter" in d.columns {
      assert |GetFilteredData(d, filter, smooth).value.times| == 0;
    }
  }
}

=== FILE: profile_json.dfy ===
/** dash_app.py, `manage_generated_profile_display`: the Nightscout
    profile built from the rows of the recommendation table. The rows are
    scanned for the ISF, the carb ratio and the basal rates; the basal
    rates become the basal schedule, with a single default entry when none
    was found. The profile name, start date and time stamp come from the
    clock and the time zone from the system: the time zone is a parameter
    and the clock values are not part of this model. */
module ProfileJson {
  import opened PyValues
  import opened Text
  import opened Seqs

  /** A row of the recommendation table as the page holds it. */
  type Record = map<string, Cell>

  /** A key of the dict the scan fills: never assigned, or assigned a
      float or None. */
  datatype Slot = Unset | Assigned(value: Option<Float>)

  /** A basal rate found by the scan: the row's label and its rate. */
  datatype BasalRate = BasalRate(time: string, rate: Float)

  /** What the row scan collects. */
  datatype Scan = Scan(isf: Slot, carbRatio: Slot, rates: seq<BasalRate>)

  /** One entry of the OpenAPS basal profile. */
  datatype Basal = Basal(i: nat, minutes: int, start: string, rate: Float)

  /** One entry of a Nightscout schedule. */
  datatype NsEntry = NsEntry(time: string, value: Option<Float>, timeAsSeconds: int)

  /** The profile stored under the generated name. */
  datatype Store = Store(
    dia: real,
    carbratio: seq<NsEntry>,
    carbsHr: int,
    delay: int,
    sens: seq<NsEntry>,
    timezone: string,
    basal: seq<NsEntry>,
    targetLow: seq<NsEntry>,
    targetHigh: seq<NsEntry>,
    units: string)

  /** What the callback shows: the missing-data message, the profile, or
      the text of the exception that ended the build. */
  datatype Outcome = NoRecommendations | Generated(store: Store) | Failed(error: PyError)

  const DefaultCarbRatio: real := 9.0
  const DefaultIsf: real := 41.4
  const Dia: real := 8.0

  /** The labels a basal row may carry once its ':' are removed: the 48
      half hours "0000", "0030", "0100", ..., "2330", in order. */
  function Labels(): (r: seq<string>)
    ensures |r| == 48
  {
    seq(48, LabelAt)
  }

  /** Hour k / 2, on the hour for even k and at half past for odd k. */
  function LabelAt(k: int): string
    requires 0 <= k < 48
  {
    Pad2(k / 2) + MinuteText(k % 2 == 1)
  }

  const DefaultBasal: Basal := Basal(0, 0, "00:00:00", Fin(0.5))

  // ---------------------------------------------------------------- row scan

  /** `row.get(key, '')`. */
  function Get(row: Record, key: string): Cell {
    if key in row then row[key] else Text("")
  }

  function Param(row: Record): Cell {
    Get(row, "Parameter")
  }

  function Recommended(row: Record): Cell {
    Get(row, "Autotune")
  }

  predicate IsIsfParam(p: string) {
    Contains(p, "ISF") && Contains(p, "mg/dL")
  }

  predicate IsCarbParam(p: string) {
    Contains(p, "CarbRatio")
  }

  /** A non-empty Parameter that is not a string: the `in` test on it
      raises TypeError. */
  predicate BadParam(row: Record) {
    Truthy(Param(row)) && !Param(row).Text?
  }

  /** The two keys the scan may assign. */
  datatype Key = IsfKey | CarbKey

  /** Whether the row's Parameter selects the key's branch. */
  predicate Selects(key: Key, row: Record) {
    Truthy(Param(row)) && Param(row).Text?
    && match key
       case IsfKey => IsIsfParam(Param(row).s)
       case CarbKey => !IsIsfParam(Param(row).s) && IsCarbParam(Param(row).s)
  }

  /** Whether the row assigns the key: an empty value gives None, and a
      value `float()` rejects leaves the key as it was. */
  predicate Sets(key: Key, row: Record) {
    Selects(key, row) && (!Truthy(Recommended(row)) || ToFloat(Recommended(row)).Ok?)
  }

  /** The value an assigning row writes. */
  function Assignment(c: Cell): Option<Float> {
    if !Truthy(c) then None
    else match ToFloat(c)
      case Ok(f) => Some(f)
      case Err(_) => None
  }

  /** Whether the row adds a basal rate: a whitelisted label and a value
      `float()` accepts. */
  predicate TakesRate(row: Record) {
    Truthy(Param(row)) && Param(row).Text?
    && !IsIsfParam(Param(row).s) && !IsCarbParam(Param(row).s)
    && RemoveChar(Param(row).s, ':') in Labels()
    && Truthy(Recommended(row)) && ToFloat(Recommended(row)).Ok?
  }

  function RateOf(row: Record): BasalRate
    requires TakesRate(row)
  {
    BasalRate(Param(row).s, ToFloat(Recommended(row)).value)
  }

  function SlotOf(s: Scan, key: Key): Slot {
    match key
    case IsfKey => s.isf
    case CarbKey => s.carbRatio
  }

  /** One pass of the loop body over a row. */
  function Step(s: Scan, row: Record): (r: Result<Scan>)
    ensures r.Err? <==> BadParam(row)
    ensures r.Ok? ==> forall key :: SlotOf(r.value, key) == if Sets(key, row) then Assigned(Assignment(Recommended(row))) else SlotOf(s, key)
    ensures r.Ok? ==> r.value.rates == s.rates + RateList(row)
  {
    var param := Param(row);
    var rec := Recommended(row);
    if !Truthy(param) then Ok(s)
    else if !param.Text? then Err(TypeError("argument of type 'float' is not iterable"))
    else if IsIsfParam(param.s) then
      Ok(if Sets(IsfKey, row) then s.(isf := Assigned(Assignment(rec))) else s)
    else if IsCarbParam(param.s) then
      Ok(if Sets(CarbKey, row) then s.(carbRatio := Assigned(Assignment(rec))) else s)
    else if TakesRate(row) then Ok(s.(rates := s.rates + [RateOf(row)]))
    else Ok(s)
  }

  const EmptyScan: Scan := Scan(Unset, Unset, [])

  /** The loop over all rows, in order. */
  function ScanAll(rows: seq<Record>): (r: Result<Scan>)
  {
    if |rows| == 0 then Ok(EmptyScan)
    else
      match ScanAll(rows[..|rows| - 1])
      case Err(e) => Err(e)
      case Ok(s) => Step(s, rows[|rows| - 1])
  }

  /** The basal rates in row order: a reference definition read from the
      front. */
  function RatesOf(rows: seq<Record>): seq<BasalRate> {
    Gather(rows, RateList)
  }

  /** The rate a row contributes: one, or none. */
  function RateList(row: Record): seq<BasalRate> {
    if TakesRate(row) then [RateOf(row)] else []
  }

  lemma RatesOfAppend(rows: seq<Record>, row: Record)
    ensures RatesOf(rows + [row]) == RatesOf(rows) + RateList(row)
  {
    GatherAppend(rows, row, RateList);
  }

  /** The scan fails exactly when some row's Parameter is a non-empty
      non-string. */
  lemma {:induction false} ScanFails(rows: seq<Record>)
    ensures ScanAll(rows).Err? <==> exists k :: 0 <= k < |rows| && BadParam(rows[k])
  {
    if |rows| > 0 {
      var init := rows[..|rows| - 1];
      ScanFails(init);
      assert forall k :: 0 <= k < |init| ==> init[k] == rows[k];
      if exists k :: 0 <= k < |rows| && BadParam(rows[k]) {
        var k :| 0 <= k < |rows| && BadParam(rows[k]);
        if k < |init| {
          assert BadParam(init[k]);
        }
      }
    }
  }

  /** The basal rates collected are those of the rows that take one, in
      row order. */
  lemma {:induction false} ScanRates(rows: seq<Record>)
    requires ScanAll(rows).Ok?
    ensures ScanAll(rows).value.rates == RatesOf(rows)
  {
    if |rows| > 0 {
      var init := rows[..|rows| - 1];
      var last := rows[|rows| - 1];
      ScanAllLast(rows);
      ScanRates(init);
      RatesOfAppend(init, last);
      FrontLast(rows);
    }
  }

  /** The scan of all rows extends the scan of all but the last one by
      that row's rate. */
  lemma ScanAllLast(rows: seq<Record>)
    requires |rows| > 0 && ScanAll(rows).Ok?
    ensures ScanAll(rows[..|rows| - 1]).Ok?
    ensures ScanAll(rows).value.rates == ScanAll(rows[..|rows| - 1]).value.rates + RateList(rows[|rows| - 1])
  {
  }

  /** A key never assigned by any row stays absent. */
  lemma {:induction false} ScanUnset(rows: seq<Record>, key: Key)
    requires ScanAll(rows).Ok?
    requires forall k :: 0 <= k < |rows| ==> !Sets(key, rows[k])
    ensures SlotOf(ScanAll(rows).value, key) == Unset
  {
    if |rows| > 0 {
      var init := rows[..|rows| - 1];
      assert forall k :: 0 <= k < |init| ==> init[k] == rows[k];
      ScanUnset(init, key);
    }
  }

  /** Later rows overwrite earlier ones: the key holds what the last
      assigning row wrote. */
  lemma {:induction false} ScanLast(rows: seq<Record>, key: Key, k: nat)
    requires ScanAll(rows).Ok?
    requires k < |rows| && Sets(key, rows[k])
    requires forall j :: k < j < |rows| ==> !Sets(key, rows[j])
    ensures SlotOf(ScanAll(rows).value, key) == Assigned(Assignment(Recommended(rows[k])))
  {
    var init := rows[..|rows| - 1];
    if k < |rows| - 1 {
      assert forall j :: 0 <= j < |init| ==> init[j] == rows[j];
      ScanLast(init, key, k);
    }
  }

  // ---------------------------------------------------------------- basal profile

  /** `s[n:]` for n >= 0. */
  function DropFirst(s: string, n: nat): (t: string)
    ensures |t| == if n < |s| then |s| - n else 0
  {
    if n < |s| then s[n..] else ""
  }

  /** The basal entry for the i-th rate: minutes from the hours and
      minutes around the first ':' (a label without ':' is read entirely
      as hours), and the start text with seconds. Err is the ValueError of
      `int()` on an empty part. */
  function BasalOf(i: nat, b: BasalRate): (r: Result<Basal>)
    ensures r.Ok? ==> r.value.i == i && r.value.rate == b.rate
  {
    var parts := Split(b.time, ':');
    match ParseInt(parts[0])
    case None => Err(ValueError("invalid literal for int() with base 10: " + parts[0]))
    case Some(h) =>
      var m := if |parts| > 1 then ParseInt(parts[1]) else Some(0);
      match m
      case None => Err(ValueError("invalid literal for int() with base 10: " + parts[1]))
      case Some(mm) =>
        var start := if ':' in b.time then b.time + ":00"
                     else Take(b.time, 2) + ":" + DropFirst(b.time, 2) + ":00";
        Ok(Basal(i, h * 60 + mm, start, b.rate))
  }

  /** `f` applied to each element with its position; the first failure
      ends the loop. */
  function Numbered<A, B>(xs: seq<A>, f: (nat, A) -> Result<B>): (r: Result<seq<B>>)
    ensures r.Ok? ==> |r.value| == |xs|
  {
    if |xs| == 0 then Ok([])
    else
      var n := |xs| - 1;
      match Numbered(xs[..n], f)
      case Err(e) => Err(e)
      case Ok(init) =>
        match f(n, xs[n])
        case Err(e) => Err(e)
        case Ok(last) => Ok(init + [last])
  }

  /** The elements are handled independently: the loop fails exactly when
      one element fails, and otherwise result k is element k's. */
  lemma {:induction false} NumberedSpec<A, B>(xs: seq<A>, f: (nat, A) -> Result<B>)
    ensures Numbered(xs, f).Ok? <==> forall k :: 0 <= k < |xs| ==> f(k, xs[k]).Ok?
    ensures Numbered(xs, f).Ok? ==> forall k :: 0 <= k < |xs| ==> Numbered(xs, f).value[k] == f(k, xs[k]).value
  {
    if |xs| > 0 {
      var n := |xs| - 1;
      var init := xs[..n];
      NumberedSpec(init, f);
      assert forall k :: 0 <= k < n ==> init[k] == xs[k];
      if Numbered(init, f).Ok? && f(n, xs[n]).Ok? {
        var all := Numbered(init, f).value + [f(n, xs[n]).value];
        assert Numbered(xs, f).value == all;
        assert forall k :: 0 <= k < n ==> all[k] == Numbered(init, f).value[k];
      } else if Numbered(init, f).Err? {
        var k :| 0 <= k < n && !f(k, init[k]).Ok?;
        assert !f(k, xs[k]).Ok?;
      }
    }
  }

  /** The basal profile: one entry per rate, numbered by position, or the
      single default entry when no rate was found. */
  function BasalProfile(rates: seq<BasalRate>): (r: Result<seq<Basal>>)
    ensures |rates| == 0 ==> r == Ok([DefaultBasal])
    ensures |rates| > 0 ==> (r.Ok? <==> forall k :: 0 <= k < |rates| ==> BasalOf(k, rates[k]).Ok?)
    ensures r.Ok? && |rates| > 0 ==>
              |r.value| == |rates| && forall k :: 0 <= k < |rates| ==> r.value[k].i == k && r.value[k].rate == rates[k].rate
  {
    if |rates| == 0 then Ok([DefaultBasal])
    else
      NumberedSpec(rates, BasalOf);
      Numbered(rates, BasalOf)
  }

  // ---------------------------------------------------------------- Nightscout profile

  /** `dict.get(key, default)`: a key assigned None stays None. */
  function Value(slot: Slot, default: real): (r: Option<Float>)
    ensures slot.Unset? ==> r == Some(Fin(default))
    ensures slot.Assigned? ==> r == slot.value
  {
    match slot
    case Unset => Some(Fin(default))
    case Assigned(v) => v
  }

  /** The Nightscout basal entry: the start without seconds and the start
      in seconds. */
  function NsBasal(b: Basal): (e: NsEntry)
    ensures e.time == Take(b.start, 5) && e.value == Some(b.rate) && e.timeAsSeconds == 60 * b.minutes
  {
    NsEntry(Take(b.start, 5), Some(b.rate), b.minutes * 60)
  }

  function NsBasals(bs: seq<Basal>): (r: seq<NsEntry>)
    ensures |r| == |bs|
    ensures forall k :: 0 <= k < |bs| ==> r[k] == NsBasal(bs[k])
  {
    seq(|bs|, k requires 0 <= k < |bs| => NsBasal(bs[k]))
  }

  function Midnight(v: Option<Float>): NsEntry {
    NsEntry("00:00", v, 0)
  }

  /** The profile built from the scan and the basal profile. */
  function StoreOf(s: Scan, basal: seq<Basal>, timezone: string): (r: Store)
    ensures r.carbratio == [Midnight(Value(s.carbRatio, DefaultCarbRatio))]
    ensures r.sens == [Midnight(Value(s.isf, DefaultIsf))]
    ensures r.basal == NsBasals(basal) && r.dia == Dia && r.timezone == timezone
  {
    Store(Dia, [Midnight(Value(s.carbRatio, DefaultCarbRatio))], 30, 20,
          [Midnight(Value(s.isf, DefaultIsf))], timezone, NsBasals(basal),
          [Midnight(Some(Fin(4.5)))], [Midnight(Some(Fin(5.0)))], "mmol")
  }

  /** The callback's answer to the "show generated profile" click. */
  function GenerateProfile(rows: seq<Record>, timezone: string): (r: Outcome)
    ensures r.NoRecommendations? <==> |rows| == 0
    ensures r.Failed? <==> |rows| > 0 && ((exists k :: 0 <= k < |rows| && BadParam(rows[k]))
                                          || BasalProfile(RatesOf(rows)).Err?)
    ensures r.Generated? ==>
              ScanAll(rows).Ok? &&
              var s := ScanAll(rows).value;
              r.store == StoreOf(s, BasalProfile(RatesOf(rows)).value, timezone)
              && |r.store.basal| == (if |RatesOf(rows)| == 0 then 1 else |RatesOf(rows)|)
  {
    ScanFails(rows);
    if |rows| == 0 then NoRecommendations
    else
      match ScanAll(rows)
      case Err(e) => Failed(e)
      case Ok(s) =>
        ScanRates(rows);
        match BasalProfile(s.rates)
        case Err(e) => Failed(e)
        case Ok(basal) => Generated(StoreOf(s, basal, timezone))
  }

  /** The schedule the key ends up in, and its default. */
  function Written(st: Store, key: Key): seq<NsEntry> {
    match key
    case IsfKey => st.sens
    case CarbKey => st.carbratio
  }

  function DefaultOf(key: Key): real {
    match key
    case IsfKey => DefaultIsf
    case CarbKey => DefaultCarbRatio
  }

  /** The default carb ratio and ISF are used only when no row assigned
      the key. */
  lemma GeneratedDefault(rows: seq<Record>, timezone: string, key: Key)
    requires GenerateProfile(rows, timezone).Generated?
    requires forall k :: 0 <= k < |rows| ==> !Sets(key, rows[k])
    ensures Written(GenerateProfile(rows, timezone).store, key) == [Midnight(Some(Fin(DefaultOf(key))))]
  {
    ScanUnset(rows, key);
  }

  /** Otherwise the profile holds what the last assigning row wrote, None
      for an empty value included. */
  lemma GeneratedLast(rows: seq<Record>, timezone: string, key: Key, k: nat)
    requires GenerateProfile(rows, timezone).Generated?
    requires k < |rows| && Sets(key, rows[k])
    requires forall j :: k < j < |rows| ==> !Sets(key, rows[j])
    ensures Written(GenerateProfile(rows, timezone).store, key) == [Midnight(Assignment(Recommended(rows[k])))]
  {
    ScanLast(rows, key, k);
  }

  /** The basal schedule: the default 0.5 U/h from midnight when no row
      gave a rate, otherwise one entry per rate in row order. */
  lemma GeneratedBasal(rows: seq<Record>, timezone: string)
    requires GenerateProfile(rows, timezone).Generated?
    ensures var basal := GenerateProfile(rows, timezone).store.basal;
            var rates := RatesOf(rows);
            (|rates| == 0 ==> basal == [NsEntry("00:00", Some(Fin(0.5)), 0)])
            && (forall k :: 0 <= k < |rates| ==> basal[k].value == Some(rates[k].rate))
  {
    var bp := BasalProfile(RatesOf(rows)).value;
    assert GenerateProfile(rows, timezone).store.basal == NsBasals(bp);
    BasalEntries(RatesOf(rows));
  }

  /** The Nightscout entries of a basal profile: the default from midnight
      without rates, otherwise one entry per rate carrying it. */
  lemma BasalEntries(rates: seq<BasalRate>)
    requires BasalProfile(rates).Ok?
    ensures |rates| == 0 ==> NsBasals(BasalProfile(rates).value) == [NsEntry("00:00", Some(Fin(0.5)), 0)]
    ensures forall k :: 0 <= k < |rates| ==> NsBasals(BasalProfile(rates).value)[k].value == Some(rates[k].rate)
  {
    if |rates| == 0 {
      assert Take(DefaultBasal.start, 5) == "00:00";
    }
  }

  // ---------------------------------------------------------------- labels and times

  /** A half-hour label "HHMM": hours below 24, minutes 00 or 30. */
  predicate HalfHourLabel(s: string) {
    |s| == 4 && AllDigits(s) && DigitsValue(s[..2]) < 24 && (s[2..] == "00" || s[2..] == "30")
  }

  function MinuteText(half: bool): string {
    if half then "30" else "00"
  }

  function MinuteValue(half: bool): nat {
    if half then 30 else 0
  }

  lemma MinuteTextValue(half: bool)
    ensures |MinuteText(half)| == 2 && AllDigits(MinuteText(half)) && DigitsValue(MinuteText(half)) == MinuteValue(half)
  {
    TwoDigitsValue(MinuteText(half));
  }

  /** Two-digit texts are equal when their values are. */
  lemma TwoDigitsEqual(a: string, b: string)
    requires |a| == 2 && |b| == 2 && AllDigits(a) && AllDigits(b) && DigitsValue(a) == DigitsValue(b)
    ensures a == b
  {
    TwoDigitsValue(a);
    TwoDigitsValue(b);
    assert a[0] as int == '0' as int + DigitValue(a[0]);
    assert b[0] as int == '0' as int + DigitValue(b[0]);
  }

  /** The 48 labels are exactly the half hours of the day. */
  lemma LabelsAreHalfHours(s: string)
    ensures s in Labels() <==> HalfHourLabel(s)
  {
    if s in Labels() {
      var k :| 0 <= k < |Labels()| && Labels()[k] == s;
      LabelIsHalfHour(k);
    }
    if HalfHourLabel(s) {
      HalfHourListed(s);
    }
  }

  /** Each of the 48 labels is a half-hour label. */
  lemma LabelIsHalfHour(k: nat)
    requires k < 48
    ensures HalfHourLabel(LabelAt(k))
  {
    var hh := Pad2(k / 2);
    var mm := MinuteText(k % 2 == 1);
    var s := hh + mm;
    MinuteTextValue(k % 2 == 1);
    assert s[..2] == hh && s[2..] == mm;
    assert AllDigits(s) by {
      assert forall i :: 0 <= i < 4 ==> s[i] == if i < 2 then hh[i] else mm[i - 2];
    }
  }

  /** Each half-hour label is one of the 48. */
  lemma HalfHourListed(s: string)
    requires HalfHourLabel(s)
    ensures s in Labels()
  {
    var h := DigitsValue(s[..2]);
    var half := s[2..] == "30";
    TwoDigitsEqual(Pad2(h), s[..2]);
    assert s == Pad2(h) + MinuteText(half) by {
      assert s == s[..2] + s[2..];
    }
    PlainListed(h, half);
  }

  /** A label "HH:MM": the entry starts at HH:MM:00, the Nightscout entry
      shows HH:MM and starts 3600 HH + 60 MM seconds into the day. */
  lemma ColonLabel(i: nat, h: nat, half: bool, rate: Float)
    requires h < 24
    ensures var text := Pad2(h) + ":" + MinuteText(half);
            RemoveChar(text, ':') in Labels()
            && BasalOf(i, BasalRate(text, rate)) == Ok(Basal(i, 60 * h + MinuteValue(half), text + ":00", rate))
            && NsBasal(BasalOf(i, BasalRate(text, rate)).value) == NsEntry(text, Some(rate), 3600 * h + 60 * MinuteValue(half))
  {
    var text := Pad2(h) + ":" + MinuteText(half);
    ColonListed(h, half);
    ColonEntry(i, h, half, rate);
    assert Take(text + ":00", 5) == text;
  }

  /** The label with its ':' taken out is on the half-hour list. */
  lemma ColonListed(h: nat, half: bool)
    requires h < 24
    ensures RemoveChar(Pad2(h) + ":" + MinuteText(half), ':') in Labels()
  {
    MinuteTextValue(half);
    ColonParts(Pad2(h), MinuteText(half));
    PlainListed(h, half);
  }

  /** The basal entry of an "HH:MM" label. */
  lemma ColonEntry(i: nat, h: nat, half: bool, rate: Float)
    requires h < 24
    ensures var text := Pad2(h) + ":" + MinuteText(half);
            BasalOf(i, BasalRate(text, rate)) == Ok(Basal(i, 60 * h + MinuteValue(half), text + ":00", rate))
  {
    var hh := Pad2(h);
    var mm := MinuteText(half);
    MinuteTextValue(half);
    ColonParts(hh, mm);
    BasalOfParts(i, hh + ":" + mm, hh, mm, h, MinuteValue(half), rate);
  }

  /** The entry of a label made of two digit groups around a ':'. */
  lemma BasalOfParts(i: nat, text: string, hh: string, mm: string, a: nat, b: nat, rate: Float)
    requires ':' in text && Split(text, ':') == [hh, mm]
    requires AllDigits(hh) && |hh| > 0 && DigitsValue(hh) == a
    requires AllDigits(mm) && |mm| > 0 && DigitsValue(mm) == b
    ensures BasalOf(i, BasalRate(text, rate)) == Ok(Basal(i, 60 * a + b, text + ":00", rate))
  {
    assert ParseInt(hh) == Some(a) && ParseInt(mm) == Some(b);
  }

  /** "HH:MM" splits into its two digit pairs, and without its ':' reads
      HHMM. */
  lemma ColonParts(hh: string, mm: string)
    requires |hh| == 2 && |mm| == 2 && AllDigits(hh) && AllDigits(mm)
    ensures Split(hh + ":" + mm, ':') == [hh, mm]
    ensures ':' in hh + ":" + mm
    ensures RemoveChar(hh + ":" + mm, ':') == hh + mm
  {
    assert ':' !in hh && ':' !in mm by {
      assert forall k :: 0 <= k < 2 ==> IsDigit(hh[k]) && IsDigit(mm[k]);
    }
    SplitPair(hh, mm, ':');
    assert hh + ":" + mm == hh + [':'] + mm;
    assert (hh + ":" + mm)[2] == ':';
    RemoveColon(hh, mm);
  }

  /** Removing the ':' between two digit pairs joins them. */
  lemma RemoveColon(a: string, b: string)
    requires |a| == 2 && |b| == 2 && AllDigits(a) && AllDigits(b)
    ensures RemoveChar(a + ":" + b, ':') == a + b
  {
    assert ':' !in a && ':' !in b by {
      assert forall k :: 0 <= k < 2 ==> IsDigit(a[k]) && IsDigit(b[k]);
    }
    RemoveCharAppend(a + ":", b, ':');
    RemoveCharAppend(a, ":", ':');
    RemoveCharAbsent(a, ':');
    RemoveCharAbsent(b, ':');
    assert RemoveChar(":", ':') == "";
  }

  /** A label without ':' is read entirely as hours: "HHMM" becomes
      HHMM * 60 minutes, although its start text still shows HH:MM. */
  lemma PlainLabel(i: nat, h: nat, half: bool, rate: Float)
    requires h < 24
    ensures var text := Pad2(h) + MinuteText(half);
            var minutes := 60 * (100 * h + MinuteValue(half));
            text in Labels()
            && BasalOf(i, BasalRate(text, rate)) == Ok(Basal(i, minutes, Pad2(h) + ":" + MinuteText(half) + ":00", rate))
            && NsBasal(BasalOf(i, BasalRate(text, rate)).value) == NsEntry(Pad2(h) + ":" + MinuteText(half), Some(rate), 60 * minutes)
  {
    var hh := Pad2(h);
    var mm := MinuteText(half);
    PlainListed(h, half);
    PlainEntry(i, h, half, rate);
    assert Take(hh + ":" + mm + ":00", 5) == hh + ":" + mm;
  }

  /** The plain label is on the half-hour list. */
  lemma PlainListed(h: nat, half: bool)
    requires h < 24
    ensures Pad2(h) + MinuteText(half) in Labels()
  {
    assert Labels()[2 * h + (if half then 1 else 0)] == Pad2(h) + MinuteText(half);
  }

  /** The basal entry of an "HHMM" label. */
  lemma PlainEntry(i: nat, h: nat, half: bool, rate: Float)
    requires h < 24
    ensures var hh := Pad2(h);
            var mm := MinuteText(half);
            BasalOf(i, BasalRate(hh + mm, rate)) == Ok(Basal(i, 60 * (100 * h + MinuteValue(half)), hh + ":" + mm + ":00", rate))
  {
    var hh := Pad2(h);
    var mm := MinuteText(half);
    MinuteTextValue(half);
    PlainParts(hh, mm);
    assert ParseInt(hh + mm) == Some(100 * h + MinuteValue(half));
  }

  /** "HHMM" has no ':', reads as the number HHMM, and splits after its
      second character into HH and MM. */
  lemma PlainParts(hh: string, mm: string)
    requires |hh| == 2 && |mm| == 2 && AllDigits(hh) && AllDigits(mm)
    ensures ':' !in hh + mm && Split(hh + mm, ':') == [hh + mm]
    ensures AllDigits(hh + mm) && DigitsValue(hh + mm) == 100 * DigitsValue(hh) + DigitsValue(mm)
    ensures Take(hh + mm, 2) == hh && DropFirst(hh + mm, 2) == mm
  {
    var text := hh + mm;
    assert forall k :: 0 <= k < 4 ==> IsDigit(text[k]);
    DigitsAppend(hh, mm[0]);
    DigitsAppend(hh + [mm[0]], mm[1]);
    assert text == hh + [mm[0]] + [mm[1]];
    TwoDigitsValue(mm);
  }

  /** "0130" is half past one in the whitelist, but its entry starts 7800
      minutes (130 hours) into the profile. */
  lemma HalfPastOnePlain(rate: Float)
    ensures NsBasal(BasalOf(0, BasalRate("0130", rate)).value) == NsEntry("01:30", Some(rate), 468000)
  {
    var t := Pad2(1) + MinuteText(true);
    assert Pad2(1) == "01";
    assert t == "0130";
    assert Pad2(1) + ":" + MinuteText(true) == "01:30";
    PlainLabel(0, 1, true, rate);
  }

  /** A label starting with ':' passes the whitelist but leaves `int()` an
      empty hour part, so the whole build fails. */
  lemma LeadingColon(rate: Float)
    ensures RemoveChar(":0000", ':') in Labels()
    ensures BasalOf(0, BasalRate(":0000", rate)).Err?
  {
    assert ":0000"[0] == ':';
    assert RemoveChar(":0000", ':') == "0000" by {
      RemoveCharAbsent("0000", ':');
      assert ":0000"[1..] == "0000";
    }
    assert Labels()[0] == "0000" by {
      assert Pad2(0) == "00";
    }
    var parts := Split(":0000", ':');
    assert IndexOf(":0000", ':') == 0;
    assert parts[0] == "";
    assert ParseInt("") == None by {
      assert Strip("") == "";
    }
  }
}

=== FILE: recommendations.dfy ===
/** `AutotuneEngine._calculate_recommendations` and
    `_calculate_basal_recommendation`: from the deviations table and the
    profile, one ISF row (only when there are deviations), one carb ratio row
    and one row per basal schedule entry. Python's `round` rounds half to
    even on binary floats; the model rounds half up on reals (`Round`). */
module Recommendations {
  import opened PyValues
  import opened Numeric
  import opened Text
  import opened Nightscout
  import opened Deviations
  import opened Seqs

  /** One recommendation row: Parameter, Pump, Autotune, Days Missing. */
  datatype Recommendation = Recommendation(parameter: string, pump: real, autotune: real, daysMissing: int)

  const IsfLabel: string := "ISF[mg/dL/U]"
  const CarbRatioLabel: string := "CarbRatio(g/U)"
  const DefaultBasalTime: string := "00:00"
  const DefaultBasalRate: real := 0.5
  const MinRate: real := 0.1
  const MaxRate: real := 5.0

  function SumDeviations(devs: seq<DeviationRecord>): real {
    if |devs| == 0 then 0.0 else devs[0].deviation + SumDeviations(devs[1..])
  }

  /** The mean of the `deviation` column. */
  function MeanDeviation(devs: seq<DeviationRecord>): real
    requires |devs| > 0
  {
    SumDeviations(devs) / |devs| as real
  }

  /** The Autotune value of the ISF row: 10 % lower when the mean deviation
      is above 5, 10 % higher when it is below -5, rounded to one decimal. */
  function IsfAutotune(mean: real, current: real): (r: real)
    ensures mean > 5.0 ==> current * 0.9 - 0.05 < r <= current * 0.9 + 0.05
    ensures mean < -5.0 ==> current * 1.1 - 0.05 < r <= current * 1.1 + 0.05
    ensures -5.0 <= mean <= 5.0 ==> current - 0.05 < r <= current + 0.05
  {
    assert Pow10(1) == 10.0;
    if mean > 5.0 then Round(current * 0.9, 1)
    else if mean < -5.0 then Round(current * 1.1, 1)
    else Round(current, 1)
  }

  /** A sensitivity of 50 with a mean deviation of 8 becomes 45.0. */
  lemma IsfHighMeanExample()
    ensures IsfAutotune(8.0, 50.0) == 45.0
  {
    assert 50.0 * 0.9 == 450 as real / Pow10(1);
    RoundExact(450, 1);
  }

  /** The hour a schedule time starts at: the integer before the first ':',
      0 when that is not an integer. */
  function HourOf(time: string): (h: int)
    ensures ParseInt(Split(time, ':')[0]).None? ==> h == 0
  {
    match ParseInt(Split(time, ':')[0])
    case Some(h) => h
    case None => 0
  }

  /** A time written as two digits, ':' and anything, starts at the hour
      the digits spell. */
  lemma HourOfPadded(h: nat, rest: string)
    requires h < 100
    ensures HourOf(Pad2(h) + ":" + rest) == h
  {
    var p := Pad2(h);
    var s := p + ":" + rest;
    assert s[2] == ':' && s[0] == p[0] && s[1] == p[1];
    assert IsDigit(p[0]) && IsDigit(p[1]);
    assert IndexOf(s, ':') == 2;
    assert s[..2] == p;
    assert Split(s, ':')[0] == p;
  }

  /** `timestamp.dt.hour` of a local-time timestamp in seconds. */
  function HourOfDay(ts: int): (h: int)
    ensures 0 <= h < 24
  {
    (ts / 3600) % 24
  }

  /** The window test on hours: `hour >= h` and `hour < (h + 1) % 24`. */
  predicate InHourWindow(hour: int, h: int) {
    h <= hour < (h + 1) % 24
  }

  /** For an hour of the day the window is exactly hour h when h is 0..22;
      h = 23 and h >= 24 select nothing, and h < -1 wraps round to the hours
      before (h + 1) % 24. */
  lemma HourWindowExact(hour: int, h: int)
    requires 0 <= hour < 24
    ensures InHourWindow(hour, h) <==>
      (0 <= h <= 22 && hour == h) || (h < -1 && hour < (h + 1) % 24)
  {
  }

  /** The test a record passes to count for the hour `h`. */
  function Candidate(h: int): DeviationRecord -> bool {
    (d: DeviationRecord) => d.basalOnly && InHourWindow(HourOfDay(d.timestamp), h)
  }

  /** The basal-only records in the hour window of `h`, in table order and
      with their duplicates. */
  function Candidates(devs: seq<DeviationRecord>, h: int): (c: seq<DeviationRecord>)
    ensures forall d :: d in c <==> d in devs && d.basalOnly && InHourWindow(HourOfDay(d.timestamp), h)
  {
    if |devs| == 0 then []
    else
      var d := devs[0];
      assert devs == [d] + devs[1..];
      (if d.basalOnly && InHourWindow(HourOfDay(d.timestamp), h) then [d] else []) + Candidates(devs[1..], h)
  }

  /** The candidates are as many as the records that pass the test, and
      each passing record sits at its rank among them: table order and
      duplicates are kept, so the count compared with the minimum is the
      number of passing records. */
  lemma {:induction false} CandidatesKept(devs: seq<DeviationRecord>, h: int)
    ensures Kept(devs, Candidate(h), Candidates(devs, h))
  {
    if |devs| > 0 {
      CandidatesKept(devs[1..], h);
      KeptCons(devs, Candidate(h), Candidates(devs[1..], h));
    }
  }

  /** The 23:00 entry never collects data. */
  lemma LastHourHasNoCandidates(devs: seq<DeviationRecord>)
    ensures Candidates(devs, 23) == []
  {
  }

  function MinPoints(aggressive: bool): nat {
    if aggressive then 2 else 3
  }

  function Threshold(aggressive: bool): real {
    if aggressive then 10.0 else 20.0
  }

  function Clamp(x: real): (r: real)
    ensures MinRate <= r <= MaxRate
    ensures MinRate <= x <= MaxRate ==> r == x
  {
    if x < MinRate then MinRate else if x > MaxRate then MaxRate else x
  }

  /** Whether the basal rule has enough data to adjust the rate. */
  predicate EnoughData(devs: seq<DeviationRecord>, time: string, aggressive: bool) {
    |devs| > 0 && |Candidates(devs, HourOf(time))| >= MinPoints(aggressive)
  }

  /** `_calculate_basal_recommendation`. Without enough data the current rate
      comes back untouched (no clamp, no rounding); otherwise the rate moves
      10 % against a mean deviation beyond the threshold, is clamped to
      [0.1, 5.0] and rounded to two decimals. */
  function BasalRecommendation(devs: seq<DeviationRecord>, time: string, current: real, aggressive: bool)
    : (r: real)
    ensures !EnoughData(devs, time, aggressive) ==> r == current
    ensures EnoughData(devs, time, aggressive) ==> MinRate <= r <= MaxRate
  {
    if |devs| == 0 then current
    else
      var relevant := Candidates(devs, HourOf(time));
      if |relevant| < MinPoints(aggressive) then current
      else
        var clamped := Step(current, MeanDeviation(relevant), aggressive);
        assert MinRate == 10 as real / Pow10(2) && MaxRate == 500 as real / Pow10(2);
        RoundWithin(clamped, 2, 10, 500);
        Round(clamped, 2)
  }

  /** The rate moved 10 % against a mean deviation beyond the threshold,
      then clamped to [0.1, 5.0]. */
  function Step(current: real, mean: real, aggressive: bool): (r: real)
    ensures MinRate <= r <= MaxRate
  {
    var factor :=
      if mean > Threshold(aggressive) then 1.1
      else if mean < -Threshold(aggressive) then 0.9
      else 1.0;
    Clamp(current * factor)
  }

  /** With enough data, a mean deviation within the threshold leaves a rate
      already in [0.1, 5.0] with two decimals unchanged. */
  lemma BasalKeptWithinThreshold(devs: seq<DeviationRecord>, time: string, n: int, aggressive: bool)
    requires EnoughData(devs, time, aggressive) && 10 <= n <= 500
    requires var mean := MeanDeviation(Candidates(devs, HourOf(time)));
             -Threshold(aggressive) <= mean <= Threshold(aggressive)
    ensures BasalRecommendation(devs, time, n as real / 100.0, aggressive) == n as real / 100.0
  {
    var current := n as real / 100.0;
    assert Pow10(2) == 100.0;
    assert 0.1 <= current <= 5.0;
    assert Clamp(current * 1.0) == current;
    RoundExact(n, 2);
    assert Round(current, 2) == current;
  }

  /** The rate only moves in the direction of the mean deviation: up when
      it exceeds the threshold, down when it is below minus the threshold
      (as long as the clamp does not intervene). */
  lemma BasalDirection(devs: seq<DeviationRecord>, time: string, current: real, aggressive: bool)
    requires EnoughData(devs, time, aggressive)
    ensures var mean := MeanDeviation(Candidates(devs, HourOf(time)));
            var r := BasalRecommendation(devs, time, current, aggressive);
            (mean > Threshold(aggressive) && MinRate <= current * 1.1 <= MaxRate ==>
               current * 1.1 - 0.005 < r <= current * 1.1 + 0.005)
            && (mean < -Threshold(aggressive) && MinRate <= current * 0.9 <= MaxRate ==>
                  current * 0.9 - 0.005 < r <= current * 0.9 + 0.005)
  {
    assert Pow10(2) == 100.0;
  }

  /** A schedule entry's time, "00:00" when missing. */
  function EntryTime(e: ScheduleEntry): string {
    if e.time.Some? then e.time.value else DefaultBasalTime
  }

  /** A schedule entry's rate, 0.5 when missing. */
  function EntryRate(e: ScheduleEntry): real {
    if e.value.Some? then e.value.value else DefaultBasalRate
  }

  /** One row per basal schedule entry, in schedule order. */
  function BasalRows(devs: seq<DeviationRecord>, schedule: seq<ScheduleEntry>, aggressive: bool)
    : (rows: seq<Recommendation>)
    ensures |rows| == |schedule|
    ensures forall k :: 0 <= k < |schedule| ==>
              rows[k] == Recommendation(EntryTime(schedule[k]), EntryRate(schedule[k]),
                BasalRecommendation(devs, EntryTime(schedule[k]), EntryRate(schedule[k]), aggressive), 0)
  {
    if |schedule| == 0 then []
    else
      var e := schedule[0];
      [Recommendation(EntryTime(e), EntryRate(e), BasalRecommendation(devs, EntryTime(e), EntryRate(e), aggressive), 0)]
        + BasalRows(devs, schedule[1..], aggressive)
  }

  function BasalSchedule(profile: NsProfile): seq<ScheduleEntry> {
    if profile.basal.Some? then profile.basal.value else []
  }

  /** `_calculate_recommendations`. */
  function Recommend(devs: seq<DeviationRecord>, profile: NsProfile, aggressive: bool)
    : (r: Result<seq<Recommendation>>)
    ensures r.Err? <==> (|devs| > 0 && FirstValue(profile.sens, DefaultIsf).Err?)
                        || FirstValue(profile.carbratio, DefaultCarbRatio).Err?
    ensures r.Ok? ==> |r.value| == (if |devs| > 0 then 1 else 0) + 1 + |BasalSchedule(profile)|
  {
    var isfRows :=
      if |devs| == 0 then Ok([])
      else match FirstValue(profile.sens, DefaultIsf)
        case Err(e) => Err(e)
        case Ok(isf) =>
          Ok([Recommendation(IsfLabel, isf, IsfAutotune(MeanDeviation(devs), isf), 0)]);
    if isfRows.Err? then Err(isfRows.error)
    else match FirstValue(profile.carbratio, DefaultCarbRatio)
      case Err(e) => Err(e)
      case Ok(cr) =>
        Ok(isfRows.value + [Recommendation(CarbRatioLabel, cr, cr, 0)]
          + BasalRows(devs, BasalSchedule(profile), aggressive))
  }

  /** The layout of the rows: the ISF row first exactly when there are
      deviations, then the carb ratio row with Autotune equal to Pump, then
      the basal rows in schedule order. */
  lemma RecommendLayout(devs: seq<DeviationRecord>, profile: NsProfile, aggressive: bool)
    requires Recommend(devs, profile, aggressive).Ok?
    ensures var rows := Recommend(devs, profile, aggressive).value;
            var off := if |devs| > 0 then 1 else 0;
            (|devs| > 0 ==> rows[0].parameter == IsfLabel
                             && rows[0].pump == FirstValue(profile.sens, DefaultIsf).value
                             && rows[0].autotune == IsfAutotune(MeanDeviation(devs), rows[0].pump))
            && rows[off].parameter == CarbRatioLabel
            && rows[off].pump == rows[off].autotune == FirstValue(profile.carbratio, DefaultCarbRatio).value
            && rows[off + 1..] == BasalRows(devs, BasalSchedule(profile), aggressive)
  {
  }

  function BasalOnlyAt(timestamp: int, deviation: real): DeviationRecord {
    DeviationRecord(timestamp, 120.0, deviation, 0, true, 5.0)
  }

  /** Three basal-only deviations of `x` at 02:00, 02:05 and 02:10. */
  function ThreeAtTwo(x: real): seq<DeviationRecord> {
    [BasalOnlyAt(7200, x), BasalOnlyAt(7500, x), BasalOnlyAt(7800, x)]
  }

  lemma TwoOClock()
    ensures HourOf("02:00") == 2
  {
    HourOfPadded(2, "00");
    assert Pad2(2) + ":" + "00" == "02:00";
  }

  /** The 02:00 entry collects all three. */
  lemma ThreeAtTwoCandidates(x: real)
    ensures Candidates(ThreeAtTwo(x), 2) == ThreeAtTwo(x)
  {
    var d := ThreeAtTwo(x);
    assert HourOfDay(7200) == 2 && HourOfDay(7500) == 2 && HourOfDay(7800) == 2;
    assert d[1..] == [d[1], d[2]] && d[1..][1..] == [d[2]] && d[1..][1..][1..] == [];
    assert Candidates(d[1..][1..], 2) == [d[2]];
    assert Candidates(d[1..], 2) == [d[1], d[2]];
  }

  /** Their mean is `x`. */
  lemma ThreeAtTwoMean(x: real)
    ensures MeanDeviation(ThreeAtTwo(x)) == x
  {
    var d := ThreeAtTwo(x);
    assert d[1..] == [d[1], d[2]] && d[1..][1..] == [d[2]] && d[1..][1..][1..] == [];
    assert SumDeviations(d[1..][1..]) == x;
    assert SumDeviations(d[1..]) == 2.0 * x;
  }

  /** With enough data, a rate whose clamped step is a two-decimal number
      becomes that number. */
  lemma RateOfMean(devs: seq<DeviationRecord>, time: string, current: real, aggressive: bool, mean: real, n: int)
    requires EnoughData(devs, time, aggressive)
    requires MeanDeviation(Candidates(devs, HourOf(time))) == mean
    requires Step(current, mean, aggressive) == n as real / 100.0
    ensures BasalRecommendation(devs, time, current, aggressive) == n as real / 100.0
  {
    assert Pow10(2) == 100.0;
    RoundExact(n, 2);
  }

  /** Three basal-only deviations of +25 between 02:00 and 02:10 raise a
      02:00 rate of 0.8 to 0.88 in standard mode. */
  lemma StandardRaiseExample()
    ensures BasalRecommendation(
              [BasalOnlyAt(7200, 25.0), BasalOnlyAt(7500, 25.0), BasalOnlyAt(7800, 25.0)],
              "02:00", 0.8, false) == 0.88
  {
    TwoOClock();
    ThreeAtTwoCandidates(25.0);
    ThreeAtTwoMean(25.0);
    RateOfMean(ThreeAtTwo(25.0), "02:00", 0.8, false, 25.0, 88);
  }

  /** A mean deviation of +15 is beyond the aggressive threshold but within
      the standard one: only aggressive mode raises the rate. */
  lemma ModeSensitivityExample()
    ensures var devs := [BasalOnlyAt(7200, 15.0), BasalOnlyAt(7500, 15.0), BasalOnlyAt(7800, 15.0)];
            BasalRecommendation(devs, "02:00", 1.0, true) == 1.1
            && BasalRecommendation(devs, "02:00", 1.0, false) == 1.0
  {
    TwoOClock();
    ThreeAtTwoCandidates(15.0);
    ThreeAtTwoMean(15.0);
    RateOfMean(ThreeAtTwo(15.0), "02:00", 1.0, true, 15.0, 110);
    RateOfMean(ThreeAtTwo(15.0), "02:00", 1.0, false, 15.0, 100);
  }
}

=== FILE: seqs.dfy ===
/** What a filter keeps, stated once for every filter of the model. The
    result is as long as the number of elements passing the test, and the
    element at position k of the input, when it passes, sits at the index
    given by the count of passing elements before k. That fixes both the
    order and the multiplicity of what a filter keeps. Also the joining of
    per-element pieces (`Gather`) that reference definitions are read as. */
module Seqs {

  /** The number of elements of `s` that satisfy `p`. */
  function CountWhere<T>(s: seq<T>, p: T -> bool): (n: nat)
    ensures n <= |s|
  {
    if |s| == 0 then 0 else (if p(s[0]) then 1 else 0) + CountWhere(s[1..], p)
  }

  /** `r` holds the elements of `s` that pass `p`, in order: each passing
      element at its rank among the passing ones, and nothing else. */
  predicate Kept<T(==)>(s: seq<T>, p: T -> bool, r: seq<T>) {
    |r| == CountWhere(s, p)
    && forall k :: 0 <= k < |s| && p(s[k]) ==>
         CountWhere(s[..k], p) < |r| && r[CountWhere(s[..k], p)] == s[k]
  }

  /** As `Kept`, for a filter that also converts: the element at each rank
      is related by `img` to the passing element it comes from. */
  predicate Ranked<T, U>(s: seq<T>, p: T -> bool, img: (T, U) -> bool, r: seq<U>) {
    |r| == CountWhere(s, p)
    && forall k :: 0 <= k < |s| && p(s[k]) ==>
         CountWhere(s[..k], p) < |r| && img(s[k], r[CountWhere(s[..k], p)])
  }

  /** Counting over a prefix of `s` splits off the first element. */
  lemma CountWhereTail<T>(s: seq<T>, p: T -> bool)
    requires |s| > 0
    ensures CountWhere(s[..0], p) == 0
    ensures forall k :: 1 <= k <= |s| ==>
              CountWhere(s[..k], p) == (if p(s[0]) then 1 else 0) + CountWhere(s[1..][..k - 1], p)
  {
    forall k | 1 <= k <= |s|
      ensures CountWhere(s[..k], p) == (if p(s[0]) then 1 else 0) + CountWhere(s[1..][..k - 1], p)
    {
      assert s[..k][0] == s[0];
      assert s[..k][1..] == s[1..][..k - 1];
    }
  }

  /** No element passes: the count is zero. */
  lemma {:induction false} CountWhereNone<T>(s: seq<T>, p: T -> bool)
    requires forall k :: 0 <= k < |s| ==> !p(s[k])
    ensures CountWhere(s, p) == 0
  {
    if |s| > 0 {
      assert forall k :: 0 <= k < |s[1..]| ==> s[1..][k] == s[k + 1];
      CountWhereNone(s[1..], p);
    }
  }

  /** One passing element is enough for a positive count. */
  lemma {:induction false} CountWhereSome<T>(s: seq<T>, p: T -> bool, k: nat)
    requires k < |s| && p(s[k])
    ensures CountWhere(s, p) >= 1
  {
    if k > 0 {
      assert s[1..][k - 1] == s[k];
      CountWhereSome(s[1..], p, k - 1);
    }
  }

  /** A filter that keeps or drops the first element and filters the rest
      keeps what the whole input passes. */
  lemma KeptCons<T>(s: seq<T>, p: T -> bool, rest: seq<T>)
    requires |s| > 0 && Kept(s[1..], p, rest)
    ensures Kept(s, p, (if p(s[0]) then [s[0]] else []) + rest)
  {
    var r := (if p(s[0]) then [s[0]] else []) + rest;
    CountWhereTail(s, p);
    forall k | 0 <= k < |s| && p(s[k])
      ensures CountWhere(s[..k], p) < |r| && r[CountWhere(s[..k], p)] == s[k]
    {
      if k > 0 {
        assert s[k] == s[1..][k - 1];
      }
    }
  }

  /** The same for a converting filter: `head` is the converted first
      element when it passes, and empty otherwise. */
  lemma RankedCons<T, U>(s: seq<T>, p: T -> bool, img: (T, U) -> bool, head: seq<U>, rest: seq<U>)
    requires |s| > 0
    requires p(s[0]) ==> |head| == 1 && img(s[0], head[0])
    requires !p(s[0]) ==> head == []
    requires Ranked(s[1..], p, img, rest)
    ensures Ranked(s, p, img, head + rest)
  {
    var r := head + rest;
    CountWhereTail(s, p);
    forall k | 0 <= k < |s| && p(s[k])
      ensures CountWhere(s[..k], p) < |r| && img(s[k], r[CountWhere(s[..k], p)])
    {
      if k > 0 {
        assert s[k] == s[1..][k - 1];
      }
    }
  }

  /** The pieces `f` gives for the elements of `s`, joined in order. */
  function Gather<T, U>(s: seq<T>, f: T -> seq<U>): seq<U> {
    if |s| == 0 then [] else f(s[0]) + Gather(s[1..], f)
  }

  /** One more element adds its piece at the end. */
  lemma {:induction false} GatherAppend<T, U>(s: seq<T>, x: T, f: T -> seq<U>)
    ensures Gather(s + [x], f) == Gather(s, f) + f(x)
  {
    if |s| == 0 {
      assert s + [x] == [x];
      assert Gather([x], f) == f(x) + Gather([], f);
    } else {
      GatherAppend(s[1..], x, f);
      assert (s + [x])[1..] == s[1..] + [x];
      assert Gather(s + [x], f) == f(s[0]) + (Gather(s[1..], f) + f(x));
    }
  }

  /** A non-empty sequence is its front followed by its last element. */
  lemma FrontLast<T>(s: seq<T>)
    requires |s| > 0
    ensures s[..|s| - 1] + [s[|s| - 1]] == s
  {
  }
}

=== FILE: sorting.dfy ===
/** Python's `sorted(xs, key=...)`: a stable sort. Elements whose keys
    compare equal keep their input order. The sort is written as an
    insertion sort over an arbitrary "less or equal" relation on elements. */
module Sorting {

  ghost predicate Total<T(!new)>(le: (T, T) -> bool) {
    forall a, b :: le(a, b) || le(b, a)
  }

  ghost predicate Transitive<T(!new)>(le: (T, T) -> bool) {
    forall a, b, c :: le(a, b) && le(b, c) ==> le(a, c)
  }

  predicate SortedBy<T>(xs: seq<T>, le: (T, T) -> bool) {
    forall i, j :: 0 <= i < j < |xs| ==> le(xs[i], xs[j])
  }

  /** `x` placed before the first element it is less or equal to. */
  function Insert<T>(x: T, ys: seq<T>, le: (T, T) -> bool): (r: seq<T>)
    ensures |r| == |ys| + 1
    ensures multiset(r) == multiset(ys) + multiset{x}
  {
    if |ys| == 0 then [x]
    else if le(x, ys[0]) then [x] + ys
    else
      assert ys == [ys[0]] + ys[1..];
      [ys[0]] + Insert(x, ys[1..], le)
  }

  function Sort<T>(xs: seq<T>, le: (T, T) -> bool): (r: seq<T>)
    ensures |r| == |xs|
    ensures multiset(r) == multiset(xs)
  {
    if |xs| == 0 then []
    else
      assert xs == [xs[0]] + xs[1..];
      Insert(xs[0], Sort(xs[1..], le), le)
  }

  /** The elements of `xs` equivalent to `p` under `le`, in order. */
  function Equivalents<T>(xs: seq<T>, le: (T, T) -> bool, p: T): (r: seq<T>)
    ensures |r| <= |xs|
  {
    if |xs| == 0 then []
    else (if le(xs[0], p) && le(p, xs[0]) then [xs[0]] else []) + Equivalents(xs[1..], le, p)
  }

  lemma {:induction false} InsertSorted<T(!new)>(x: T, ys: seq<T>, le: (T, T) -> bool)
    requires Total(le) && Transitive(le) && SortedBy(ys, le)
    ensures SortedBy(Insert(x, ys, le), le)
  {
    if |ys| == 0 || le(x, ys[0]) {
    } else {
      var tail := ys[1..];
      assert SortedBy(tail, le);
      InsertSorted(x, tail, le);
      var ins := Insert(x, tail, le);
      assert le(ys[0], x);
      forall k | 0 <= k < |ins|
        ensures le(ys[0], ins[k])
      {
        assert ins[k] in multiset(ins);
        assert ins[k] == x || ins[k] in multiset(tail);
        if ins[k] != x {
          var j :| 0 <= j < |tail| && tail[j] == ins[k];
          assert ys[j + 1] == ins[k];
        }
      }
      var r := [ys[0]] + ins;
      assert r == Insert(x, ys, le);
      forall i, j | 0 <= i < j < |r|
        ensures le(r[i], r[j])
      {
        if i > 0 {
          assert r[i] == ins[i - 1] && r[j] == ins[j - 1];
        } else {
          assert r[j] == ins[j - 1];
        }
      }
    }
  }

  /** With a total preorder the result is sorted. */
  lemma {:induction false} SortSorted<T(!new)>(xs: seq<T>, le: (T, T) -> bool)
    requires Total(le) && Transitive(le)
    ensures SortedBy(Sort(xs, le), le)
  {
    if |xs| > 0 {
      SortSorted(xs[1..], le);
      InsertSorted(xs[0], Sort(xs[1..], le), le);
    }
  }

  lemma {:induction false} InsertEquivalents<T(!new)>(x: T, ys: seq<T>, le: (T, T) -> bool, p: T)
    requires Transitive(le)
    ensures Equivalents(Insert(x, ys, le), le, p)
      == (if le(x, p) && le(p, x) then [x] else []) + Equivalents(ys, le, p)
  {
    var head := if le(x, p) && le(p, x) then [x] else [];
    if |ys| == 0 {
      assert Insert(x, ys, le) == [x];
      assert Equivalents([x], le, p) == head + Equivalents([x][1..], le, p);
    } else if le(x, ys[0]) {
      var r := [x] + ys;
      assert r[1..] == ys;
    } else {
      var y := ys[0];
      InsertEquivalents(x, ys[1..], le, p);
      var r := [y] + Insert(x, ys[1..], le);
      assert r[1..] == Insert(x, ys[1..], le);
      var yhead := if le(y, p) && le(p, y) then [y] else [];
      assert Equivalents(r, le, p) == yhead + Equivalents(r[1..], le, p);
      assert !(le(x, p) && le(p, y)) by {
        assert !le(x, y);
      }
      assert yhead + head == head + yhead by {
        if |head| > 0 {
          assert |yhead| == 0;
        }
      }
      assert Equivalents(ys, le, p) == yhead + Equivalents(ys[1..], le, p);
    }
  }

  /** Stability: the elements equivalent to any `p` appear in the result in
      the same order as in the input. */
  lemma {:induction false} SortStable<T(!new)>(xs: seq<T>, le: (T, T) -> bool, p: T)
    requires Transitive(le)
    ensures Equivalents(Sort(xs, le), le, p) == Equivalents(xs, le, p)
  {
    if |xs| > 0 {
      SortStable(xs[1..], le, p);
      InsertEquivalents(xs[0], Sort(xs[1..], le), le, p);
    }
  }

  /** Comparison of elements by an integer key. */
  function KeyLe<T>(key: T -> int): (T, T) -> bool {
    (a, b) => key(a) <= key(b)
  }

  /** Sorting by an integer key: the relation is a total preorder. */
  function SortByKey<T(!new)>(xs: seq<T>, key: T -> int): (r: seq<T>)
    ensures multiset(r) == multiset(xs)
    ensures SortedBy(r, KeyLe(key))
  {
    SortSorted(xs, KeyLe(key));
    Sort(xs, KeyLe(key))
  }

  /** Stable sorting by an integer key keeps, for every key value, the input
      order of the elements carrying it. */
  lemma SortByKeyStable<T(!new)>(xs: seq<T>, key: T -> int, p: T)
    ensures Equivalents(SortByKey(xs, key), KeyLe(key), p) == Equivalents(xs, KeyLe(key), p)
  {
    SortStable(xs, KeyLe(key), p);
  }
}

=== FILE: tables.dfy ===
/** The recommendation table: a pandas frame as named columns and rows
    that carry their index label, plus the helpers of
    data_processing/table_calculations.py. */
module Tables {
  import opened PyValues
  import opened Numeric
  import opened Text

  /** A frame row: its index label and its cells. */
  datatype Row = Row(index: int, cells: map<string, Cell>)

  datatype Frame = Frame(columns: seq<string>, rows: seq<Row>)

  /** A cell of a row; a row built without the column holds NaN there, as
      pandas fills it. */
  function At(r: Row, column: string): Cell {
    if column in r.cells then r.cells[column] else NaNValue
  }

  /** `df.empty`: no rows or no columns. */
  predicate IsEmpty(f: Frame) {
    |f.rows| == 0 || |f.columns| == 0
  }

  /** `df[column].tolist()`. */
  function ColumnValues(rows: seq<Row>, column: string): (r: seq<Cell>)
    ensures |r| == |rows|
    ensures forall j :: 0 <= j < |rows| ==> r[j] == At(rows[j], column)
  {
    if |rows| == 0 then [] else [At(rows[0], column)] + ColumnValues(rows[1..], column)
  }

  /** `reset_index(drop=True)`: labels become the positions. */
  function ResetIndex(rows: seq<Row>): (r: seq<Row>)
    ensures |r| == |rows|
    ensures forall j :: 0 <= j < |rows| ==> r[j] == Row(j, rows[j].cells)
  {
    seq(|rows|, j requires 0 <= j < |rows| => Row(j, rows[j].cells))
  }

  // ------------------------------------------------------------ adjust_table

  predicate InRange(r: Row, lo: int, hi: int) {
    lo <= r.index <= hi
  }

  /** The number of rows `.loc[lo:hi]` selects. */
  function Selected(rows: seq<Row>, lo: int, hi: int): (n: nat)
    ensures n <= |rows|
  {
    if |rows| == 0 then 0
    else Selected(rows[..|rows| - 1], lo, hi) + (if InRange(rows[|rows| - 1], lo, hi) then 1 else 0)
  }

  /** `.loc[lo:hi, column] = vals`: the k-th selected row gets vals[k]. */
  function WriteSlice(rows: seq<Row>, lo: int, hi: int, column: string, vals: seq<Cell>): (r: seq<Row>)
    requires |vals| == Selected(rows, lo, hi)
    ensures |r| == |rows|
    ensures forall j :: 0 <= j < |rows| && !InRange(rows[j], lo, hi) ==> r[j] == rows[j]
    ensures forall j :: 0 <= j < |rows| && InRange(rows[j], lo, hi) ==>
              Selected(rows[..j], lo, hi) < |vals|
              && r[j] == Row(rows[j].index, rows[j].cells[column := vals[Selected(rows[..j], lo, hi)]])
    decreases |rows|
  {
    if |rows| == 0 then []
    else
      var n := |rows| - 1;
      var init := rows[..n];
      var last := rows[n];
      var m := Selected(init, lo, hi);
      assert forall j :: 0 <= j < n ==> init[..j] == rows[..j] && init[j] == rows[j];
      assert rows[..n] == init;
      if InRange(last, lo, hi) then
        WriteSlice(init, lo, hi, column, vals[..m]) + [Row(last.index, last.cells[column := vals[m]])]
      else
        WriteSlice(init, lo, hi, column, vals) + [last]
  }

  /** The last label `.loc[start:end]` takes: `min(start + len(col) - 1,
      len(df) - 1)`, computed from positions although `.loc` reads labels. */
  function EndLabel(f: Frame, col: seq<Cell>, start: int): int {
    if start + |col| - 1 < |f.rows| - 1 then start + |col| - 1 else |f.rows| - 1
  }

  /** The rows labelled start .. end are as many as the values taken from
      the column, `end - start + 1`; pandas raises ValueError otherwise. */
  predicate Fits(f: Frame, col: seq<Cell>, start: int) {
    Selected(f.rows, start, EndLabel(f, col, start)) == EndLabel(f, col, start) - start + 1
  }

  /** The rank of row `j` among the rows a column starting at `start`
      selects: the number of selected rows above it. */
  function Rank(f: Frame, col: seq<Cell>, start: int, j: int): nat
    requires 0 <= j <= |f.rows|
  {
    Selected(f.rows[..j], start, EndLabel(f, col, start))
  }

  /** One column of `adjust_table`. Err is the ValueError pandas raises
      when the selected rows and the values differ in number. */
  function AdjustColumn(f: Frame, col: seq<Cell>, name: string, start: int): (r: Result<Frame>)
    ensures |col| == 0 || start >= |f.rows| || name !in f.columns ==> r == Ok(f)
    ensures r.Err? <==> |col| > 0 && start < |f.rows| && name in f.columns && !Fits(f, col, start)
    ensures r.Ok? ==> r.value.columns == f.columns && |r.value.rows| == |f.rows|
    ensures r.Ok? ==> forall j :: 0 <= j < |f.rows| ==>
              r.value.rows[j].index == f.rows[j].index
              && (forall c :: c != name ==> At(r.value.rows[j], c) == At(f.rows[j], c))
    ensures r.Ok? && |col| > 0 && start < |f.rows| && name in f.columns ==>
              forall j :: 0 <= j < |f.rows| ==>
                (!InRange(f.rows[j], start, EndLabel(f, col, start)) ==> r.value.rows[j] == f.rows[j])
                && (InRange(f.rows[j], start, EndLabel(f, col, start)) ==>
                      Rank(f, col, start, j) < |col|
                      && r.value.rows[j] == Row(f.rows[j].index, f.rows[j].cells[name := col[Rank(f, col, start, j)]]))
  {
    if |col| == 0 then Ok(f)
    else
      var hi := EndLabel(f, col, start);
      if start < |f.rows| && name in f.columns then
        var slice := col[..hi - start + 1];
        if |slice| != Selected(f.rows, start, hi) then
          Err(ValueError("Must have equal len keys and value when setting with an iterable"))
        else
          var rows := WriteSlice(f.rows, start, hi, name, slice);
          assert forall j :: 0 <= j < |f.rows| && InRange(f.rows[j], start, hi) ==>
            At(rows[j], name) == slice[Selected(f.rows[..j], start, hi)];
          Ok(Frame(f.columns, rows))
      else Ok(f)
  }

  /** `adjust_table(df, new_columns, column_names, start_row_index)`. The
      name of a column is looked up only when the start lies inside the
      table, as the short-circuiting `and` of the source does. */
  function AdjustTable(f: Frame, cols: seq<seq<Cell>>, names: seq<string>, start: int): (r: Result<Frame>)
    ensures r.Ok? ==> r.value.columns == f.columns && |r.value.rows| == |f.rows|
    ensures r.Ok? ==> forall j :: 0 <= j < |f.rows| ==>
              r.value.rows[j].index == f.rows[j].index
              && (forall c :: c !in names ==> At(r.value.rows[j], c) == At(f.rows[j], c))
    ensures start >= |f.rows| ==> r == Ok(f)
    decreases |cols|
  {
    if |cols| == 0 then Ok(f)
    else
      var last := |cols| - 1;
      match AdjustTable(f, cols[..last], names, start)
      case Err(e) => Err(e)
      case Ok(g) =>
        if |cols[last]| == 0 || start >= |g.rows| then Ok(g)
        else if last >= |names| then Err(IndexError)
        else AdjustColumn(g, cols[last], names[last], start)
  }

  /** Column `i` of the call writes the cell of column `c` in row `j`: it
      has values and a name, the name is a column, and the label of row `j`
      lies between the start and the end label of that column. */
  predicate Writes(f: Frame, cols: seq<seq<Cell>>, names: seq<string>, start: int, i: int, j: int, c: string) {
    0 <= i < |cols| && i < |names| && names[i] == c && c in f.columns
    && |cols[i]| > 0 && start < |f.rows| && 0 <= j < |f.rows|
    && InRange(f.rows[j], start, EndLabel(f, cols[i], start))
  }

  /** The last column of the call writes there. */
  predicate WritesLast(f: Frame, cols: seq<seq<Cell>>, names: seq<string>, start: int, j: int, c: string) {
    |cols| > 0 && Writes(f, cols, names, start, |cols| - 1, j, c)
  }

  /** Column `i` is the last column of the call that writes there. */
  predicate LastWriter(f: Frame, cols: seq<seq<Cell>>, names: seq<string>, start: int, i: int, j: int, c: string) {
    Writes(f, cols, names, start, i, j, c)
    && forall i2 :: i < i2 < |cols| ==> !Writes(f, cols, names, start, i2, j, c)
  }

  /** No column of the call writes the cell of column `c` in row `j`. */
  predicate Unwritten(f: Frame, cols: seq<seq<Cell>>, names: seq<string>, start: int, j: int, c: string) {
    forall i :: 0 <= i < |cols| ==> !Writes(f, cols, names, start, i, j, c)
  }

  /** The selection depends on the labels only. */
  lemma {:induction false} SelectedSame(a: seq<Row>, b: seq<Row>, lo: int, hi: int)
    requires |a| == |b| && forall j :: 0 <= j < |a| ==> a[j].index == b[j].index
    ensures Selected(a, lo, hi) == Selected(b, lo, hi)
  {
    if |a| > 0 {
      SelectedSame(a[..|a| - 1], b[..|b| - 1], lo, hi);
    }
  }

  /** Two frames with the same labels select alike and rank alike. */
  lemma SameLabels(f: Frame, g: Frame, col: seq<Cell>, start: int)
    requires |f.rows| == |g.rows| && forall j :: 0 <= j < |f.rows| ==> f.rows[j].index == g.rows[j].index
    ensures Fits(f, col, start) <==> Fits(g, col, start)
    ensures forall j :: 0 <= j <= |f.rows| ==> Rank(f, col, start, j) == Rank(g, col, start, j)
  {
    SelectedSame(f.rows, g.rows, start, EndLabel(f, col, start));
    forall j | 0 <= j <= |f.rows|
      ensures Rank(f, col, start, j) == Rank(g, col, start, j)
    {
      SelectedSame(f.rows[..j], g.rows[..j], start, EndLabel(f, col, start));
    }
  }

  /** `adjust_table` fails exactly when the start lies inside the table and
      a non-empty column has no name, or names a column whose selected rows
      are not as many as the values taken. */
  lemma {:induction false} AdjustTableOk(f: Frame, cols: seq<seq<Cell>>, names: seq<string>, start: int)
    ensures AdjustTable(f, cols, names, start).Ok? <==>
              start >= |f.rows|
              || forall i :: 0 <= i < |cols| && |cols[i]| > 0 ==>
                   i < |names| && (names[i] in f.columns ==> Fits(f, cols[i], start))
    decreases |cols|
  {
    if |cols| > 0 {
      var last := |cols| - 1;
      var init := cols[..last];
      AdjustTableOk(f, init, names, start);
      assert forall i :: 0 <= i < last ==> init[i] == cols[i];
      if AdjustTable(f, init, names, start).Ok? {
        var g := AdjustTable(f, init, names, start).value;
        SameLabels(f, g, cols[last], start);
      }
    }
  }

  /** The last column of the call writes its window and leaves every other
      cell as the earlier columns left it. */
  lemma AdjustTableLast(f: Frame, cols: seq<seq<Cell>>, names: seq<string>, start: int)
    requires |cols| > 0 && AdjustTable(f, cols, names, start).Ok?
    ensures AdjustTable(f, cols[..|cols| - 1], names, start).Ok?
    ensures forall j, c :: 0 <= j < |f.rows| && !WritesLast(f, cols, names, start, j, c) ==>
              At(AdjustTable(f, cols, names, start).value.rows[j], c)
              == At(AdjustTable(f, cols[..|cols| - 1], names, start).value.rows[j], c)
    ensures forall j, c :: WritesLast(f, cols, names, start, j, c) ==>
              Rank(f, cols[|cols| - 1], start, j) < |cols[|cols| - 1]|
              && At(AdjustTable(f, cols, names, start).value.rows[j], c)
                 == cols[|cols| - 1][Rank(f, cols[|cols| - 1], start, j)]
  {
    var last := |cols| - 1;
    var g0 := AdjustTable(f, cols[..last], names, start).value;
    var g := AdjustTable(f, cols, names, start).value;
    SameLabels(f, g0, cols[last], start);
    forall j, c | WritesLast(f, cols, names, start, j, c)
      ensures Rank(f, cols[last], start, j) < |cols[last]|
              && At(g.rows[j], c) == cols[last][Rank(f, cols[last], start, j)]
    {
      assert EndLabel(g0, cols[last], start) == EndLabel(f, cols[last], start);
      assert InRange(g0.rows[j], start, EndLabel(g0, cols[last], start));
      assert g == AdjustColumn(g0, cols[last], names[last], start).value;
    }
  }

  /** A cell that no column of a successful `adjust_table` writes keeps its
      old value. */
  lemma {:induction false} AdjustTableUnwritten(f: Frame, cols: seq<seq<Cell>>, names: seq<string>, start: int)
    requires AdjustTable(f, cols, names, start).Ok?
    ensures forall j, c :: 0 <= j < |f.rows| && Unwritten(f, cols, names, start, j, c) ==>
              At(AdjustTable(f, cols, names, start).value.rows[j], c) == At(f.rows[j], c)
    decreases |cols|
  {
    if |cols| > 0 {
      var last := |cols| - 1;
      var init := cols[..last];
      AdjustTableLast(f, cols, names, start);
      AdjustTableUnwritten(f, init, names, start);
      forall j, c | 0 <= j < |f.rows| && Unwritten(f, cols, names, start, j, c)
        ensures Unwritten(f, init, names, start, j, c)
      {
        forall i | 0 <= i < last
          ensures !Writes(f, init, names, start, i, j, c)
        {
          assert init[i] == cols[i];
          assert !Writes(f, cols, names, start, i, j, c);
        }
      }
    }
  }

  /** One column more: when `g` is `g0` with the window of the last column
      written, the last writer of every cell of `g` is known from that of
      `g0`. */
  lemma LastWriterStep(f: Frame, cols: seq<seq<Cell>>, init: seq<seq<Cell>>, names: seq<string>, start: int,
                       g0: Frame, g: Frame)
    requires |cols| > 0 && init == cols[..|cols| - 1] && |g0.rows| == |f.rows| && |g.rows| == |f.rows|
    requires forall j, c :: 0 <= j < |f.rows| && !WritesLast(f, cols, names, start, j, c) ==>
               At(g.rows[j], c) == At(g0.rows[j], c)
    requires forall j, c :: WritesLast(f, cols, names, start, j, c) ==>
               Rank(f, cols[|cols| - 1], start, j) < |cols[|cols| - 1]|
               && At(g.rows[j], c) == cols[|cols| - 1][Rank(f, cols[|cols| - 1], start, j)]
    requires forall i, j, c :: LastWriter(f, init, names, start, i, j, c) ==>
               Rank(f, init[i], start, j) < |init[i]| && At(g0.rows[j], c) == init[i][Rank(f, init[i], start, j)]
    ensures forall i, j, c :: LastWriter(f, cols, names, start, i, j, c) ==>
              Rank(f, cols[i], start, j) < |cols[i]| && At(g.rows[j], c) == cols[i][Rank(f, cols[i], start, j)]
  {
    var last := |cols| - 1;
    forall i, j, c | LastWriter(f, cols, names, start, i, j, c)
      ensures Rank(f, cols[i], start, j) < |cols[i]| && At(g.rows[j], c) == cols[i][Rank(f, cols[i], start, j)]
    {
      if i < last {
        assert !WritesLast(f, cols, names, start, j, c);
        assert init[i] == cols[i];
        forall i2 | i < i2 < last
          ensures !Writes(f, init, names, start, i2, j, c)
        {
          assert init[i2] == cols[i2];
          assert !Writes(f, cols, names, start, i2, j, c);
        }
        assert LastWriter(f, init, names, start, i, j, c);
        assert At(g0.rows[j], c) == init[i][Rank(f, init[i], start, j)];
        assert At(g.rows[j], c) == At(g0.rows[j], c);
      } else {
        assert WritesLast(f, cols, names, start, j, c);
      }
    }
  }

  /** In a successful `adjust_table` the cell of column `c` in row `j`
      holds the value of the last column i written there, taken at the
      rank of row `j` among the rows that column selects. */
  lemma {:induction false} AdjustTablePositions(f: Frame, cols: seq<seq<Cell>>, names: seq<string>, start: int)
    requires AdjustTable(f, cols, names, start).Ok?
    ensures forall i, j, c :: LastWriter(f, cols, names, start, i, j, c) ==>
              Rank(f, cols[i], start, j) < |cols[i]|
              && At(AdjustTable(f, cols, names, start).value.rows[j], c) == cols[i][Rank(f, cols[i], start, j)]
    decreases |cols|
  {
    if |cols| > 0 {
      var init := cols[..|cols| - 1];
      AdjustTableLast(f, cols, names, start);
      AdjustTablePositions(f, init, names, start);
      LastWriterStep(f, cols, init, names, start, AdjustTable(f, init, names, start).value, AdjustTable(f, cols, names, start).value);
    }
  }

  /** `AdjustTablePositions` for one cell. */
  lemma AdjustTableAt(f: Frame, cols: seq<seq<Cell>>, names: seq<string>, start: int, i: int, j: int, c: string)
    requires AdjustTable(f, cols, names, start).Ok? && LastWriter(f, cols, names, start, i, j, c)
    ensures Rank(f, cols[i], start, j) < |cols[i]|
    ensures At(AdjustTable(f, cols, names, start).value.rows[j], c) == cols[i][Rank(f, cols[i], start, j)]
  {
    AdjustTablePositions(f, cols, names, start);
  }

  /** With labels running 0, 1, 2, ... the rank of a selected row is its
      distance from the start, so row `j` receives `col[j - start]`. */
  lemma PositionalRank(f: Frame, col: seq<Cell>, start: nat)
    requires forall j :: 0 <= j < |f.rows| ==> f.rows[j].index == j
    requires |col| > 0 && start < |f.rows|
    ensures Fits(f, col, start)
    ensures forall j :: 0 <= j < |f.rows| && InRange(f.rows[j], start, EndLabel(f, col, start)) ==>
              Rank(f, col, start, j) == j - start
  {
    var hi := EndLabel(f, col, start);
    forall k | 0 <= k <= |f.rows|
      ensures Selected(f.rows[..k], start, hi) == if k <= start then 0 else if k <= hi + 1 then k - start else hi + 1 - start
    {
      SelectedPositions(f.rows, start, hi, k);
    }
    assert f.rows[..|f.rows|] == f.rows;
  }

  lemma {:induction false} SelectedPositions(rows: seq<Row>, lo: nat, hi: int, k: nat)
    requires forall j :: 0 <= j < |rows| ==> rows[j].index == j
    requires k <= |rows|
    ensures Selected(rows[..k], lo, hi) == if k <= lo then 0 else if k <= hi + 1 then k - lo else if hi + 1 >= lo then hi + 1 - lo else 0
  {
    if k > 0 {
      SelectedPositions(rows, lo, hi, k - 1);
      assert rows[..k][..k - 1] == rows[..k - 1];
    }
  }

  // ------------------------------------------------------------ isfloat / sum

  /** `isfloat(v)`: `float(v)` raises neither ValueError nor TypeError. */
  predicate IsFloat(v: Cell) {
    ToFloat(v).Ok?
  }

  /** Python float addition; NaN absorbs. */
  function AddFloat(a: Float, b: Float): (r: Float)
    ensures r.NaN? <==> a.NaN? || b.NaN?
  {
    if a.NaN? || b.NaN? then NaN else Fin(a.v + b.v)
  }

  /** `table_data[-48:]`. */
  function Last48<T>(xs: seq<T>): (r: seq<T>)
    ensures |r| == if |xs| < 48 then |xs| else 48
    ensures r == xs[|xs| - |r|..]
  {
    if |xs| <= 48 then xs else xs[|xs| - 48..]
  }

  /** The float total of a list of records. */
  function SumRecords(rows: seq<map<string, Cell>>, column: string): (r: Result<Float>)
    ensures r.Err? <==> exists k :: 0 <= k < |rows| && column !in rows[k]
  {
    if |rows| == 0 then Ok(Fin(0.0))
    else
      match SumRecords(rows[..|rows| - 1], column)
      case Err(e) => Err(e)
      case Ok(t) =>
        var row := rows[|rows| - 1];
        if column !in row then Err(KeyError(column))
        else Ok(if IsFloat(row[column]) then AddFloat(t, ToFloat(row[column]).value) else t)
  }

  /** `sum_column(table_data, column)`: the float values of the column over
      the last 48 records. */
  function SumColumn(rows: seq<map<string, Cell>>, column: string): (r: Result<Float>)
    ensures r.Err? <==> exists k :: |rows| - |Last48(rows)| <= k < |rows| && column !in rows[k]
    ensures r.Ok? ==> r.value == Total(Readable(Last48(rows), column))
  {
    var tail := Last48(rows);
    assert forall k :: 0 <= k < |tail| ==> tail[k] == rows[|rows| - |tail| + k];
    SumRecordsTotal(tail, column);
    SumRecords(tail, column)
  }

  /** Records before the last 48 never count. */
  lemma SumColumnIgnoresOlder(older: seq<map<string, Cell>>, recent: seq<map<string, Cell>>, column: string)
    requires |recent| == 48
    ensures SumColumn(older + recent, column) == SumColumn(recent, column)
  {
    var all := older + recent;
    assert all[|all| - 48..] == recent;
  }

  /** The values `float()` reads in a column, in record order; records
      without the column and values it rejects give nothing. */
  function Readable(rows: seq<map<string, Cell>>, column: string): (fs: seq<Float>)
    ensures |fs| <= |rows|
  {
    if |rows| == 0 then []
    else
      var row := rows[|rows| - 1];
      Readable(rows[..|rows| - 1], column)
        + (if column in row && IsFloat(row[column]) then [ToFloat(row[column]).value] else [])
  }

  /** The sum of the finite values. */
  function FiniteTotal(fs: seq<Float>): real {
    if |fs| == 0 then 0.0
    else FiniteTotal(fs[..|fs| - 1]) + (if fs[|fs| - 1].Fin? then fs[|fs| - 1].v else 0.0)
  }

  /** A float total: NaN as soon as one value is NaN, else the real sum. */
  function Total(fs: seq<Float>): Float {
    if exists k :: 0 <= k < |fs| && fs[k].NaN? then NaN else Fin(FiniteTotal(fs))
  }

  /** Adding one more value to a total is float addition. */
  lemma TotalSnoc(fs: seq<Float>, x: Float)
    ensures Total(fs + [x]) == AddFloat(Total(fs), x)
  {
    var r := fs + [x];
    assert r[..|r| - 1] == fs;
    if x.NaN? {
      assert r[|r| - 1].NaN?;
    }
    forall k | 0 <= k < |fs| ensures r[k] == fs[k] { }
  }

  /** The running total of `sum_column` is the total of the values `float()`
      reads: NaN when one of them is NaN, their sum otherwise. */
  lemma {:induction false} SumRecordsTotal(rows: seq<map<string, Cell>>, column: string)
    ensures SumRecords(rows, column).Ok? ==> SumRecords(rows, column).value == Total(Readable(rows, column))
  {
    if |rows| > 0 && SumRecords(rows, column).Ok? {
      var init := rows[..|rows| - 1];
      var row := rows[|rows| - 1];
      SumRecordsTotal(init, column);
      var t := SumRecords(init, column).value;
      if column in row && IsFloat(row[column]) {
        var x := ToFloat(row[column]).value;
        assert Readable(rows, column) == Readable(init, column) + [x];
        assert SumRecords(rows, column) == Ok(AddFloat(t, x));
        TotalSnoc(Readable(init, column), x);
      } else {
        assert Readable(rows, column) == Readable(init, column) + [];
        assert Readable(init, column) + [] == Readable(init, column);
      }
    }
  }

  /** What the dashboard sums are the "%.2f" texts of the cleaned table:
      such a text is read as the number rounded to two decimals, and the
      blank text is skipped. */
  lemma ReadsShownText(x: real)
    ensures IsFloat(Text(Fixed2(x))) && ToFloat(Text(Fixed2(x))) == Ok(Fin(Round(x, 2)))
    ensures !IsFloat(Text(""))
  {
    ParseFixed2(x);
  }
}

=== FILE: text.dfy ===
/** String handling the modelled code relies on: Python's `int()` and
    `float()` parsing of strings, `str.split`, substring tests, slicing, and
    the fixed-point formatting used for table cells. Only ASCII whitespace,
    ASCII digits and plain decimal notation are modelled. */
module Text {
  import opened PyValues
  import opened Numeric

  predicate IsDigit(c: char) {
    '0' <= c <= '9'
  }

  /** `str.isalpha`, restricted to ASCII letters. */
  predicate IsAlpha(c: char) {
    ('a' <= c <= 'z') || ('A' <= c <= 'Z')
  }

  predicate AllDigits(s: string) {
    forall i :: 0 <= i < |s| ==> IsDigit(s[i])
  }

  function DigitChar(d: nat): (c: char)
    requires d < 10
    ensures IsDigit(c) && c as int == '0' as int + d
  {
    ('0' as int + d) as char
  }

  function DigitValue(c: char): (d: nat)
    requires IsDigit(c)
    ensures d < 10
  {
    c as int - '0' as int
  }

  /** The value of a string of decimal digits, most significant first. */
  function DigitsValue(s: string): nat
    requires AllDigits(s)
  {
    DigitsUpTo(s, |s|)
  }

  /** The value of the first `k` digits of `s`. */
  function DigitsUpTo(s: string, k: nat): nat
    requires k <= |s| && AllDigits(s)
  {
    if k == 0 then 0 else DigitsUpTo(s, k - 1) * 10 + DigitValue(s[k - 1])
  }

  /** Appending a digit shifts the value one decimal place. */
  lemma {:induction false} DigitsAppend(s: string, c: char)
    requires AllDigits(s) && IsDigit(c)
    ensures AllDigits(s + [c]) && DigitsValue(s + [c]) == DigitsValue(s) * 10 + DigitValue(c)
  {
    DigitsUpToPrefix(s, s + [c], |s|);
  }

  lemma {:induction false} DigitsUpToPrefix(s: string, t: string, k: nat)
    requires AllDigits(s) && AllDigits(t) && k <= |s| && k <= |t| && s[..k] == t[..k]
    ensures DigitsUpTo(s, k) == DigitsUpTo(t, k)
  {
    if k > 0 {
      assert s[k - 1] == s[..k][k - 1] == t[..k][k - 1] == t[k - 1];
      assert s[..k - 1] == s[..k][..k - 1] == t[..k][..k - 1] == t[..k - 1];
      DigitsUpToPrefix(s, t, k - 1);
    }
  }

  /** `str(n)` for a non-negative integer. */
  function NatToString(n: nat): (s: string)
    ensures |s| >= 1 && AllDigits(s)
  {
    if n < 10 then [DigitChar(n)] else NatToString(n / 10) + [DigitChar(n % 10)]
  }

  lemma {:induction false} NatToStringValue(n: nat)
    ensures DigitsValue(NatToString(n)) == n
  {
    if n >= 10 {
      NatToStringValue(n / 10);
      DigitsAppend(NatToString(n / 10), DigitChar(n % 10));
      assert NatToString(n) == NatToString(n / 10) + [DigitChar(n % 10)];
      assert DigitValue(DigitChar(n % 10)) == n % 10;
    } else {
      assert DigitsUpTo(NatToString(n), 0) == 0;
    }
  }

  /** `f'{n:02d}'` for 0 <= n < 100. */
  function Pad2(n: nat): (s: string)
    requires n < 100
    ensures |s| == 2 && AllDigits(s) && DigitsValue(s) == n
  {
    var s := [DigitChar(n / 10), DigitChar(n % 10)];
    TwoDigitsValue(s);
    s
  }

  lemma TwoDigitsValue(s: string)
    requires |s| == 2 && AllDigits(s)
    ensures DigitsValue(s) == DigitValue(s[0]) * 10 + DigitValue(s[1])
  {
    assert DigitsUpTo(s, 1) == DigitValue(s[0]);
  }

  lemma OneDigitValue(s: string)
    requires |s| == 1 && AllDigits(s)
    ensures DigitsValue(s) == DigitValue(s[0])
  {
    assert DigitsUpTo(s, 0) == 0;
  }

  /** The ASCII characters `str.isspace` accepts, which `str.strip()`,
      `int()` and `float()` remove: tab, line feed, vertical tab, form feed,
      carriage return, the four separators 0x1c to 0x1f, and space. */
  predicate IsSpace(c: char) {
    (9 <= c as int <= 13) || (28 <= c as int <= 32)
  }

  predicate AllSpace(s: string) {
    forall i :: 0 <= i < |s| ==> IsSpace(s[i])
  }

  function TrimLeft(s: string): (t: string)
    ensures |t| <= |s|
    ensures |t| > 0 ==> !IsSpace(t[0])
  {
    if |s| > 0 && IsSpace(s[0]) then TrimLeft(s[1..]) else s
  }

  function TrimRight(s: string): (t: string)
    ensures |t| <= |s|
    ensures |t| > 0 ==> !IsSpace(t[|t| - 1])
  {
    if |s| > 0 && IsSpace(s[|s| - 1]) then TrimRight(s[..|s| - 1]) else s
  }

  /** `str.strip()`. */
  function Strip(s: string): string {
    TrimRight(TrimLeft(s))
  }

  lemma {:induction false} TrimLeftSpaces(pre: string, x: string)
    requires AllSpace(pre)
    ensures TrimLeft(pre + x) == TrimLeft(x)
  {
    if |pre| > 0 {
      assert (pre + x)[1..] == pre[1..] + x;
      TrimLeftSpaces(pre[1..], x);
    } else {
      assert pre + x == x;
    }
  }

  lemma {:induction false} TrimRightSpaces(x: string, post: string)
    requires AllSpace(post)
    ensures TrimRight(x + post) == TrimRight(x)
  {
    if |post| > 0 {
      assert (x + post)[..|x + post| - 1] == x + post[..|post| - 1];
      TrimRightSpaces(x, post[..|post| - 1]);
    } else {
      assert x + post == x;
    }
  }

  /** Surrounding whitespace is what `strip()` removes. */
  lemma StripSurrounded(pre: string, core: string, post: string)
    requires AllSpace(pre) && AllSpace(post)
    requires |core| > 0 && !IsSpace(core[0]) && !IsSpace(core[|core| - 1])
    ensures Strip(pre + core + post) == core
  {
    assert pre + core + post == pre + (core + post);
    TrimLeftSpaces(pre, core + post);
    assert (core + post)[0] == core[0];
    TrimRightSpaces(core, post);
  }

  lemma StripUnchanged(s: string)
    requires |s| > 0 && !IsSpace(s[0]) && !IsSpace(s[|s| - 1])
    ensures Strip(s) == s
  {
  }

  /** An optional leading sign: whether it is '-', and the rest. */
  function SplitSign(t: string): (negAndBody: (bool, string))
    ensures |negAndBody.1| <= |t|
  {
    if |t| > 0 && (t[0] == '-' || t[0] == '+') then (t[0] == '-', t[1..]) else (false, t)
  }

  /** Python `int(s)` on a string: None where Python raises ValueError.
      Underscores between digits (accepted by Python) are not modelled. */
  function ParseInt(s: string): (r: Option<int>)
    ensures AllDigits(s) && |s| > 0 ==> r == Some(DigitsValue(s))
    ensures var (neg, body) := SplitSign(Strip(s));
            (r.Some? <==> |body| > 0 && AllDigits(body))
            && (r.Some? ==> r.value == if neg then -(DigitsValue(body) as int) else DigitsValue(body))
  {
    var (neg, body) := SplitSign(Strip(s));
    if AllDigits(s) && |s| > 0 then
      assert !IsSpace(s[0]) && !IsSpace(s[|s| - 1]);
      StripUnchanged(s);
      Some(DigitsValue(s))
    else if |body| > 0 && AllDigits(body) then
      Some(if neg then -(DigitsValue(body) as int) else DigitsValue(body))
    else None
  }

  /** `str(n)` for any integer. */
  function IntToString(n: int): (s: string)
    ensures |s| > 0 && !IsSpace(s[0]) && !IsSpace(s[|s| - 1])
  {
    if n < 0 then "-" + NatToString(-n) else NatToString(n)
  }

  /** `int()` reads back `str(n)`, whatever whitespace surrounds it. */
  lemma ParseIntOfString(pre: string, n: int, post: string)
    requires AllSpace(pre) && AllSpace(post)
    ensures ParseInt(pre + IntToString(n) + post) == Some(n)
  {
    StripSurrounded(pre, IntToString(n), post);
    if n < 0 {
      NatToStringValue(-n);
      assert IntToString(n)[1..] == NatToString(-n);
    } else {
      NatToStringValue(n);
    }
  }

  /** Index of the first occurrence of `c` in `s`. */
  function IndexOf(s: string, c: char): (i: nat)
    requires c in s
    ensures i < |s| && s[i] == c
    ensures forall j :: 0 <= j < i ==> s[j] != c
  {
    IndexFrom(s, c, 0)
  }

  function IndexFrom(s: string, c: char, k: nat): (i: nat)
    requires k <= |s| && c in s[k..]
    ensures k <= i < |s| && s[i] == c
    ensures forall j :: k <= j < i ==> s[j] != c
    decreases |s| - k
  {
    if s[k] == c then k
    else
      assert c in s[k + 1..] by {
        var j :| k <= j < |s| && s[j] == c;
        assert s[k + 1..][j - k - 1] == c;
      }
      IndexFrom(s, c, k + 1)
  }

  /** An unsigned decimal literal with an optional fraction, as Python's
      `float()` reads it ("5", "5.", ".5", "5.25"). */
  function ParseDecimal(b: string): Option<real> {
    if '.' in b then
      var i := IndexOf(b, '.');
      PointValue(b[..i], b[i + 1..])
    else if |b| > 0 && AllDigits(b) then Some(DigitsValue(b) as real)
    else None
  }

  /** The value of integral digits `ip`, a point and fraction digits `fp`. */
  function PointValue(ip: string, fp: string): Option<real> {
    if AllDigits(ip) && AllDigits(fp) && |ip| + |fp| > 0 then
      Some(DigitsValue(ip) as real + FractionValue(fp))
    else None
  }

  /** The value of the digits after a decimal point. */
  function FractionValue(fp: string): real
    requires AllDigits(fp)
  {
    DigitsValue(fp) as real / Pow10(|fp|)
  }

  predicate IsNanWord(b: string) {
    |b| == 3 && (b[0] == 'n' || b[0] == 'N') && (b[1] == 'a' || b[1] == 'A') && (b[2] == 'n' || b[2] == 'N')
  }

  /** Python `float(s)` on a string: None where Python raises ValueError.
      Exponents, underscores and infinities are not modelled. */
  function ParseFloat(s: string): (r: Option<Float>)
    ensures |s| == 0 ==> r.None?
  {
    var (neg, body) := SplitSign(Strip(s));
    if IsNanWord(body) then Some(NaN)
    else match ParseDecimal(body)
      case Some(v) => Some(Fin(if neg then -v else v))
      case None => None
  }

  /** Python `float(v)` on a cell: strings are parsed, None raises
      TypeError, an unparsable string raises ValueError. */
  function ToFloat(c: Cell): (r: Result<Float>)
    ensures c.Num? ==> r == Ok(Fin(c.x))
    ensures c.NaNValue? ==> r == Ok(NaN)
    ensures c.Null? ==> r.Err? && r.error.TypeError?
    ensures c.Text? ==> (r.Ok? <==> ParseFloat(c.s).Some?)
    ensures c.Text? && ParseFloat(c.s).Some? ==> r == Ok(ParseFloat(c.s).value)
    ensures r.Err? ==> r.error.TypeError? || r.error.ValueError?
  {
    match c
    case Num(x) => Ok(Fin(x))
    case NaNValue => Ok(NaN)
    case Null => Err(TypeError("float() argument must be a string or a real number, not 'NoneType'"))
    case Text(s) =>
      match ParseFloat(s)
      case Some(f) => Ok(f)
      case None => Err(ValueError("could not convert string to float: " + s))
  }

  /** `str.split(d)`: the pieces between occurrences of `d`. */
  function Split(s: string, d: char): (parts: seq<string>)
    ensures |parts| >= 1
    ensures forall k :: 0 <= k < |parts| ==> d !in parts[k]
  {
    if d in s then
      var i := IndexOf(s, d);
      [s[..i]] + Split(s[i + 1..], d)
    else [s]
  }

  /** Two pieces joined by the separator split back into the two. */
  lemma SplitPair(a: string, b: string, d: char)
    requires d !in a && d !in b
    ensures Split(a + [d] + b, d) == [a, b]
  {
    var s := a + [d] + b;
    assert s[|a|] == d;
    assert forall j :: 0 <= j < |a| ==> s[j] == a[j];
    var i := IndexOf(s, d);
    assert i == |a|;
    assert s[..i] == a;
    assert s[i + 1..] == b;
  }

  /** `str.replace(c, '')` for a single character. */
  function RemoveChar(s: string, c: char): (t: string)
    ensures c !in t && |t| <= |s|
    ensures forall x :: x in t ==> x in s
  {
    if |s| == 0 then "" else (if s[0] == c then "" else [s[0]]) + RemoveChar(s[1..], c)
  }

  /** A character that does not occur is not removed. */
  lemma {:induction false} RemoveCharAbsent(s: string, c: char)
    requires c !in s
    ensures RemoveChar(s, c) == s
  {
    if |s| > 0 {
      assert s == [s[0]] + s[1..];
      RemoveCharAbsent(s[1..], c);
    }
  }

  lemma {:induction false} RemoveCharAppend(s: string, t: string, c: char)
    ensures RemoveChar(s + t, c) == RemoveChar(s, c) + RemoveChar(t, c)
  {
    if |s| > 0 {
      assert (s + t)[1..] == s[1..] + t;
      RemoveCharAppend(s[1..], t, c);
    } else {
      assert s + t == t;
    }
  }

  /** The `sub in s` substring test. */
  predicate Contains(s: string, sub: string)
    decreases |s|
  {
    if |sub| > |s| then false else s[..|sub|] == sub || (|s| > 0 && Contains(s[1..], sub))
  }

  predicate StartsWith(s: string, prefix: string) {
    |prefix| <= |s| && s[..|prefix|] == prefix
  }

  /** `s[:n]` for n >= 0. */
  function Take(s: string, n: nat): (t: string)
    ensures |t| == if n < |s| then n else |s|
  {
    if n < |s| then s[..n] else s
  }

  /** `s[:-k]` for k > 0. */
  function DropLast(s: string, k: nat): (t: string)
    ensures |t| == if k < |s| then |s| - k else 0
  {
    if k < |s| then s[..|s| - k] else ""
  }

  /** The text of n / 100: a sign, the integral digits, a point and the
      two hundredths digits; with `trim`, a trailing zero digit is dropped
      ("2.60" becomes "2.6", "3.00" becomes "3.0"). */
  function HundredthsText(n: int, trim: bool): string {
    var m := if n < 0 then -n else n;
    (if n < 0 then "-" else "") + PointText(m / 100, m % 100, trim)
  }

  /** The unsigned text of q + r / 100. */
  function PointText(q: nat, r: nat, trim: bool): string
    requires r < 100
  {
    NatToString(q) + "." + FracDigits(r, trim)
  }

  function FracDigits(r: nat, trim: bool): (fp: string)
    requires r < 100
    ensures 1 <= |fp| <= 2 && AllDigits(fp)
  {
    if trim && r % 10 == 0 then [DigitChar(r / 10)] else Pad2(r)
  }

  lemma FracDigitsValue(r: nat, trim: bool)
    requires r < 100
    ensures FractionValue(FracDigits(r, trim)) == r as real / 100.0
  {
    var fp := FracDigits(r, trim);
    if trim && r % 10 == 0 {
      OneDigitValue(fp);
      assert Pow10(1) == 10.0;
    } else {
      assert Pow10(2) == 100.0;
    }
  }

  /** `f'{x:.2f}'` for a finite value, rounding half up to hundredths. */
  function Fixed2(x: real): string {
    HundredthsText(RoundToInt(x * 100.0), false)
  }

  /** `f'{f:.2f}'`: NaN prints as "nan". */
  function FormatFixed2(f: Float): string {
    match f
    case Fin(v) => Fixed2(v)
    case NaN => "nan"
  }

  /** `str(round(x, 2))`: the shortest text of a value with at most two
      decimals, which keeps at least one fractional digit ("2.6", "3.0",
      "2.61"). */
  function Repr2(x: real): string {
    HundredthsText(RoundToInt(x * 100.0), true)
  }

  /** `str(round(f, 2))` for a Python float. */
  function FloatRepr2(f: Float): string {
    match f
    case Fin(v) => Repr2(v)
    case NaN => "nan"
  }

  /** Reading back a "%.2f" text gives the value rounded to two decimals. */
  lemma ParseFixed2(x: real)
    ensures ParseFloat(Fixed2(x)) == Some(Fin(Round(x, 2)))
  {
    ParseHundredths(RoundToInt(x * 100.0), false);
    RoundTwoDecimals(x);
  }

  /** Reading back `str(round(x, 2))` gives the rounded value. */
  lemma ParseRepr2(x: real)
    ensures ParseFloat(Repr2(x)) == Some(Fin(Round(x, 2)))
  {
    ParseHundredths(RoundToInt(x * 100.0), true);
    RoundTwoDecimals(x);
  }

  lemma RoundTwoDecimals(x: real)
    ensures Round(x, 2) == RoundToInt(x * 100.0) as real / 100.0
  {
    assert Pow10(2) == 100.0;
    RoundByUnfold(x, 100.0);
  }

  lemma ParseHundredths(n: int, trim: bool)
    ensures ParseFloat(HundredthsText(n, trim)) == Some(Fin(n as real / 100.0))
  {
    var w := ParseHundredthsAt(n, trim);
  }

  lemma ParseHundredthsAt(n: int, trim: bool) returns (w: real)
    ensures ParseFloat(HundredthsText(n, trim)) == Some(Fin(w)) && w == n as real / 100.0
  {
    var m := if n < 0 then -n else n;
    var q, r := m / 100, m % 100;
    var body := PointText(q, r, trim);
    var v := q as real + r as real / 100.0;
    ParsePointText(q, r, trim);
    HundredthsSum(m);
    w := SignedHundredths(n, m, v);
    var t := (if n < 0 then "-" else "") + body;
    assert HundredthsText(n, trim) == t;
    ParseSigned(n < 0, body, v);
  }

  lemma SignedHundredths(n: int, m: nat, v: real) returns (w: real)
    requires m == (if n < 0 then -n else n) && v == m as real / 100.0
    ensures w == (if n < 0 then -v else v) && w == n as real / 100.0
  {
    w := if n < 0 then -v else v;
  }

  lemma ParsePointText(q: nat, r: nat, trim: bool)
    requires r < 100
    ensures var body := PointText(q, r, trim);
      |body| >= 2 && IsDigit(body[0]) && IsDigit(body[|body| - 1])
      && ParseDecimal(body) == Some(q as real + r as real / 100.0)
  {
    var ip := NatToString(q);
    var fp := FracDigits(r, trim);
    NatToStringValue(q);
    FracDigitsValue(r, trim);
    ParseDecimalPoint(ip, fp);
    var body := ip + "." + fp;
    assert body[0] == ip[0] && body[|body| - 1] == fp[|fp| - 1];
  }

  lemma HundredthsSum(m: nat)
    ensures (m / 100) as real + (m % 100) as real / 100.0 == m as real / 100.0
  {
    assert m == (m / 100) * 100 + m % 100;
  }

  lemma ParseDecimalPoint(ip: string, fp: string)
    requires AllDigits(ip) && AllDigits(fp) && |ip| >= 1
    ensures ParseDecimal(ip + "." + fp) == Some(DigitsValue(ip) as real + FractionValue(fp))
  {
    var body := ip + "." + fp;
    assert body == ip + ("." + fp);
    IndexOfAfterDigits(ip, "." + fp);
    SplitAtPoint(body, |ip|, ip, fp);
  }

  lemma SplitAtPoint(body: string, i: nat, ip: string, fp: string)
    requires '.' in body && IndexOf(body, '.') == i
    requires body[..i] == ip && body[i + 1..] == fp
    ensures ParseDecimal(body) == PointValue(ip, fp)
  {
  }

  lemma {:induction false} IndexOfAfterDigits(ip: string, rest: string)
    requires AllDigits(ip) && |rest| > 0 && rest[0] == '.'
    ensures '.' in ip + rest && IndexOf(ip + rest, '.') == |ip|
  {
    assert (ip + rest)[|ip|] == '.';
    if |ip| > 0 {
      assert (ip + rest)[1..] == ip[1..] + rest;
      IndexOfAfterDigits(ip[1..], rest);
    }
  }

  /** A decimal body starting and ending with a digit, after an optional
      minus sign, is read by `float()` with that sign. */
  lemma ParseSigned(neg: bool, body: string, v: real)
    requires |body| >= 2 && IsDigit(body[0]) && IsDigit(body[|body| - 1])
    requires ParseDecimal(body) == Some(v)
    ensures ParseFloat((if neg then "-" else "") + body) == Some(Fin(if neg then -v else v))
  {
    var s := (if neg then "-" else "") + body;
    SignedStrip(neg, body);
    assert !IsNanWord(body);
    ParseFloatOf(s, neg, body);
  }

  lemma SignedStrip(neg: bool, body: string)
    requires |body| >= 2 && IsDigit(body[0]) && IsDigit(body[|body| - 1])
    ensures SplitSign(Strip((if neg then "-" else "") + body)) == (neg, body)
  {
    var s := (if neg then "-" else "") + body;
    assert s[|s| - 1] == body[|body| - 1];
    if neg {
      assert s[0] == '-' && s[1..] == body;
    } else {
      assert s == body;
    }
    StripUnchanged(s);
  }

  lemma ParseFloatOf(s: string, neg: bool, body: string)
    requires SplitSign(Strip(s)) == (neg, body) && !IsNanWord(body)
    ensures ParseFloat(s) == match ParseDecimal(body)
      case Some(v) => Some(Fin(if neg then -v else v))
      case None => None
  {
  }
}

=== FILE: values.dfy ===
/** Python-level values shared by every part of the model: optional and
    failing results, Python floats (which may be NaN) and the loosely typed
    cells that travel through record lists and pandas tables. */
module PyValues {

  datatype Option<+T> = None | Some(value: T)

  /** The exceptions the modelled code raises or catches. */
  datatype PyError =
    | ValueError(reason: string)
    | TypeError(reason: string)
    | KeyError(key: string)
    | IndexError
    | ZeroDivisionError
    | FetchError(reason: string)

  datatype Result<+T> = Ok(value: T) | Err(error: PyError)

  /** A Python float: a finite value or NaN (infinities are not modelled). */
  datatype Float = Fin(v: real) | NaN

  /** A value held in a record (dict) or a table cell: a number, NaN, a
      string or None. Python ints and floats are both `Num`. */
  datatype Cell = Num(x: real) | NaNValue | Text(s: string) | Null

  function FloatCell(f: Float): (c: Cell)
    ensures f.NaN? <==> c.NaNValue?
    ensures f.Fin? ==> c == Num(f.v)
  {
    match f
    case Fin(v) => Num(v)
    case NaN => NaNValue
  }

  /** Python truthiness: 0, "" and None are false; NaN is true. */
  predicate Truthy(c: Cell) {
    match c
    case Num(x) => x != 0.0
    case NaNValue => true
    case Text(s) => |s| > 0
    case Null => false
  }

  /** `pd.isna`: NaN and None. */
  predicate IsNA(c: Cell) {
    c.NaNValue? || c.Null?
  }

  /** Python's `Optional[float]` truthiness, as used for treatment fields. */
  predicate TruthyAmount(a: Option<real>) {
    a.Some? && a.value != 0.0
  }
}
